=== FILE: README.md ===
# Tree learners and small classifiers, in Dafny

This project models the learning core of a from-scratch Java classifier library,
which trains on integer feature vectors with integer class labels. It covers:

- **Decision-tree induction** (`DecisionTreeClassifier`). The split search draws a random subset of
  features, sorts the node's samples by each one and sweeps the boundaries between distinct values
  with the Gini gain. The node is partitioned on `sample[feature] <= threshold`. Recursion stops on
  depth, sample count and purity. Leaves hold the majority class.
- **The second-order gradient tree** (`GradientTree`). It has the same skeleton, with a gain and a
  leaf value computed from gradient and hessian sums.
- **Random-forest bagging** (`RandomForestClassifier`): bootstrap resamples, one tree per resample,
  and a majority vote.
- **Multi-class softmax boosting** (`MultiClassGradientBoostedTreesClassifier`). Each round grows one
  gradient tree per class, computes gradients and hessians, accumulates scores and takes an argMax.
- **The smaller classifiers:**
  - the one-level Gini stump (`SimpleDecisionTreeClassifier`);
  - the integer kernel perceptron;
  - weighted k-nearest-neighbours, with its partial selection sort and weighted vote;
  - nearest-neighbour;
  - the voting ensemble;
  - the one-vs-rest SVM wrapper;
  - the column-extraction and max-label helpers (`Utils`);
  - the linear kernel.

Every operation is a pure function (or a short method where the source has a loop worth proving),
following the source's branches, comparisons and tie-breaking. Decisions about modelling:

- **Randomness.** `java.util.Random` becomes an explicit generator state `Rng` and a caller-supplied
  `nextInt` whose results lie below its bound. `Collections.shuffle` is modelled as the JDK's
  Fisher–Yates loop. Every draw is threaded in the order the Java makes it, so a forest's trees
  share one generator, as in the source.
- **Numbers.** Doubles are exact `real`s, and `Math.exp` is an abstract positive function.
  Distances are an abstract function of the query and the stored row.
- **In-place sorting.** `List.sort` reorders the node's own index list. The model threads the
  reordered list into the partition. It uses a stable insertion sort, which yields the same
  order as the JDK's stable sort.
- **The gradient-tree gain.** The gradient tree scores splits with the gain exactly as the code
  writes it, `leftScore + rightScore - baseScore` with `leafScore = -G²/(H+λ)`. Split search,
  `buildNode`, `train` and the boosting rounds all use that gain. Under "## Findings", the model
  shows that this gain is the negated loss reduction, and it proves the intended gain separately.
- **The `secondOrder` flag.** `GradientTree` stores this flag but never reads it: leaves and gains
  always use hessians. A first-order variance objective therefore does not exist in the code.
- **Integer casts.** Java's `(int)` cast of a double truncates toward zero. `TruncateToInt` models
  this, so a sample or feature ratio whose product lies in `(-1, 0)` gives 0, as in Java.

Modules, one per source file plus shared pieces:

- `Common`, `Seqs`, `Impurity`, `Splitting`, `SplitSearch`, `Shuffle` and `Trees` hold the shared
  machinery: sums, argMax, gathers, class counts and Gini, partition and sort, the boundary sweep,
  the feature draw, and the tree type and its walk.
- `DecisionTree`, `GradientTree`, `RandomForest` and `Boosting` are the tree learners.
- `DecisionStump`, `KernelPerceptron`, `Kernels`, `WeightedKnn`, `NearestNeighbor`, `Voting`,
  `OneVsRest` and `Utils` are the smaller pieces.

## Model

| member | source | states |
|---|---|---|
| Common.ArgMaxInt | src/DecisionTreeClassifier.java:180-190 | `argMax` on counts returns an index of a maximal entry, and no earlier index ties it (lowest id wins) |
| Common.ArgMax | src/MultiClassGradientBoostedTreesClassifier.java:126-136 | `argMax` on doubles: a maximal index, strictly greater than every earlier entry |
| Common.ArgMaxAbove | src/WeightedKNearestNeighborsClassifier.java:60-69 | a scan that starts from a floor value and index -1 returns -1 exactly when no entry exceeds the floor; otherwise it returns the first maximal entry, which lies above the floor |
| Common.ArgMaxUnique | src/MultiClassGradientBoostedTreesClassifier.java:126-136 | any index that is maximal and strictly beats every earlier entry is the argMax: the tie-breaking is fully determined |
| Common.SumRealPermutation | src/GradientTree.java:91-95 | a sum of doubles does not depend on the order of the listed samples |
| Splitting.Partition | src/DecisionTreeClassifier.java:59-67 | the partition is total and disjoint: the side sizes add up to the input size, the two multisets add up to the input's, every left index has `features[i][f] <= threshold` and every right index does not |
| Splitting.PartitionCounts | src/GradientTree.java:46-51 | each index occurs on the left exactly as often as in the input when it goes left, and never otherwise; the right side is the dual |
| Splitting.PartitionPermutation | src/DecisionTreeClassifier.java:59-67 | partitioning a reordering of the index list yields the same multisets and side sizes |
| Splitting.SortByFeature | src/DecisionTreeClassifier.java:119-119 | sorting by one feature gives a permutation of the index list that is ordered by that feature's value |
| Splitting.BoundaryPartition | src/DecisionTreeClassifier.java:125-150 | at a sweep position between distinct values with `minSamplesLeaf` rows on both sides, the threshold `features[s[i]][f]` sends exactly the sorted prefix left, and it is an admissible threshold |
| Splitting.SweepCovers | src/DecisionTreeClassifier.java:125-138 | the sweep misses no admissible threshold: between two consecutive sorted values the only admissible threshold is the lower value, and only at a boundary |
| Splitting.SweepEnd | src/DecisionTreeClassifier.java:125-125 | a threshold at or above the largest value leaves the right side empty and is never admissible, which is why the sweep stops at `n - 1` |
| Splitting.AdmissiblePermutation | src/DecisionTreeClassifier.java:119-138 | whether a threshold is admissible depends only on the multiset of the node's rows, not on their order |
| Shuffle.ShuffleList | src/DecisionTreeClassifier.java:109-109 | `Collections.shuffle` returns a permutation of the list |
| Shuffle.CandidateFeatures | src/DecisionTreeClassifier.java:107-110 | the candidate features are `min(maxFeatures, d)` distinct ids, all in `[0, d)` |
| SplitSearch.SearchFeatures | src/DecisionTreeClassifier.java:117-155 | the per-feature sorts leave the index list a permutation of the node's rows |
| SplitSearch.FeatureSweepCorrect | src/DecisionTreeClassifier.java:125-154 | one feature's sweep never lowers the best gain. The result dominates every admissible threshold of that feature. A replacement is the lowest admissible threshold of strictly greatest gain, and it beats the earlier best |
| SplitSearch.SearchFeaturesCorrect | src/DecisionTreeClassifier.java:113-155 | over distinct candidates in draw order, the search reports the first split of strictly greatest gain above the start value, or nothing when no admissible threshold beats it |
| Impurity.ClassCounts | src/SimpleDecisionTreeClassifier.java:80-86 | `classCounts[c]` is the number of occurrences of `c`, and the counts sum to the number of labels |
| Impurity.ClassCountsAppend | src/DecisionTreeClassifier.java:122-129 | the counts of two label lists add up class by class |
| Impurity.Minus | src/DecisionTreeClassifier.java:123-129 | right counts derived as parent minus left counts are the per-class complement, with complementary total |
| Impurity.GiniExact | src/DecisionTreeClassifier.java:160-169 | `gini(counts)` (`Gini`, the loop of squared shares) equals `1 - Σc² / n²` |
| Impurity.GiniBounds | src/DecisionTreeClassifier.java:160-178 | Gini lies in `[0, 1)`, and it is 0 exactly when `isPure` holds |
| Impurity.IsPureMeansSingleClass | src/DecisionTreeClassifier.java:171-178 | `isPure` holds exactly when at most one class has a positive count |
| DecisionTree.NodeCounts | src/DecisionTreeClassifier.java:41-44 | the node's count of class `c` is the number of its rows labelled `c`, and the counts sum to the node size |
| DecisionTree.CountsSplit | src/DecisionTreeClassifier.java:122-129 | whenever the node's rows are divided in two, `leftCounts[c] + rightCounts[c] = parentCounts[c]` for every class |
| DecisionTree.RightCountsAreSuffixCounts | src/DecisionTreeClassifier.java:123-129 | after the sweep has passed `m` sorted rows, parent minus left counts are exactly the counts of the remaining suffix |
| DecisionTree.CountsPermutation | src/DecisionTreeClassifier.java:41-44 | class counts do not depend on the order of the node's rows |
| DecisionTree.CutGainAtBoundary | src/DecisionTreeClassifier.java:140-144 | the gain the sweep computes incrementally at a boundary equals the Gini gain of partitioning the node at that threshold from scratch |
| DecisionTree.FindBestSplit | src/DecisionTreeClassifier.java:102-158 | the index list comes back a permutation. A returned split is admissible, carries its true gain (positive), and is the first of strictly greatest gain in draw order. No admissible threshold of a drawn feature gains more than the returned gain, or more than 0 when none is returned |
| DecisionTree.BuildNode | src/DecisionTreeClassifier.java:36-80 | the tree satisfies `Grown`: majority-class leaves. An internal node appears only below `maxDepth`, on at least `minSamplesSplit` impure rows, with an admissible threshold of positive gain, and its children are grown from the two sides at `depth + 1`. The root split is the one `findBestSplit` chose |
| DecisionTree.SplitsWhenSomeGain | src/DecisionTreeClassifier.java:48-71 | the converse of the stopping rules: below `maxDepth`, on enough impure rows, any admissible threshold of positive gain on a drawn feature makes the node split; the later `minSamplesLeaf` test never turns it into a leaf |
| DecisionTree.GrownHeight | src/DecisionTreeClassifier.java:48-78 | a grown tree has at most `maxDepth - depth` levels of internal nodes |
| DecisionTree.GrownLeaves | src/DecisionTreeClassifier.java:82-87 | every leaf label is a class id in `[0, numClasses)` |
| DecisionTree.GrownFeatures | src/DecisionTreeClassifier.java:102-110 | every tested feature is below the row width, so prediction on a row of that width never reads out of bounds |
| DecisionTree.GrownChildren | src/DecisionTreeClassifier.java:59-78 | the children of an internal node are grown from exactly its left and right partitions |
| DecisionTree.GrownPermutation | src/DecisionTreeClassifier.java:36-80 | whether a tree is grown from a node depends only on the multiset of its rows, not on how earlier sorts reordered them |
| DecisionTree.Train | src/DecisionTreeClassifier.java:29-33 | there is no tree (a null root) exactly when there are no rows. Otherwise the tree is grown from all rows at depth 0, is at most `maxDepth` deep, tests only existing features, and holds class ids at its leaves |
| DecisionTree.Predict | src/DecisionTreeClassifier.java:90-100 | prediction answers exactly when there is a root, and its answer is one of the tree's leaf labels; `PredictIsCellMajority` says which |
| DecisionTree.GrownLeavesFit | src/DecisionTreeClassifier.java:36-87 | every leaf of a grown tree holds the majority class (lowest id on ties) of exactly the rows that the partitions on its path leave at it |
| DecisionTree.PredictIsCellMajority | src/DecisionTreeClassifier.java:90-100 | on a grown tree, `predict` answers any sample with the majority class of the training rows that reach the same leaf, and a training row lies among the rows of the leaf it reaches |
| DecisionTree.SplitGiniAtMostParent | src/DecisionTreeClassifier.java:140-144 | the gain `parentImpurity - (wLeft·gini(left) + wRight·gini(right))` of dividing a node in two is at most the parent's impurity |
| DecisionTree.ThresholdGainAtMostImpurity | src/DecisionTreeClassifier.java:46-56 | no threshold gains more than the node's Gini impurity, so a pure node has no threshold of positive gain: the purity stop never cuts off a split the search would make |
| Trees.Predict | src/GradientTree.java:150-157 | the walk ends at a leaf of the tree and returns its value; `PredictFits` relates that leaf to the rows that reach it |
| Trees.Cell | src/GradientTree.java:150-157 | the training rows that reach the leaf a sample reaches, by the same `<=` walk, are a sub-multiset of the node's rows |
| Trees.RowInOwnCell | src/GradientTree.java:46-51 | a training row is among the rows of the leaf its own feature values lead to |
| Trees.PredictFits | src/GradientTree.java:150-157 | when every leaf's value fits the rows that reach it, the value `predict` returns for a sample fits the rows of the leaf that sample reaches |
| GradientTree.SumOverSplit | src/GradientTree.java:46-51 | gradient and hessian sums over the two sides of any division of a node add up to the node's sums |
| GradientTree.SuffixSum | src/GradientTree.java:124-125 | `rightG = sumG - leftG` and `rightH = sumH - leftH` are the sums over the unswept suffix |
| GradientTree.LeafValuePermutation | src/GradientTree.java:66-83 | the leaf value `-ΣG / (ΣH + λ)` does not depend on the order of the leaf's samples |
| GradientTree.LeafValueMinimises | src/GradientTree.java:79-79 | the leaf value minimises the regularised second-order objective `G·w + (H+λ)·w²/2`, and that minimum is `leafScore / 2` |
| GradientTree.LeafValue | src/GradientTree.java:66-83 | `createLeaf`'s value over the listed samples minimises the regularised objective `ΣG·w + (ΣH+λ)·w²/2` over every `w` |
| GradientTree.LeafScore | src/GradientTree.java:145-148 | `leafScore` is never positive |
| GradientTree.SplitGainIsLossIncrease | src/GradientTree.java:124-129 | `SplitGain`, the gain as written, `leftScore + rightScore - baseScore`, is twice the amount by which the split raises the best achievable objective |
| GradientTree.PerfectSplitRejected | src/GradientTree.java:124-129 | on `G = (-1, 1)`, `H = (0, 0)`, `λ = 1`, the split lowers the objective, yet the gain as written is `-2`, so it is never taken |
| GradientTree.LossReduction | src/GradientTree.java:124-129 | the corrected gain is twice the amount by which the split lowers the best achievable objective |
| GradientTree.PerfectSplitAccepted | src/GradientTree.java:124-129 | on the same input, the corrected gain is `2`, so the split is taken |
| GradientTree.SplitGainIsNegatedReduction | src/GradientTree.java:124-129 | the gain as written is exactly the corrected gain negated, so the search ranks splits in the reverse of the intended order |
| GradientTree.SidesGain | src/GradientTree.java:113-129 | the gain as written, `leftScore + rightScore - baseScore`, computed from running left sums and total-minus-left right sums, equals the same gain computed over the two sides themselves |
| GradientTree.CutGainAtBoundary | src/GradientTree.java:113-139 | the gain the sweep computes incrementally at a boundary (line 129's formula) equals the same gain of partitioning the node at that threshold from scratch |
| GradientTree.FindBestSplit | src/GradientTree.java:85-143 | the index list comes back a permutation. A returned split is admissible, carries its gain as line 129 computes it, is positive because the best gain starts at 0 and must be beaten, and is the first of strictly greatest gain over the drawn features. No admissible threshold of a drawn feature gains more |
| GradientTree.BuildNode | src/GradientTree.java:36-64 | leaves hold `-ΣG / (ΣH + λ)`. An internal node appears only below `maxDepth` on at least `minSamplesSplit` samples (there is no purity test), with an admissible threshold whose gain as written (`leftScore + rightScore - baseScore`) is positive and at least `gamma`. Its children are grown from the two sides. The root split is the one the search chose |
| GradientTree.SplitsWhenSomeGain | src/GradientTree.java:36-55 | below `maxDepth` on enough samples, an admissible threshold whose gain as written is positive and at least `gamma` makes the node split, so a gain equal to `gamma` is accepted |
| GradientTree.GrownHeight | src/GradientTree.java:36-64 | a grown tree has at most `maxDepth - depth` levels of internal nodes |
| GradientTree.GrownFeatures | src/GradientTree.java:85-103 | every tested feature is below the row width |
| GradientTree.GrownChildren | src/GradientTree.java:46-62 | the children of an internal node are grown from exactly its two partitions |
| GradientTree.GrownPermutation | src/GradientTree.java:36-64 | being grown from a node depends only on the multiset of its samples |
| GradientTree.GrownLeavesFit | src/GradientTree.java:36-83 | every leaf of a grown tree holds `-ΣG / (ΣH + λ)` over exactly the samples that the partitions on its path leave at it |
| GradientTree.PredictIsCellValue | src/GradientTree.java:150-157 | on a grown tree, `predict` answers any sample with `-ΣG / (ΣH + λ)` over the training samples that reach the same leaf, and a training sample lies among the samples of the leaf it reaches |
| GradientTree.MaxFeatures | src/GradientTree.java:88-88 | `(int)(d · maxFeaturesRatio)` truncates toward zero: it is 0 for a product in `(-1, 1)`, negative (so `subList` fails) at `-1` and below, and otherwise the whole part of the product |
| GradientTree.Train | src/GradientTree.java:30-34 | the tree is grown from samples `0 .. n-1` at depth 0, is at most `maxDepth` deep and tests only existing features |
| RandomForest.Truncate | src/RandomForestClassifier.java:28-29 | `(int)(n · ratio)` truncates toward zero: non-negative exactly when the product exceeds `-1`, 0 for a product in `(-1, 1)`, and a positive result is the whole part of the product |
| Common.TruncateToInt | src/RandomForestClassifier.java:28-29 | Java's `(int)` cast of a double: the floor of a non-negative value, the ceiling of a negative one, and non-negative exactly above `-1` |
| RandomForest.Bootstrap | src/RandomForestClassifier.java:38-42 | the bootstrap draws `sampleSize` indices, each in `[0, n)` |
| RandomForest.BootstrapExtends | src/RandomForestClassifier.java:38-42 | the draws are sequential: the first `m` indices of a longer resample are the resample of size `m` |
| RandomForest.ResampleLabelled | src/RandomForestClassifier.java:38-42 | the resampled rows keep the width of the data, and resampled row `i` carries the label of the same original index |
| RandomForest.GrowMember | src/RandomForestClassifier.java:33-46 | each member is a decision tree grown, with the forest's limits, on the rows and labels of its bootstrap; an empty resample leaves a null root |
| RandomForest.Train | src/RandomForestClassifier.java:24-48 | training yields exactly `numTrees` members, none for a non-positive count, each trained on its own bootstrap |
| RandomForest.Votes | src/RandomForestClassifier.java:53-57 | the votes are defined exactly when every member has a root, and then they are the members' predictions in order |
| RandomForest.VoteCounts | src/RandomForestClassifier.java:53-57 | `classCounts[c]` is the number of trees voting `c`, and the counts sum to the number of trees |
| RandomForest.Predict | src/RandomForestClassifier.java:51-69 | an answer exists exactly when every vote is a class id and there is at least one class. It is the class with the most votes, lowest id on ties |
| RandomForest.EmptyForestVotesZero | src/RandomForestClassifier.java:60-68 | with no trees every count is 0 and the answer is class 0 |
| RandomForest.UnanimousVote | src/RandomForestClassifier.java:51-69 | when every tree votes `c`, the forest answers `c` |
| RandomForest.TrainedForestAnswers | src/RandomForestClassifier.java:24-69 | a forest trained on non-empty resamples always answers: its trees have roots, test only existing features and vote class ids |
| Boosting.Zeros | src/MultiClassGradientBoostedTreesClassifier.java:33-36 | training scores start as an `n × k` matrix of zeros |
| Boosting.Softmax | src/MultiClassGradientBoostedTreesClassifier.java:94-108 | softmax, with the maximum subtracted, gives one entry per score, each in `(0, 1]`, and they sum to 1 |
| Boosting.SoftmaxOrder | src/MultiClassGradientBoostedTreesClassifier.java:94-108 | for an increasing `exp`, softmax keeps the order of the scores and keeps ties tied |
| Boosting.Probabilities | src/MultiClassGradientBoostedTreesClassifier.java:84-92 | row `i` of the probabilities is the softmax of row `i` of the scores |
| Boosting.Gradients | src/MultiClassGradientBoostedTreesClassifier.java:110-124 | the gradients form an `n × k` matrix; `GradientSigns` and `GradientRowSumsToZero` state its entries |
| Boosting.Hessians | src/MultiClassGradientBoostedTreesClassifier.java:110-124 | the hessians form an `n × k` matrix; `HessiansBounded` states its entries |
| Boosting.GradientSigns | src/MultiClassGradientBoostedTreesClassifier.java:110-124 | the gradient `p - 1` of the true class lies in `[-1, 0]`; the gradient `p` of any other class lies in `[0, 1]` |
| Boosting.HessiansBounded | src/MultiClassGradientBoostedTreesClassifier.java:110-124 | every hessian `p·(1-p)` lies in `[0, 1/4]`, so the per-class trees get non-negative hessians |
| Boosting.GradientRowSumsToZero | src/MultiClassGradientBoostedTreesClassifier.java:110-124 | for a sample whose label is a class id, its gradients sum to 0 over the classes |
| Boosting.Column | src/MultiClassGradientBoostedTreesClassifier.java:49-54 | `gC[i] = gradients[i][c]`: the column of class `c` |
| Boosting.ClassTreeGrown | src/MultiClassGradientBoostedTreesClassifier.java:48-57 | class `c`'s tree is a gradient tree grown on column `c` of the gradients and hessians, with the classifier's own limits |
| Boosting.AddTree | src/MultiClassGradientBoostedTreesClassifier.java:61-64 | adding a tree adds `eta · tree.predict(features[i])` to score `(i, c)` and changes no other class's score |
| Boosting.GrowRoundTree | src/MultiClassGradientBoostedTreesClassifier.java:41-65 | every class tree of a round is grown from probabilities computed once at the round start, even though the scores change during the round |
| Boosting.RoundTrees | src/MultiClassGradientBoostedTreesClassifier.java:40-68 | the tree of class `c` in round `t` is grown from the softmax of the scores after `t` rounds |
| Boosting.Train | src/MultiClassGradientBoostedTreesClassifier.java:31-69 | there are `numTrees` rounds, none for a non-positive count, each with exactly `numClasses` trees in class order, all able to answer on rows of the training width. The data are constrained only when some tree is grown; with no round or no class the scores stay zero |
| Boosting.TrainedScoresAreFinalScores | src/MultiClassGradientBoostedTreesClassifier.java:61-79 | the training scores of row `i` after training are exactly what `predict` accumulates for `features[i]` |
| Boosting.FinalScores | src/MultiClassGradientBoostedTreesClassifier.java:73-78 | `predict`'s class-`c` score is the sum over rounds of `eta · tree_c.predict(sample)`, computed from the trees alone |
| Boosting.Predict | src/MultiClassGradientBoostedTreesClassifier.java:72-82 | there is an answer exactly when there is a class. It is a class of maximal probability, lowest id on ties |
| Boosting.PredictIsFirstGreatestScore | src/MultiClassGradientBoostedTreesClassifier.java:72-82 | for an increasing `exp`, the answer is also the first class of greatest raw score |
| Boosting.NoRoundsPredictsZero | src/MultiClassGradientBoostedTreesClassifier.java:73-81 | with zero rounds all scores are equal and `predict` returns 0 |
| DecisionStump.Draws | src/SimpleDecisionTreeClassifier.java:35-39 | each try draws a feature below `d` and a threshold that is some sample's value of that feature |
| DecisionStump.SampleThresholdKeepsLeft | src/SimpleDecisionTreeClassifier.java:36-51 | a threshold taken from a sample never leaves the left side empty |
| DecisionStump.Score | src/SimpleDecisionTreeClassifier.java:45-58 | a candidate is skipped exactly when one side of its split is empty |
| DecisionStump.Fit | src/SimpleDecisionTreeClassifier.java:59-65 | a fitted stump keeps the candidate's feature and threshold, and both sides hold class ids |
| DecisionStump.SubsetLabels | src/SimpleDecisionTreeClassifier.java:118-124 | `subsetLabels` keeps order and has one label per listed index |
| DecisionStump.MeanBounds | src/SimpleDecisionTreeClassifier.java:99-104 | the size-weighted mean of two impurities in `[0, 1)` lies in `[0, 1)`, is symmetric, and is 0 when both are 0 |
| DecisionStump.WeightedGiniBounds | src/SimpleDecisionTreeClassifier.java:99-104 | the weighted Gini lies in `[0, 1)` and does not depend on which side is left |
| DecisionStump.PureSidesScoreZero | src/SimpleDecisionTreeClassifier.java:88-104 | two pure sides score 0 |
| DecisionStump.Search | src/SimpleDecisionTreeClassifier.java:58-65 | the best Gini never rises during the loop |
| DecisionStump.SearchFindsFirstLowest | src/SimpleDecisionTreeClassifier.java:35-66 | a candidate replaces the best only when strictly lower. The loop ends with the first candidate of lowest Gini below the start, or with the start unchanged when none is lower |
| DecisionStump.Majority | src/SimpleDecisionTreeClassifier.java:106-116 | the majority is a class id |
| DecisionStump.Candidates | src/SimpleDecisionTreeClassifier.java:28-39 | there are `min(d, 10)` tries |
| DecisionStump.Train | src/SimpleDecisionTreeClassifier.java:14-67 | both sides hold class ids, and either the feature is an existing one or the stump is the unsplit default |
| DecisionStump.TrainFitsFirstLowest | src/SimpleDecisionTreeClassifier.java:23-66 | starting from the unsplit Gini, the trained stump is either the default (feature 0, threshold 0, global majority on both sides) when no candidate is lower, or the fit of the first candidate of lowest Gini |
| DecisionStump.PredictFollowsSides | src/SimpleDecisionTreeClassifier.java:70-76 | on a training row, `predict` answers the left majority exactly when the row was on the left side of the split |
| DecisionStump.Predict | src/SimpleDecisionTreeClassifier.java:70-76 | the answer is one of the two side majorities; `PredictFollowsSides` says which for a training row |
| DecisionStump.UnsplitPredictsMajority | src/SimpleDecisionTreeClassifier.java:23-33 | when no candidate improves, `predict` is the constant global majority |
| Kernels.DotPrefix | src/KernelPerceptronClassifier.java:39-47 | the kernel `Dot`, the sum of `x1[i]·x2[i]` over the positions of `x1`, reads only the first `x1.length` entries of `x2` |
| Kernels.DotZero | src/KernelPerceptronClassifier.java:39-47 | a zero vector on either side gives 0 |
| Kernels.DotSymmetric | src/KernelPerceptronClassifier.java:39-47 | on equal-length vectors the integer kernel is symmetric |
| Kernels.LinearCompute | src/LinearKernel.java:3-9 | `compute` is 0 on an empty `x1` |
| Kernels.LinearComputeSymmetric | src/LinearKernel.java:3-9 | `compute` is symmetric on vectors of equal length |
| Kernels.LinearComputeOfZero | src/LinearKernel.java:3-9 | `compute` is 0 when either vector is all zeros |
| KernelPerceptron.Predict | src/KernelPerceptronClassifier.java:28-37 | `predict` returns only 1 or -1, and 1 exactly when the weighted kernel sum is non-negative |
| KernelPerceptron.ZeroAlphasIgnored | src/KernelPerceptronClassifier.java:29-35 | samples whose counter is 0 contribute nothing: changing their rows or labels leaves the sum unchanged |
| KernelPerceptron.AllZeroPredictsOne | src/KernelPerceptronClassifier.java:28-37 | with all counters at 0, `predict` returns 1 |
| KernelPerceptron.Epoch | src/KernelPerceptronClassifier.java:18-23 | in one pass each counter stays or grows by exactly one, and a sample labelled neither 1 nor -1 always grows |
| KernelPerceptron.Train | src/KernelPerceptronClassifier.java:11-25 | counters start at 0, one per sample, and end in `[0, epochs]`. A sample labelled neither 1 nor -1 ends at exactly `epochs` |
| WeightedKnn.Neighbors | src/WeightedKNearestNeighborsClassifier.java:25-28 | entry `i` pairs the distance to stored row `i` with its label |
| WeightedKnn.MinFrom | src/WeightedKNearestNeighborsClassifier.java:33-38 | the earliest position from `i` on of a smallest distance: no later pair is nearer and every earlier one is strictly farther |
| WeightedKnn.FirstMin | src/WeightedKNearestNeighborsClassifier.java:33-38 | the inner loop finds a minimal distance from `i` on, at the earliest such position (strict `<`), that is `MinFrom` |
| WeightedKnn.Select | src/WeightedKNearestNeighborsClassifier.java:32-46 | rounds `i .. k-1` of the selection sort, each swapping the earliest nearest remaining pair forward, permute the pairs |
| WeightedKnn.SelectNearest | src/WeightedKNearestNeighborsClassifier.java:32-46 | the partial selection sort permutes the (distance, label) pairs together, its first `k` are non-decreasing and no larger than any later distance, and the result is exactly `Select`, so ties are settled as the loop settles them |
| WeightedKnn.SwapExtendsSorted | src/WeightedKNearestNeighborsClassifier.java:39-45 | swapping a nearest remaining pair into position `i` extends the sorted prefix by one |
| WeightedKnn.Weight | src/WeightedKNearestNeighborsClassifier.java:55-55 | each weight `1/(d + ε)` is positive |
| WeightedKnn.WeightDecreasing | src/WeightedKNearestNeighborsClassifier.java:55-55 | a nearer neighbour never weighs less |
| WeightedKnn.LabelWeights | src/WeightedKNearestNeighborsClassifier.java:50-58 | class weights are non-negative, and a class has positive weight exactly when one of the neighbours carries it; out-of-range labels add nothing |
| WeightedKnn.Vote | src/WeightedKNearestNeighborsClassifier.java:60-69 | the vote is -1 exactly when there are no classes; otherwise it is the class of largest weight, lowest id on ties |
| WeightedKnn.VoteIsNeighborLabel | src/WeightedKNearestNeighborsClassifier.java:50-69 | when some neighbour carries a class id, the vote is the label of one of the `k` nearest |
| WeightedKnn.Predict | src/WeightedKNearestNeighborsClassifier.java:7-70 | the answer is -1 exactly when there are no classes. It is the weighted vote of the first `max(k, 0)` of `Select` over all neighbours: a permutation whose sorted prefix holds the `k` smallest distances, ties kept in stored order, and with no pairs at all for a negative `k` |
| WeightedKnn.NoVotersPicksFirstClass | src/WeightedKNearestNeighborsClassifier.java:50-69 | with no voting pair every weight is 0.0, above the initial -1.0, so the answer is class 0, or -1 without classes |
| WeightedKnn.TieKeepsFirst | src/WeightedKNearestNeighborsClassifier.java:32-46 | two stored rows at the same distance with `k = 1`: the selection keeps the earlier row first and the vote is its label |
| NearestNeighbor.Train | src/NearestNeighborClassifier.java:10-13 | `train` only stores the given arrays |
| NearestNeighbor.Distances | src/NearestNeighborClassifier.java:20-21 | entry `i` is the distance from the query to stored row `i` |
| NearestNeighbor.Predict | src/NearestNeighborClassifier.java:16-28 | with no stored rows, or with no distance below `Double.MAX_VALUE`, the answer is -1. Otherwise it is the label of the earliest row of minimal distance, hence a training label |
| Voting.TrainAll | src/VotingClassifier.java:12-16 | every member is trained on the same arrays |
| Voting.Predictions | src/VotingClassifier.java:21-22 | one prediction per member, in member order |
| Voting.Votes | src/VotingClassifier.java:20-24 | the vote map's keys are exactly the predicted classes, and `votes[p]` counts the members predicting `p` |
| Voting.VotesTotal | src/VotingClassifier.java:20-24 | the vote counts add up to the number of members |
| Voting.ScanFindsMax | src/VotingClassifier.java:27-34 | the scan over the map's entries keeps the start value when nothing beats it, and otherwise returns an entry whose count beats it and is maximal |
| Voting.Predict | src/VotingClassifier.java:19-36 | with no votes the answer is -1; otherwise it is a predicted class of maximal count, whichever order the map enumerates its keys in |
| Voting.PredictAll | src/VotingClassifier.java:19-36 | with no members the answer is -1; otherwise it is some member's prediction |
| OneVsRest.BinaryLabels | src/MulticlassSVMClassifier.java:18-22 | for class `c` every binary label is ±1, and +1 exactly when `labels[i] == c` |
| OneVsRest.Train | src/MulticlassSVMClassifier.java:14-25 | there is one binary model per class, and model `c` is trained on the labels relabelled for `c` |
| OneVsRest.Scores | src/MulticlassSVMClassifier.java:31-32 | one decision score per class, in class order |
| OneVsRest.Predict | src/MulticlassSVMClassifier.java:28-39 | the answer is -1 exactly when there are no classes; otherwise it is the first class of strictly largest decision score |
| Utils.ExtractFeatures | src/Utils.java:5-11 | one row per input row, each exactly the first 64 columns of it |
| Utils.ExtractLabels | src/Utils.java:14-20 | `labels[i] = data[i][64]` |
| Utils.MaxOfBounds | src/Utils.java:22-30 | the maximum bounds every label and is one of them, or `Integer.MIN_VALUE` for an empty array |
| Utils.MaxOfAppend | src/Utils.java:33-46 | the maximum over two arrays is the larger of the two maxima |
| Utils.GetMaxLabel | src/Utils.java:22-30 | `getMaxLabel` bounds every label and equals one of them, or `Integer.MIN_VALUE` when there is none |
| Utils.GetMaxLabel2 | src/Utils.java:33-46 | the two-array overload equals the larger of the two single-array results and bounds both arrays |

## Left out

- Input and output: loading and parsing the data files, the experiment runner and the plotting script. `Utils.scaleFeatures` is left out too, because it is floating-point rescaling outside the learners.
- Floating point: every double is an exact real. Rounding, NaN and infinities are not modelled, so behaviour that depends on them is absent, such as a zero denominator yielding NaN.
- `Math.exp` and `Math.sqrt`: both are abstract. `exp` is a positive function parameter, and an increasing one where order is needed. The Euclidean distance is a function parameter, with no symmetry or triangle law assumed.
- `java.util.Random`: the draw function is a parameter, constrained only by its bound. No distribution is modelled.
- Java's `int` overflow in the perceptron's weighted sum and in both kernel sums: the model sums exact integers.
- KernelPerceptron.Train: it requires every row to have the width of row 0. The Java needs only that each row with a non-zero counter is no wider than the row being predicted.
- Common.TruncateToInt: Java saturates a cast of a double outside the `int` range at the range's ends; the model's result is unbounded.
- RandomForest.Train: when a tree is grown, it requires `(int)(d · maxFeaturesRatio) >= 0`. The Java passes a negative count to each tree, which fails only once that tree starts a split search.
- DecisionTree.Train: `maxFeatures` is a natural number. The only negative value the forest could pass is excluded above.
- GradientTree.LeafValue: the contract states that the value minimises the objective, not that it is the unique minimiser. The exact formula appears in `Grown`.
- GradientTree.BuildNode: it requires `lambda > 0` and non-negative hessians. The Java accepts any doubles and divides by `sumH + lambda`, which may be zero. Wherever a split search can start (below `maxDepth`, on at least `minSamplesSplit` samples), it also requires rows of one width that cover the listed samples, and `(int)(d · maxFeaturesRatio) >= 0`. At that point the Java throws from `subList(0, min(maxFeatures, d))` for a negative count. For rows of different widths it fails only if a drawn feature lies past a row's end.
- GradientTree.Train: it requires what GradientTree.BuildNode requires of the root, which holds all the samples at depth 0: `lambda > 0`, non-negative hessians, and, when a search can start there, rows of one width and a non-negative feature count.
- Boosting.Train: when a tree is grown it requires `lambda > 0`, for the reason given under GradientTree.BuildNode, and a non-negative feature count wherever a split search can start. With no round or no class it requires nothing of the data.
- WeightedKnn.Predict: it requires non-negative distances, which holds for the Euclidean distance the Java uses, and `k <= n`: for a larger `k` the Java indexes past its arrays. A negative `k` is accepted and behaves like `k = 0`.
- Voting.Predict: it does not pick the tied winner. The winner depends on `HashMap` iteration order, which is an input here, and the contract says only that the result has maximal count.
- OneVsRest.Predict: the binary models are opaque. Training them (the linear SVM's gradient descent) and their `decisionFunction` are abstract parameters.
- Files outside this model:
  - the multilayer perceptron and linear SVM training;
  - the source files that are entirely commented out;
  - the binary `GradientBoostedTreesClassifier`, which depends on one of them;
  - `HybridClassifier`, which calls accessors the nearest-neighbour class does not define;
  - `SimpleVotingClassifier`, which always answers with its first member.
- GradientTree: the stored `secondOrder` flag is never read by the code, so no member states anything about it.
- The classifier and kernel interfaces: members are plain values with function parameters for `train` and `predict`.

## Findings

| source | as written | input that shows it | evidently intended | confidence | as-written member | corrected member |
|---|---|---|---|---|---|---|
| src/GradientTree.java:124-129 | `gain = leftScore + rightScore - baseScore`, with `leafScore = -G²/(H+λ)`, is accepted when positive. That is twice the INCREASE of the regularised loss, so the tree prefers splits that fit worse | gradients `(-1, 1)`, hessians `(0, 0)`, `λ = 1`, feature values `0` and `1`: the perfect split gets gain `-2` and is never taken | `gain = baseScore - leftScore - rightScore`, the loss reduction (the usual Newton-boosting gain); the same split gets `2` | not executed | GradientTree.PerfectSplitRejected | GradientTree.PerfectSplitAccepted |

=== FILE: boosting.dfy ===
/** `MultiClassGradientBoostedTreesClassifier`: softmax boosting with one
    gradient tree per class and round. Every round turns the current raw
    scores into class probabilities, derives per-class gradients and
    hessians from them, fits one tree per class and adds `eta` times its
    output to that class's scores. The exponential is a parameter. */
module Boosting {
  import opened Common
  import opened Seqs
  import opened Splitting
  import opened Trees
  import GradientTree

  /** The constructor arguments; `numTrees` is the number of rounds. */
  datatype Config = Config(numClasses: nat, numTrees: int, eta: real, maxDepth: int, minSamplesLeaf: int,
                           minSamplesSplit: int, lambda: real, gamma: real, maxFeaturesRatio: real)

  /** Every tree is built with the classifier's own limits and `secondOrder = true`. */
  function TreeConfig(cfg: Config): GradientTree.Config
  {
    GradientTree.Config(cfg.maxDepth, cfg.minSamplesLeaf, cfg.minSamplesSplit, cfg.lambda, cfg.gamma,
                        cfg.maxFeaturesRatio, true)
  }

  /** The training data the trees can be grown on: rows of one width, a
      label for every row the class loop reads, and enough rows for a split
      search whenever one can start. */
  predicate Growable(cfg: Config, features: seq<seq<int>>, labels: seq<int>)
  {
    && GradientTree.ValidConfig(TreeConfig(cfg))
    && Rectangular(features, Width(features))
    && |labels| <= |features|
    && GradientTree.Searchable(TreeConfig(cfg), features, Range(|features|), 0)
  }

  /** What `train` needs: the data only matter when some tree is grown, that
      is when there is at least one round and at least one class. */
  predicate Trainable(cfg: Config, features: seq<seq<int>>, labels: seq<int>)
  {
    cfg.numTrees > 0 && cfg.numClasses > 0 ==> Growable(cfg, features, labels)
  }

  /** `Math.exp` is left abstract; all the model uses is that it is positive. */
  ghost predicate PositiveExp(exp: real -> real)
  {
    forall x :: exp(x) > 0.0
  }

  /** The first loop of `softmax`: the largest score. */
  function MaxOf(s: seq<real>): (r: real)
    requires |s| > 0
    ensures forall i :: 0 <= i < |s| ==> s[i] <= r
    ensures exists i :: 0 <= i < |s| && s[i] == r
  {
    if |s| == 1 then s[0]
    else
      var m := MaxOf(s[..|s| - 1]);
      if s[|s| - 1] > m then s[|s| - 1] else m
  }

  /** Every entry of `s` divided by `d`. */
  function Scale(s: seq<real>, d: real): (r: seq<real>)
    requires d != 0.0
    ensures |r| == |s| && forall i :: 0 <= i < |s| ==> r[i] == s[i] / d
  {
    seq(|s|, i requires 0 <= i < |s| => s[i] / d)
  }

  lemma {:induction false} SumScale(s: seq<real>, d: real)
    requires d != 0.0
    ensures SumReal(Scale(s, d)) == SumReal(s) / d
    decreases |s|
  {
    if |s| > 0 {
      var init, last := s[..|s| - 1], s[|s| - 1];
      SumScale(init, d);
      assert Scale(s, d)[..|s| - 1] == Scale(init, d);
      DivideSum(SumReal(init), last, d);
    }
  }

  lemma DivideSum(a: real, b: real, d: real)
    requires d != 0.0
    ensures a / d + b / d == (a + b) / d
  {
    assert (a / d) * d == a && (b / d) * d == b;
    assert (a / d + b / d) * d == a + b;
  }

  /** A sum of positive terms is positive and at least each of its terms. */
  lemma {:induction false} SumOfPositives(s: seq<real>)
    requires |s| > 0 && forall i :: 0 <= i < |s| ==> s[i] > 0.0
    ensures SumReal(s) > 0.0
    ensures forall i :: 0 <= i < |s| ==> s[i] <= SumReal(s)
    decreases |s|
  {
    if |s| > 1 {
      SumOfPositives(s[..|s| - 1]);
    }
  }

  /** Positive weights divided by their total form a distribution. */
  lemma Normalised(e: seq<real>)
    requires |e| > 0 && forall i :: 0 <= i < |e| ==> e[i] > 0.0
    ensures SumReal(e) > 0.0
    ensures forall i :: 0 <= i < |e| ==> 0.0 < Scale(e, SumReal(e))[i] <= 1.0
    ensures SumReal(Scale(e, SumReal(e))) == 1.0
  {
    SumOfPositives(e);
    var total := SumReal(e);
    SumScale(e, total);
    UnitEntries(e, total);
    SelfQuotient(total);
  }

  lemma SelfQuotient(x: real)
    requires x != 0.0
    ensures x / x == 1.0
  {
  }

  lemma UnitEntries(e: seq<real>, total: real)
    requires total > 0.0
    requires forall i :: 0 <= i < |e| ==> 0.0 < e[i] <= total
    ensures forall i :: 0 <= i < |e| ==> 0.0 < Scale(e, total)[i] <= 1.0
  {
    forall i | 0 <= i < |e|
      ensures 0.0 < e[i] / total <= 1.0
    {
      QuotientInUnit(e[i], total);
    }
  }

  lemma QuotientInUnit(a: real, b: real)
    requires 0.0 < a <= b
    ensures 0.0 < a / b <= 1.0
  {
    assert (a / b) * b == a;
  }

  /** `softmax(scores)`: `exp(s_i - max) / sum_j exp(s_j - max)`. The
      results are probabilities: each in (0, 1], together summing to 1 (for
      at least one class), and equal scores get equal probabilities. */
  function Softmax(exp: real -> real, scores: seq<real>): (r: seq<real>)
    requires PositiveExp(exp)
    ensures |r| == |scores|
    ensures forall i :: 0 <= i < |r| ==> 0.0 < r[i] <= 1.0
    ensures |scores| > 0 ==> SumReal(r) == 1.0
  {
    if |scores| == 0 then []
    else
      var m := MaxOf(scores);
      var e := seq(|scores|, i requires 0 <= i < |scores| => exp(scores[i] - m));
      Normalised(e);
      Scale(e, SumReal(e))
  }

  /** `Math.exp` is strictly increasing. */
  ghost predicate IncreasingExp(exp: real -> real)
  {
    forall x, y :: x < y ==> exp(x) < exp(y)
  }

  lemma QuotientOrder(a: real, b: real, d: real)
    requires d > 0.0 && a < b
    ensures a / d < b / d
  {
    DivideSum(a, b - a, d);
    assert (b - a) / d > 0.0;
  }

  /** With an increasing exponential, softmax keeps the order of the scores:
      a greater score gets a greater probability and equal scores equal ones. */
  lemma SoftmaxOrder(exp: real -> real, scores: seq<real>, i: nat, j: nat)
    requires PositiveExp(exp) && IncreasingExp(exp) && i < |scores| && j < |scores|
    ensures scores[i] < scores[j] ==> Softmax(exp, scores)[i] < Softmax(exp, scores)[j]
    ensures scores[i] == scores[j] ==> Softmax(exp, scores)[i] == Softmax(exp, scores)[j]
  {
    var m := MaxOf(scores);
    var e := seq(|scores|, i requires 0 <= i < |scores| => exp(scores[i] - m));
    Normalised(e);
    if scores[i] < scores[j] {
      assert scores[i] - m < scores[j] - m;
      QuotientOrder(e[i], e[j], SumReal(e));
    }
  }

  /** `computeSoftmaxProbabilities`: one softmax per sample. */
  function Probabilities(exp: real -> real, scores: seq<seq<real>>): (r: seq<seq<real>>)
    requires PositiveExp(exp)
    ensures |r| == |scores|
    ensures forall i :: 0 <= i < |r| ==> r[i] == Softmax(exp, scores[i])
  {
    seq(|scores|, i requires 0 <= i < |scores| => Softmax(exp, scores[i]))
  }

  /** `n` rows of `k` entries. */
  predicate Matrix(m: seq<seq<real>>, n: nat, k: nat)
  {
    |m| == n && forall i :: 0 <= i < n ==> |m[i]| == k
  }

  /** Rows of probabilities, as `softmax` makes them. */
  predicate ProbabilityRows(probs: seq<seq<real>>)
  {
    forall i, c :: 0 <= i < |probs| && 0 <= c < |probs[i]| ==> 0.0 <= probs[i][c] <= 1.0
  }

  function Indicator(b: bool): real
  {
    if b then 1.0 else 0.0
  }

  /** `computeGradientsAndHessians`, gradient half: `p - 1` for the sample's
      own class and `p` for the others. Rows past the last label keep the 0
      the array was created with. */
  function Gradients(labels: seq<int>, probs: seq<seq<real>>, k: nat): (r: seq<seq<real>>)
    requires |labels| <= |probs| && Matrix(probs, |probs|, k)
    ensures Matrix(r, |probs|, k)
  {
    seq(|probs|, i requires 0 <= i < |probs| =>
      seq(k, c requires 0 <= c < k => if i < |labels| then probs[i][c] - Indicator(c == labels[i]) else 0.0))
  }

  /** `computeGradientsAndHessians`, hessian half: `p * (1 - p)`. */
  function Hessians(labels: seq<int>, probs: seq<seq<real>>, k: nat): (r: seq<seq<real>>)
    requires |labels| <= |probs| && Matrix(probs, |probs|, k)
    ensures Matrix(r, |probs|, k)
  {
    seq(|probs|, i requires 0 <= i < |probs| =>
      seq(k, c requires 0 <= c < k => if i < |labels| then probs[i][c] * (1.0 - probs[i][c]) else 0.0))
  }

  /** For a probability p, `p * (1 - p)` lies in [0, 1/4]. */
  lemma HessianBounds(p: real)
    requires 0.0 <= p <= 1.0
    ensures 0.0 <= p * (1.0 - p) <= 0.25
  {
    assert 0.25 - p * (1.0 - p) == (p - 0.5) * (p - 0.5);
    assert (p - 0.5) * (p - 0.5) >= 0.0;
    assert p * (1.0 - p) >= 0.0 * (1.0 - p);
  }

  /** Hessians of probability rows are never negative (and at most 1/4). */
  lemma HessiansBounded(labels: seq<int>, probs: seq<seq<real>>, k: nat)
    requires |labels| <= |probs| && Matrix(probs, |probs|, k) && ProbabilityRows(probs)
    ensures forall i, c :: 0 <= i < |probs| && 0 <= c < k ==> 0.0 <= Hessians(labels, probs, k)[i][c] <= 0.25
  {
    forall i, c | 0 <= i < |probs| && 0 <= c < k
      ensures 0.0 <= Hessians(labels, probs, k)[i][c] <= 0.25
    {
      HessianBounds(probs[i][c]);
    }
  }

  /** The gradient pulls the score of a sample's own class up and every other
      class's down: it is at most 0 for the own class, at least 0 otherwise. */
  lemma GradientSigns(labels: seq<int>, probs: seq<seq<real>>, k: nat, i: nat, c: nat)
    requires |labels| <= |probs| && Matrix(probs, |probs|, k) && ProbabilityRows(probs)
    requires i < |labels| && c < k
    ensures c == labels[i] ==> -1.0 <= Gradients(labels, probs, k)[i][c] <= 0.0
    ensures c != labels[i] ==> 0.0 <= Gradients(labels, probs, k)[i][c] <= 1.0
  {
    assert 0.0 <= probs[i][c] <= 1.0;
    assert Gradients(labels, probs, k)[i][c] == probs[i][c] - Indicator(c == labels[i]);
  }

  /** Subtracting the indicator of one position subtracts 1 from the sum. */
  lemma {:induction false} SumMinusIndicator(p: seq<real>, g: seq<real>, y: int)
    requires |g| == |p|
    requires forall c :: 0 <= c < |p| ==> g[c] == p[c] - Indicator(c == y)
    ensures SumReal(g) == SumReal(p) - (if 0 <= y < |p| then 1.0 else 0.0)
    decreases |p|
  {
    if |p| > 0 {
      SumMinusIndicator(p[..|p| - 1], g[..|g| - 1], y);
    }
  }

  /** For a sample whose label is a class id, the gradients over all classes
      of a softmax row sum to zero. */
  lemma GradientRowSumsToZero(exp: real -> real, labels: seq<int>, scores: seq<seq<real>>, k: nat, i: nat)
    requires PositiveExp(exp) && |labels| <= |scores| && Matrix(scores, |scores|, k)
    requires i < |labels| && 0 <= labels[i] < k
    ensures var probs := Probabilities(exp, scores);
      Matrix(probs, |scores|, k) && SumReal(Gradients(labels, probs, k)[i]) == 0.0
  {
    var probs := Probabilities(exp, scores);
    SumMinusIndicator(probs[i], Gradients(labels, probs, k)[i], labels[i]);
  }

  /** `gC` or `hC`: column c of a matrix. */
  function Column(m: seq<seq<real>>, c: nat): (r: seq<real>)
    requires forall i :: 0 <= i < |m| ==> c < |m[i]|
    ensures |r| == |m| && forall i :: 0 <= i < |m| ==> r[i] == m[i][c]
  {
    seq(|m|, i requires 0 <= i < |m| => m[i][c])
  }

  /** The gradient tree of class c in a round: grown on column c of the
      gradients and hessians of the round's probabilities, with its own
      generator. */
  function ClassTree(cfg: Config, features: seq<seq<int>>, labels: seq<int>, probs: seq<seq<real>>, c: nat,
                     g: Rng, nextInt: NextInt): (r: Tree<real>)
    requires Growable(cfg, features, labels) && ValidNextInt(nextInt)
    requires Matrix(probs, |features|, cfg.numClasses) && ProbabilityRows(probs) && c < cfg.numClasses
    ensures FeaturesBelow(r, Width(features))
  {
    var k := cfg.numClasses;
    HessiansBounded(labels, probs, k);
    GradientTree.Train(TreeConfig(cfg), features, Column(Gradients(labels, probs, k), c),
                       Column(Hessians(labels, probs, k), c), g, nextInt).0
  }

  /** Class c's tree is a gradient tree grown, from all the samples at depth
      0, on class c's gradients and (non-negative) hessians. */
  lemma ClassTreeGrown(cfg: Config, features: seq<seq<int>>, labels: seq<int>, probs: seq<seq<real>>, c: nat,
                       g: Rng, nextInt: NextInt)
    requires Growable(cfg, features, labels) && ValidNextInt(nextInt)
    requires Matrix(probs, |features|, cfg.numClasses) && ProbabilityRows(probs) && c < cfg.numClasses
    ensures var k := cfg.numClasses;
      var grads, hess := Column(Gradients(labels, probs, k), c), Column(Hessians(labels, probs, k), c);
      && GradientTree.Statistics(grads, hess)
      && GradientTree.Grown(TreeConfig(cfg), features, grads, hess, ClassTree(cfg, features, labels, probs, c, g, nextInt),
                            Range(|features|), 0)
  {
    HessiansBounded(labels, probs, cfg.numClasses);
  }

  /** `predictions[i][c] += eta * tree.predict(features[i])` for every sample. */
  function AddTree(scores: seq<seq<real>>, c: nat, eta: real, tree: Tree<real>, features: seq<seq<int>>)
    : (r: seq<seq<real>>)
    requires |scores| == |features| && Rectangular(features, Width(features)) && FeaturesBelow(tree, Width(features))
    requires forall i :: 0 <= i < |scores| ==> c < |scores[i]|
    ensures |r| == |scores|
    ensures forall i :: 0 <= i < |r| ==> |r[i]| == |scores[i]|
    ensures forall i :: 0 <= i < |r| ==> r[i][c] == scores[i][c] + eta * Trees.Predict(tree, features[i])
    ensures forall i, j :: 0 <= i < |r| && 0 <= j < |r[i]| && j != c ==> r[i][j] == scores[i][j]
  {
    seq(|scores|, i requires 0 <= i < |scores| =>
      scores[i][c := scores[i][c] + eta * Trees.Predict(tree, features[i])])
  }

  /** The seed of the tree of class c in round t: every `GradientTree` makes
      its own `new Random()`. */
  type Seeds = (nat, nat) -> Rng

  /** The trees of one round's class loop, grown from the scores at the
      round's start: class c's tree is grown on column c of the gradients and
      hessians of those scores' softmax probabilities, with generator
      `seeds(round, c)`. Growing reads neither the scores being updated nor
      the other classes' trees, so growing all of them before adding any
      yields the same trees and scores as the interleaved loop. */
  function GrowRound(cfg: Config, exp: real -> real, features: seq<seq<int>>, labels: seq<int>, round: nat,
                     scores: seq<seq<real>>, seeds: Seeds, nextInt: NextInt): (r: seq<Tree<real>>)
    requires PositiveExp(exp) && Growable(cfg, features, labels) && ValidNextInt(nextInt)
    requires Matrix(scores, |features|, cfg.numClasses)
    ensures |r| == cfg.numClasses
    ensures forall c :: 0 <= c < |r| ==> FeaturesBelow(r[c], Width(features))
  {
    ClassTrees(cfg, features, labels, Probabilities(exp, scores), round, seeds, nextInt)
  }

  /** One tree per class, class c's with generator `seeds(round, c)`. */
  function ClassTrees(cfg: Config, features: seq<seq<int>>, labels: seq<int>, probs: seq<seq<real>>,
                      round: nat, seeds: Seeds, nextInt: NextInt): (r: seq<Tree<real>>)
    requires Growable(cfg, features, labels) && ValidNextInt(nextInt)
    requires Matrix(probs, |features|, cfg.numClasses) && ProbabilityRows(probs)
    ensures |r| == cfg.numClasses
    ensures forall c :: 0 <= c < |r| ==> r[c] == ClassTree(cfg, features, labels, probs, c, seeds(round, c), nextInt)
    ensures forall c :: 0 <= c < |r| ==> FeaturesBelow(r[c], Width(features))
  {
    seq(cfg.numClasses, c requires 0 <= c < cfg.numClasses =>
      ClassTree(cfg, features, labels, probs, c, seeds(round, c), nextInt))
  }

  /** Class c's tree of a round is the gradient tree of class c's column. */
  lemma GrowRoundTree(cfg: Config, exp: real -> real, features: seq<seq<int>>, labels: seq<int>, round: nat,
                      scores: seq<seq<real>>, seeds: Seeds, nextInt: NextInt, c: nat)
    requires PositiveExp(exp) && Growable(cfg, features, labels) && ValidNextInt(nextInt)
    requires Matrix(scores, |features|, cfg.numClasses) && c < cfg.numClasses
    ensures var probs := Probabilities(exp, scores);
      Matrix(probs, |features|, cfg.numClasses) && ProbabilityRows(probs)
      && GrowRound(cfg, exp, features, labels, round, scores, seeds, nextInt)[c]
         == ClassTree(cfg, features, labels, probs, c, seeds(round, c), nextInt)
  {
  }

  /** The score updates of the class loop for classes `0 .. count-1`, in
      class order. */
  function AddTrees(scores: seq<seq<real>>, trees: seq<Tree<real>>, count: nat, eta: real, features: seq<seq<int>>)
    : (r: seq<seq<real>>)
    requires count <= |trees| && Matrix(scores, |features|, |trees|)
    requires Rectangular(features, Width(features))
    requires forall c :: 0 <= c < |trees| ==> FeaturesBelow(trees[c], Width(features))
    ensures Matrix(r, |features|, |trees|)
  {
    if count == 0 then scores
    else AddTree(AddTrees(scores, trees, count - 1, eta, features), count - 1, eta, trees[count - 1], features)
  }

  /** After the class loop has visited classes `0 .. count-1`, class c's
      score of sample i has grown by `eta` times class c's tree's output on
      row i if c was visited, and is untouched otherwise. */
  lemma {:induction false} AddTreesEntry(scores: seq<seq<real>>, trees: seq<Tree<real>>, count: nat, eta: real,
                                         features: seq<seq<int>>, i: nat, c: nat)
    requires count <= |trees| && Matrix(scores, |features|, |trees|)
    requires Rectangular(features, Width(features))
    requires forall c :: 0 <= c < |trees| ==> FeaturesBelow(trees[c], Width(features))
    requires i < |features| && c < |trees|
    ensures AddTrees(scores, trees, count, eta, features)[i][c]
            == if c < count then scores[i][c] + eta * Trees.Predict(trees[c], features[i]) else scores[i][c]
    decreases count
  {
    if count > 0 {
      AddTreesEntry(scores, trees, count - 1, eta, features, i, c);
    }
  }

  /** The trees of all rounds so far, one list of `numClasses` trees per
      round, and the training scores they have produced. */
  datatype Model = Model(rounds: seq<seq<Tree<real>>>, scores: seq<seq<real>>)

  /** `new double[n][k]`. */
  function Zeros(n: nat, k: nat): (r: seq<seq<real>>)
    ensures Matrix(r, n, k) && forall i, c :: 0 <= i < n && 0 <= c < k ==> r[i][c] == 0.0
  {
    seq(n, i => seq(k, c => 0.0))
  }

  /** The step that grows a round's trees from the scores at the round's
      start, given the round number. */
  type Grower = (nat, seq<seq<real>>) -> seq<Tree<real>>

  /** What the round loop needs of that step: for scores of `n` rows and `k`
      classes it grows `k` trees, each able to answer for `width` features. */
  ghost predicate GrowsTrees(grow: Grower, n: nat, k: nat, width: nat)
  {
    forall t, s :: Matrix(s, n, k) ==>
      |grow(t, s)| == k && forall c :: 0 <= c < k ==> FeaturesBelow(grow(t, s)[c], width)
  }

  /** `predictions` after `t` rounds of `train`'s round loop, from zero
      scores: every round adds, class by class, `eta` times the output of
      the trees grown from the scores at the round's start. */
  function ScoresAfter(grow: Grower, k: nat, eta: real, features: seq<seq<int>>, t: nat): (r: seq<seq<real>>)
    requires Rectangular(features, Width(features)) && GrowsTrees(grow, |features|, k, Width(features))
    ensures Matrix(r, |features|, k)
  {
    if t == 0 then Zeros(|features|, k)
    else
      var start := ScoresAfter(grow, k, eta, features, t - 1);
      AddTrees(start, grow(t - 1, start), k, eta, features)
  }

  /** `trees` after `count` rounds: round t's trees are those grown from the
      scores after t rounds. */
  function Rounds(grow: Grower, k: nat, eta: real, features: seq<seq<int>>, count: nat): (r: seq<seq<Tree<real>>>)
    requires Rectangular(features, Width(features)) && GrowsTrees(grow, |features|, k, Width(features))
    ensures |r| == count && Answerable(r, k, Width(features))
    ensures forall t :: 0 <= t < count ==> |r[t]| == k
  {
    if count == 0 then []
    else Rounds(grow, k, eta, features, count - 1) + [grow(count - 1, ScoresAfter(grow, k, eta, features, count - 1))]
  }

  /** Later rounds leave earlier rounds' trees alone: round t's trees are
      those grown from the scores after t rounds. */
  lemma {:induction false} RoundsEntry(grow: Grower, k: nat, eta: real, features: seq<seq<int>>, count: nat, t: nat)
    requires Rectangular(features, Width(features)) && GrowsTrees(grow, |features|, k, Width(features))
    requires t < count
    ensures Rounds(grow, k, eta, features, count)[t] == grow(t, ScoresAfter(grow, k, eta, features, t))
    decreases count
  {
    if t < count - 1 {
      RoundsEntry(grow, k, eta, features, count - 1, t);
    }
  }

  /** The boosting step: `GrowRound` on well-formed scores. */
  function Grow(cfg: Config, exp: real -> real, features: seq<seq<int>>, labels: seq<int>, seeds: Seeds,
                nextInt: NextInt): (r: Grower)
    requires PositiveExp(exp) && Growable(cfg, features, labels) && ValidNextInt(nextInt)
    ensures GrowsTrees(r, |features|, cfg.numClasses, Width(features))
  {
    (t: nat, s: seq<seq<real>>) =>
      if Matrix(s, |features|, cfg.numClasses) then GrowRound(cfg, exp, features, labels, t, s, seeds, nextInt) else []
  }

  /** `train`: `numTrees` rounds (none for a negative count), each with one
      tree per class, and the training scores they leave behind. With no
      round or no class no tree is grown: the rounds are empty lists and the
      scores stay zero. */
  function Train(cfg: Config, exp: real -> real, features: seq<seq<int>>, labels: seq<int>, seeds: Seeds,
                 nextInt: NextInt): (r: Model)
    requires PositiveExp(exp) && Trainable(cfg, features, labels) && ValidNextInt(nextInt)
    ensures |r.rounds| == if cfg.numTrees > 0 then cfg.numTrees else 0
    ensures forall t :: 0 <= t < |r.rounds| ==> |r.rounds[t]| == cfg.numClasses
    ensures Answerable(r.rounds, cfg.numClasses, Width(features))
    ensures Matrix(r.scores, |features|, cfg.numClasses)
    ensures cfg.numClasses == 0 || cfg.numTrees <= 0 ==>
      forall i, c :: 0 <= i < |features| && 0 <= c < cfg.numClasses ==> r.scores[i][c] == 0.0
  {
    var count := if cfg.numTrees > 0 then cfg.numTrees else 0;
    if count == 0 || cfg.numClasses == 0 then Model(seq(count, t => []), Zeros(|features|, cfg.numClasses))
    else
      var grow := Grow(cfg, exp, features, labels, seeds, nextInt);
      Model(Rounds(grow, cfg.numClasses, cfg.eta, features, count), ScoresAfter(grow, cfg.numClasses, cfg.eta, features, count))
  }

  /** Every tree of every round can answer for a sample of at least `width`
      features, and every round has a tree for each class. */
  predicate Answerable(rounds: seq<seq<Tree<real>>>, k: nat, width: nat)
  {
    forall t :: 0 <= t < |rounds| ==> |rounds[t]| >= k && forall c :: 0 <= c < k ==> FeaturesBelow(rounds[t][c], width)
  }

  /** `finalScores[c]`: `eta * tree.predict(sample)` summed over the rounds, in
      round order, starting from 0. */
  function FinalScore(rounds: seq<seq<Tree<real>>>, k: nat, eta: real, c: nat, sample: seq<int>): real
    requires c < k && Answerable(rounds, k, |sample|)
  {
    if |rounds| == 0 then 0.0
    else FinalScore(rounds[..|rounds| - 1], k, eta, c, sample) + eta * Trees.Predict(rounds[|rounds| - 1][c], sample)
  }

  /** The final scores of all classes. */
  function FinalScores(rounds: seq<seq<Tree<real>>>, k: nat, eta: real, sample: seq<int>): (r: seq<real>)
    requires Answerable(rounds, k, |sample|)
    ensures |r| == k && forall c :: 0 <= c < k ==> r[c] == FinalScore(rounds, k, eta, c, sample)
  {
    seq(k, c requires 0 <= c < k => FinalScore(rounds, k, eta, c, sample))
  }

  /** `predict`: the first class of greatest softmax probability of the final
      scores; failure when there are no classes (`arr[0]`). */
  function Predict(cfg: Config, exp: real -> real, rounds: seq<seq<Tree<real>>>, sample: seq<int>): (r: Option<nat>)
    requires PositiveExp(exp) && Answerable(rounds, cfg.numClasses, |sample|)
    ensures r.Some? <==> cfg.numClasses > 0
    ensures r.Some? ==> var probs := Softmax(exp, FinalScores(rounds, cfg.numClasses, cfg.eta, sample));
      && r.value < cfg.numClasses
      && (forall c :: 0 <= c < cfg.numClasses ==> probs[c] <= probs[r.value])
      && (forall c :: 0 <= c < r.value ==> probs[c] < probs[r.value])
  {
    if cfg.numClasses == 0 then None
    else Some(ArgMax(Softmax(exp, FinalScores(rounds, cfg.numClasses, cfg.eta, sample))))
  }

  /** With no rounds every final score is 0, so every class is equally likely
      and the first class is returned. */
  lemma NoRoundsPredictsZero(cfg: Config, exp: real -> real, sample: seq<int>)
    requires PositiveExp(exp) && cfg.numClasses > 0
    ensures Predict(cfg, exp, [], sample) == Some(0)
  {
    var probs := Softmax(exp, FinalScores([], cfg.numClasses, cfg.eta, sample));
    ArgMaxOfConstant(probs);
  }

  /** Softmax does not change the answer: `predict` returns the first class
      of greatest final score. */
  lemma PredictIsFirstGreatestScore(cfg: Config, exp: real -> real, rounds: seq<seq<Tree<real>>>, sample: seq<int>)
    requires PositiveExp(exp) && IncreasingExp(exp) && Answerable(rounds, cfg.numClasses, |sample|)
    requires cfg.numClasses > 0
    ensures var scores := FinalScores(rounds, cfg.numClasses, cfg.eta, sample);
      var r := Predict(cfg, exp, rounds, sample);
      && r.Some? && r.value < cfg.numClasses
      && (forall c :: 0 <= c < cfg.numClasses ==> scores[c] <= scores[r.value])
      && (forall c :: 0 <= c < r.value ==> scores[c] < scores[r.value])
  {
    var scores := FinalScores(rounds, cfg.numClasses, cfg.eta, sample);
    var r := Predict(cfg, exp, rounds, sample).value;
    forall c | 0 <= c < cfg.numClasses
      ensures scores[c] <= scores[r]
      ensures c < r ==> scores[c] < scores[r]
    {
      SoftmaxOrder(exp, scores, c, r);
      SoftmaxOrder(exp, scores, r, c);
    }
  }

  /** What `train` keeps: round t's class-c tree is grown on the gradients
      and hessians of the probabilities at the START of round t, with seed
      `(t, c)`; the scores it is grown from are those after t rounds. */
  lemma RoundTrees(cfg: Config, exp: real -> real, features: seq<seq<int>>, labels: seq<int>, seeds: Seeds,
                   nextInt: NextInt, t: nat, c: nat)
    requires PositiveExp(exp) && Trainable(cfg, features, labels) && ValidNextInt(nextInt)
    requires t < cfg.numTrees && c < cfg.numClasses
    ensures var start := ScoresAfter(Grow(cfg, exp, features, labels, seeds, nextInt), cfg.numClasses, cfg.eta, features, t);
      var probs := Probabilities(exp, start);
      Matrix(probs, |features|, cfg.numClasses) && ProbabilityRows(probs)
      && Train(cfg, exp, features, labels, seeds, nextInt).rounds[t][c]
         == ClassTree(cfg, features, labels, probs, c, seeds(t, c), nextInt)
  {
    var grow := Grow(cfg, exp, features, labels, seeds, nextInt);
    var start := ScoresAfter(grow, cfg.numClasses, cfg.eta, features, t);
    RoundsEntry(grow, cfg.numClasses, cfg.eta, features, cfg.numTrees, t);
    GrowRoundTree(cfg, exp, features, labels, t, start, seeds, nextInt, c);
  }

  /** One more round keeps the training scores equal to the final scores:
      adding a round's trees to the scores adds their outputs to the sums. */
  lemma RoundAdded(rounds: seq<seq<Tree<real>>>, scores: seq<seq<real>>, trees: seq<Tree<real>>, k: nat, eta: real,
                   features: seq<seq<int>>, i: nat, c: nat)
    requires |trees| == k && Matrix(scores, |features|, k) && Rectangular(features, Width(features))
    requires forall c :: 0 <= c < k ==> FeaturesBelow(trees[c], Width(features))
    requires i < |features| && c < k && Answerable(rounds, k, |features[i]|)
    requires scores[i][c] == FinalScore(rounds, k, eta, c, features[i])
    ensures Answerable(rounds + [trees], k, |features[i]|)
    ensures AddTrees(scores, trees, k, eta, features)[i][c] == FinalScore(rounds + [trees], k, eta, c, features[i])
  {
    AddTreesEntry(scores, trees, k, eta, features, i, c);
    assert (rounds + [trees])[..|rounds|] == rounds;
  }

  /** The training scores are the scores `predict` computes for the training
      rows: after any number of rounds, `predictions[i][c]` is the sum over
      the rounds of `eta * tree.predict(features[i])`. */
  lemma {:induction false} TrainingScoresArePredictScores(grow: Grower, k: nat, eta: real, features: seq<seq<int>>,
                                                          count: nat, i: nat, c: nat)
    requires Rectangular(features, Width(features)) && GrowsTrees(grow, |features|, k, Width(features))
    requires i < |features| && c < k
    ensures var rounds := Rounds(grow, k, eta, features, count);
      Answerable(rounds, k, |features[i]|)
      && ScoresAfter(grow, k, eta, features, count)[i][c] == FinalScore(rounds, k, eta, c, features[i])
    decreases count
  {
    if count > 0 {
      TrainingScoresArePredictScores(grow, k, eta, features, count - 1, i, c);
      var start := ScoresAfter(grow, k, eta, features, count - 1);
      var before := Rounds(grow, k, eta, features, count - 1);
      RoundAdded(before, start, grow(count - 1, start), k, eta, features, i, c);
    }
  }

  /** Corollary: `predict`'s final scores for a training row are that row's
      training scores after `train`. */
  lemma TrainedScoresAreFinalScores(cfg: Config, exp: real -> real, features: seq<seq<int>>, labels: seq<int>,
                                    seeds: Seeds, nextInt: NextInt, i: nat)
    requires PositiveExp(exp) && Trainable(cfg, features, labels) && ValidNextInt(nextInt)
    requires i < |features|
    ensures var m := Train(cfg, exp, features, labels, seeds, nextInt);
      Answerable(m.rounds, cfg.numClasses, |features[i]|)
      && FinalScores(m.rounds, cfg.numClasses, cfg.eta, features[i]) == m.scores[i]
  {
    var count := if cfg.numTrees > 0 then cfg.numTrees else 0;
    if count > 0 && cfg.numClasses > 0 {
      var grow := Grow(cfg, exp, features, labels, seeds, nextInt);
      forall c | 0 <= c < cfg.numClasses
        ensures ScoresAfter(grow, cfg.numClasses, cfg.eta, features, count)[i][c]
                == FinalScore(Rounds(grow, cfg.numClasses, cfg.eta, features, count), cfg.numClasses, cfg.eta, c, features[i])
      {
        TrainingScoresArePredictScores(grow, cfg.numClasses, cfg.eta, features, count, i, c);
      }
    }
  }
}

=== FILE: common.dfy ===
/** Shared vocabulary of the learners: optional values, the explicit random
    generator, sums, and the "first strictly greater" argmax scan that every
    classifier of the library repeats. */
module Common {

  datatype Option<+T> = None | Some(value: T)

  /** State of a java.util.Random. The learners only ever ask it for a bounded
      integer; how the next state is computed is supplied by the caller as a
      `NextInt` function, so the model is deterministic given that function. */
  datatype Rng = Rng(state: int)

  /** `nextInt(g, bound)` draws a value and returns the advanced generator. */
  type NextInt = (Rng, nat) -> (nat, Rng)

  /** Java's contract for `Random.nextInt(bound)`: the value lies in [0, bound). */
  ghost predicate ValidNextInt(nextInt: NextInt)
  {
    forall g, bound :: bound > 0 ==> nextInt(g, bound).0 < bound
  }

  /** Java's `Integer.MIN_VALUE` and the 32-bit `int` range. */
  const IntMin: int := -0x8000_0000
  type Int32 = x: int | IntMin <= x < 0x8000_0000

  /** Java's `(int)` cast of a double: truncation toward zero, so it is
      non-negative exactly above -1. */
  function TruncateToInt(x: real): (r: int)
    ensures 0.0 <= x ==> 0 <= r && r as real <= x < r as real + 1.0
    ensures x < 0.0 ==> r <= 0 && r as real - 1.0 < x <= r as real
    ensures r >= 0 <==> x > -1.0
  {
    if x < 0.0 then -((-x).Floor) else x.Floor
  }

  function Sum(s: seq<int>): int
  {
    if |s| == 0 then 0 else Sum(s[..|s| - 1]) + s[|s| - 1]
  }

  function SumReal(s: seq<real>): real
  {
    if |s| == 0 then 0.0 else SumReal(s[..|s| - 1]) + s[|s| - 1]
  }

  lemma {:induction false} SumAppend(a: seq<int>, b: seq<int>)
    ensures Sum(a + b) == Sum(a) + Sum(b)
    decreases |b|
  {
    if |b| == 0 {
      assert a + b == a;
    } else {
      assert (a + b)[..|a + b| - 1] == a + b[..|b| - 1];
      SumAppend(a, b[..|b| - 1]);
    }
  }

  lemma {:induction false} SumRealAppend(a: seq<real>, b: seq<real>)
    ensures SumReal(a + b) == SumReal(a) + SumReal(b)
    decreases |b|
  {
    if |b| == 0 {
      assert a + b == a;
    } else {
      assert (a + b)[..|a + b| - 1] == a + b[..|b| - 1];
      SumRealAppend(a, b[..|b| - 1]);
    }
  }

  /** Sums do not depend on the order of the summands. */
  lemma {:induction false} SumRealPermutation(a: seq<real>, b: seq<real>)
    requires multiset(a) == multiset(b)
    ensures SumReal(a) == SumReal(b)
    decreases |a|
  {
    if |a| > 0 {
      var x := a[|a| - 1];
      assert x in multiset(b);
      var j :| 0 <= j < |b| && b[j] == x;
      var b' := b[..j] + b[j + 1..];
      assert b == b[..j] + [x] + b[j + 1..];
      assert multiset(b) == multiset(b') + multiset{x};
      assert a == a[..|a| - 1] + [x];
      assert multiset(a) == multiset(a[..|a| - 1]) + multiset{x};
      assert multiset(a[..|a| - 1]) == multiset(a) - multiset{x};
      assert multiset(b') == multiset(b) - multiset{x};
      SumRealPermutation(a[..|a| - 1], b');
      SumRealAppend(b[..j], [x]);
      SumRealAppend(b[..j] + [x], b[j + 1..]);
      SumRealAppend(b[..j], b[j + 1..]);
    } else {
      assert |b| == |multiset(b)| == 0;
    }
  }

  lemma {:induction false} SumNonNegative(s: seq<real>)
    requires forall k :: 0 <= k < |s| ==> s[k] >= 0.0
    ensures SumReal(s) >= 0.0
    decreases |s|
  {
    if |s| > 0 {
      SumNonNegative(s[..|s| - 1]);
    }
  }

  /** The argmax loop written out in the learners: starting from `best` with
      value `bestVal`, visit `a[i..]` in order and move to position j only when
      `a[j] > ` the value kept so far. */
  function ScanMax(a: seq<real>, i: nat, best: int, bestVal: real): (r: int)
    requires i <= |a| && best < i
    ensures r == best || i <= r < |a|
    ensures r == best ==> forall j :: i <= j < |a| ==> a[j] <= bestVal
    ensures r != best ==> a[r] > bestVal
    ensures r != best ==> forall j :: i <= j < |a| ==> a[j] <= a[r]
    ensures r != best ==> forall j :: i <= j < r ==> a[j] < a[r]
    decreases |a| - i
  {
    if i == |a| then best
    else if a[i] > bestVal then ScanMax(a, i + 1, i, a[i])
    else ScanMax(a, i + 1, best, bestVal)
  }

  /** Position of the largest value, the lowest such position on ties
      (`idx = 0; max = arr[0]; for i >= 1 if arr[i] > max ...`). */
  function ArgMax(a: seq<real>): (r: nat)
    requires |a| > 0
    ensures r < |a|
    ensures forall j :: 0 <= j < |a| ==> a[j] <= a[r]
    ensures forall j :: 0 <= j < r ==> a[j] < a[r]
  {
    ScanMax(a, 1, 0, a[0])
  }

  /** The same loop started at index -1 with a sentinel value below which
      nothing is selected (`best = -1; max = floor; for c >= 0 ...`). */
  function ArgMaxAbove(a: seq<real>, floor: real): (r: int)
    ensures -1 <= r < |a|
    ensures r == -1 <==> forall j :: 0 <= j < |a| ==> a[j] <= floor
    ensures r >= 0 ==> a[r] > floor
    ensures r >= 0 ==> forall j :: 0 <= j < |a| ==> a[j] <= a[r]
    ensures r >= 0 ==> forall j :: 0 <= j < r ==> a[j] < a[r]
  {
    ScanMax(a, 0, -1, floor)
  }

  /** "Maximal, and strictly larger than everything before it" pins the index down. */
  lemma ArgMaxUnique(a: seq<real>, k: nat)
    requires k < |a|
    requires forall j :: 0 <= j < |a| ==> a[j] <= a[k]
    requires forall j :: 0 <= j < k ==> a[j] < a[k]
    ensures ArgMax(a) == k
  {
  }

  /** When every value lies above the sentinel, the sentinel scan is the plain argmax. */
  lemma ArgMaxAboveIsArgMax(a: seq<real>, floor: real)
    requires |a| > 0
    requires forall j :: 0 <= j < |a| ==> a[j] > floor
    ensures ArgMaxAbove(a, floor) == ArgMax(a)
  {
    ArgMaxUnique(a, ArgMaxAbove(a, floor) as nat);
  }

  /** A constant vector has its argmax at 0. */
  lemma ArgMaxOfConstant(a: seq<real>)
    requires |a| > 0
    requires forall j :: 0 <= j < |a| ==> a[j] == a[0]
    ensures ArgMax(a) == 0
  {
  }

  function ToReals(a: seq<int>): (r: seq<real>)
    ensures |r| == |a| && forall j :: 0 <= j < |a| ==> r[j] == a[j] as real
  {
    seq(|a|, j requires 0 <= j < |a| => a[j] as real)
  }

  /** The argmax of an int array (class counts), same tie rule. */
  function ArgMaxInt(a: seq<int>): (r: nat)
    requires |a| > 0
    ensures r < |a|
    ensures forall j :: 0 <= j < |a| ==> a[j] <= a[r]
    ensures forall j :: 0 <= j < r ==> a[j] < a[r]
  {
    var r := ArgMax(ToReals(a));
    assert forall j :: 0 <= j < |a| ==> ToReals(a)[j] <= ToReals(a)[r];
    r
  }
}

=== FILE: decision_tree.dfy ===
/** `DecisionTreeClassifier`: a classification tree grown by Gini impurity
    reduction over a random subset of the features at every node. */
module DecisionTree {
  import opened Common
  import opened Seqs
  import opened Shuffle
  import opened Impurity
  import opened Splitting
  import opened SplitSearch
  import opened Trees

  /** The constructor arguments other than the generator. */
  datatype Config = Config(numClasses: nat, maxDepth: int, minSamplesSplit: int, minSamplesLeaf: int, maxFeatures: nat)

  /** The training data the Java can index without failing: rectangular rows,
      and a class id as label for every row. */
  predicate Labelled(features: seq<seq<int>>, labels: seq<int>, k: nat)
  {
    && Rectangular(features, Width(features))
    && |features| <= |labels|
    && forall i :: 0 <= i < |features| ==> 0 <= labels[i] < k
  }

  /** `counts[labels[i]]++` for every listed row: entry c is the number of
      listed rows labelled c. */
  function NodeCounts(features: seq<seq<int>>, labels: seq<int>, k: nat, idx: seq<nat>): (r: seq<nat>)
    requires Labelled(features, labels, k) && InRange(idx, |features|)
    ensures |r| == k && Sum(r) == |idx|
    ensures forall c :: 0 <= c < k ==> r[c] == multiset(Gather(labels, idx))[c]
  {
    ClassCounts(Gather(labels, idx), k)
  }

  lemma CountsPermutation(features: seq<seq<int>>, labels: seq<int>, k: nat, a: seq<nat>, b: seq<nat>)
    requires Labelled(features, labels, k) && InRange(a, |features|) && InRange(b, |features|)
    requires multiset(a) == multiset(b)
    ensures NodeCounts(features, labels, k, a) == NodeCounts(features, labels, k, b)
  {
    GatherPermutation(labels, a, b);
    ClassCountsPermutation(Gather(labels, a), Gather(labels, b), k);
  }

  /** Splitting a set of rows in two splits its class counts in two. */
  lemma CountsSplit(features: seq<seq<int>>, labels: seq<int>, k: nat, idx: seq<nat>, a: seq<nat>, b: seq<nat>)
    requires Labelled(features, labels, k) && InRange(idx, |features|)
    requires multiset(a) + multiset(b) == multiset(idx)
    ensures InRange(a, |features|) && InRange(b, |features|)
    ensures forall c :: 0 <= c < k ==>
      NodeCounts(features, labels, k, a)[c] + NodeCounts(features, labels, k, b)[c]
      == NodeCounts(features, labels, k, idx)[c]
  {
    InRangeSubMultiset(a, idx, |features|);
    InRangeSubMultiset(b, idx, |features|);
    GatherAppend(labels, a, b);
    assert InRange(a + b, |features|);
    CountsPermutation(features, labels, k, a + b, idx);
    ClassCountsAppend(Gather(labels, a), Gather(labels, b), k);
  }

  /** The counts the sweep keeps on the right (`rightCounts`, the parent
      counts with every left label taken off) are the counts of the rows after
      the cut: counts are conserved along the sweep. */
  lemma RightCountsAreSuffixCounts(features: seq<seq<int>>, labels: seq<int>, k: nat, idx: seq<nat>, s: seq<nat>, m: nat)
    requires Labelled(features, labels, k) && InRange(idx, |features|)
    requires multiset(s) == multiset(idx) && m <= |s|
    ensures InRange(s[..m], |features|) && InRange(s[m..], |features|)
    ensures forall c :: 0 <= c < k ==>
      NodeCounts(features, labels, k, s[..m])[c] <= NodeCounts(features, labels, k, idx)[c]
    ensures Minus(NodeCounts(features, labels, k, idx), NodeCounts(features, labels, k, s[..m]))
         == NodeCounts(features, labels, k, s[m..])
  {
    assert s[..m] + s[m..] == s;
    assert multiset(s[..m]) + multiset(s[m..]) == multiset(idx);
    CountsSplit(features, labels, k, idx, s[..m], s[m..]);
  }

  /** `parentImpurity - (wLeft * gini(leftCounts) + wRight * gini(rightCounts))`
      with `wLeft = leftSize / n` and `wRight = 1 - wLeft`. */
  function SplitGini(parent: seq<nat>, left: seq<nat>, right: seq<nat>): real
    requires Sum(parent) > 0 && Sum(left) > 0 && Sum(right) > 0
  {
    var wLeft := (Sum(left) as real) / (Sum(parent) as real);
    Gini(parent) - (wLeft * Gini(left) + (1.0 - wLeft) * Gini(right))
  }

  /** The Gini gain of splitting the listed rows on feature f at threshold v,
      computed from the two sides of the partition; 0 where a side would be
      empty, a threshold no sweep proposes. */
  function ThresholdGain(features: seq<seq<int>>, labels: seq<int>, k: nat, idx: seq<nat>, f: nat, v: int): real
    requires Labelled(features, labels, k) && InRange(idx, |features|)
  {
    var p := Partition(features, f, v, idx);
    if |p.0| == 0 || |p.1| == 0 then 0.0
    else
      CountsSplit(features, labels, k, idx, p.0, p.1);
      SplitGini(NodeCounts(features, labels, k, idx), NodeCounts(features, labels, k, p.0),
                NodeCounts(features, labels, k, p.1))
  }

  /** A split never gains more than the parent's Gini impurity: both
      children's impurities are non-negative and their weights are positive. */
  lemma SplitGiniAtMostParent(parent: seq<nat>, left: seq<nat>, right: seq<nat>)
    requires Sum(parent) > 0 && Sum(left) > 0 && Sum(right) > 0 && Sum(left) + Sum(right) == Sum(parent)
    ensures SplitGini(parent, left, right) <= Gini(parent)
  {
    GiniBounds(left);
    GiniBounds(right);
    assert SplitGini(parent, left, right)
        == Gini(parent) - ((Sum(left) as real) / (Sum(parent) as real) * Gini(left)
                           + (1.0 - (Sum(left) as real) / (Sum(parent) as real)) * Gini(right));
    WeightedMixNonNegative(Sum(left) as real, Sum(parent) as real, Gini(left), Gini(right));
  }

  /** With a weight `a / n` in (0, 1), the weighted mean of two non-negative
      values is non-negative. */
  lemma WeightedMixNonNegative(a: real, n: real, x: real, y: real)
    requires 0.0 < a < n && x >= 0.0 && y >= 0.0
    ensures a / n * x + (1.0 - a / n) * y >= 0.0
  {
    var w := a / n;
    assert w * n == a;
    assert w * x >= 0.0;
    assert (1.0 - w) * y >= 0.0;
  }

  /** The gain of any threshold is at most the impurity of the node's rows,
      so a pure node (impurity 0) has no threshold of positive gain: the
      purity test of `buildNode` only stops searches that could not split. */
  lemma ThresholdGainAtMostImpurity(features: seq<seq<int>>, labels: seq<int>, k: nat, idx: seq<nat>, f: nat, v: int)
    requires Labelled(features, labels, k) && InRange(idx, |features|)
    ensures |idx| > 0 ==> ThresholdGain(features, labels, k, idx, f, v) <= Gini(NodeCounts(features, labels, k, idx))
    ensures ThresholdGain(features, labels, k, idx, f, v) > 0.0 ==> !IsPure(NodeCounts(features, labels, k, idx))
  {
    var p := Partition(features, f, v, idx);
    if |idx| > 0 {
      GiniBounds(NodeCounts(features, labels, k, idx));
    }
    if |p.0| > 0 && |p.1| > 0 {
      CountsSplit(features, labels, k, idx, p.0, p.1);
      SplitGiniAtMostParent(NodeCounts(features, labels, k, idx), NodeCounts(features, labels, k, p.0),
                            NodeCounts(features, labels, k, p.1));
    }
  }

  ghost function Gains(features: seq<seq<int>>, labels: seq<int>, k: nat, idx: seq<nat>): ThresholdGains
    requires Labelled(features, labels, k) && InRange(idx, |features|)
  {
    (f: nat, v: int) => ThresholdGain(features, labels, k, idx, f, v)
  }

  /** The sweep's gain at sorted position i: `leftCounts` holds the labels of
      `s[..i+1]` and `rightCounts` the parent counts minus those. */
  function CutGain(features: seq<seq<int>>, labels: seq<int>, k: nat, idx: seq<nat>, s: seq<nat>, i: nat): real
    requires Labelled(features, labels, k) && InRange(idx, |features|)
    requires multiset(s) == multiset(idx) && i + 1 < |s|
  {
    var parent := NodeCounts(features, labels, k, idx);
    RightCountsAreSuffixCounts(features, labels, k, idx, s, i + 1);
    var left := NodeCounts(features, labels, k, s[..i + 1]);
    SplitGini(parent, left, Minus(parent, left))
  }

  function CutGains(features: seq<seq<int>>, labels: seq<int>, k: nat, idx: seq<nat>, s: seq<nat>): (r: seq<real>)
    requires Labelled(features, labels, k) && InRange(idx, |features|)
    requires multiset(s) == multiset(idx)
    ensures |s| <= |r| + 1
    ensures forall i :: 0 <= i && i + 1 < |s| ==> r[i] == CutGain(features, labels, k, idx, s, i)
  {
    if |s| == 0 then []
    else seq(|s| - 1, i requires 0 <= i < |s| - 1 => CutGain(features, labels, k, idx, s, i))
  }

  /** At a boundary of a sorted order, the sweep's running counts give the
      gain of the partition at the value there. */
  lemma CutGainAtBoundary(features: seq<seq<int>>, labels: seq<int>, k: nat, idx: seq<nat>, f: nat, s: seq<nat>,
                          j: nat, minLeaf: int)
    requires Labelled(features, labels, k) && InRange(idx, |features|)
    requires multiset(s) == multiset(idx) && SortedBy(features, f, s) && BoundaryAt(features, f, s, j, minLeaf)
    ensures CutGain(features, labels, k, idx, s, j) == ThresholdGain(features, labels, k, idx, f, Value(features, f, s[j]))
  {
    var v := Value(features, f, s[j]);
    BoundaryPartition(features, f, s, j, minLeaf);
    PartitionPermutation(features, f, v, s, idx);
    var p := Partition(features, f, v, idx);
    RightCountsAreSuffixCounts(features, labels, k, idx, s, j + 1);
    CountsSplit(features, labels, k, idx, p.0, p.1);
    CountsPermutation(features, labels, k, p.0, s[..j + 1]);
    CountsPermutation(features, labels, k, p.1, s[j + 1..]);
  }

  /** `findBestSplit`: draw the candidate features, then search them. The
      returned split, when there is one, is admissible for the node's rows,
      carries its true Gini gain, which is positive, and is the first split of
      strictly greatest gain in search order (candidates in drawn order,
      thresholds in increasing order); no admissible threshold of a candidate
      gains more. The Java also reorders the caller's index list, returned
      here with the advanced generator. */
  function FindBestSplit(cfg: Config, features: seq<seq<int>>, labels: seq<int>, idx: seq<nat>,
                         g: Rng, nextInt: NextInt): (r: (Option<Split>, seq<nat>, Rng))
    requires Labelled(features, labels, cfg.numClasses) && InRange(idx, |features|)
    requires ValidNextInt(nextInt)
    ensures |r.1| == |idx| && multiset(r.1) == multiset(idx)
    ensures r.2 == CandidateFeatures(Width(features), cfg.maxFeatures, g, nextInt).1
    ensures var cands := CandidateFeatures(Width(features), cfg.maxFeatures, g, nextInt).0;
      && (r.0.Some? ==> Chosen(features, idx, cfg.minSamplesLeaf, Gains(features, labels, cfg.numClasses, idx),
                               cands, r.0.value, 0.0))
      && (forall q, v :: 0 <= q < |cands| && Admissible(features, cands[q], idx, v, cfg.minSamplesLeaf) ==>
            ThresholdGain(features, labels, cfg.numClasses, idx, cands[q], v)
            <= if r.0.Some? then r.0.value.gain else 0.0)
  {
    var k := cfg.numClasses;
    var (cands, g') := CandidateFeatures(Width(features), cfg.maxFeatures, g, nextInt);
    var gainsOf := s => if multiset(s) == multiset(idx) then CutGains(features, labels, k, idx, s) else [];
    var r := SearchFeatures(features, cfg.minSamplesLeaf, gainsOf, cands, idx, None, 0.0);
    forall f: nat, s: seq<nat>, j: nat | multiset(s) == multiset(idx) && SortedBy(features, f, s)
        && BoundaryAt(features, f, s, j, cfg.minSamplesLeaf)
      ensures gainsOf(s)[j] == Gains(features, labels, k, idx)(f, Value(features, f, s[j]))
    {
      CutGainAtBoundary(features, labels, k, idx, f, s, j, cfg.minSamplesLeaf);
    }
    SearchFeaturesCorrect(features, idx, cfg.minSamplesLeaf, gainsOf, Gains(features, labels, k, idx),
                          cands, idx, None, 0.0);
    (r.0, r.2, g')
  }

  /** `argMax(counts)` names class c: the lowest class id with the largest count. */
  predicate IsMajority(counts: seq<nat>, c: int)
  {
    && 0 <= c < |counts|
    && (forall j :: 0 <= j < |counts| ==> counts[j] <= counts[c])
    && (forall j :: 0 <= j < c ==> counts[j] < counts[c])
  }

  /** What `buildNode` guarantees of the tree it grows from the listed rows at
      a given depth: a leaf holds the majority class of its rows; an internal
      node appears only below `maxDepth`, on at least `minSamplesSplit` rows
      that are not pure, with an admissible threshold of positive Gini gain,
      and its children are grown from the two sides of the partition. */
  ghost predicate Grown(cfg: Config, features: seq<seq<int>>, labels: seq<int>, t: Tree<int>, idx: seq<nat>, depth: int)
    requires Labelled(features, labels, cfg.numClasses) && InRange(idx, |features|)
    decreases t
  {
    var counts := NodeCounts(features, labels, cfg.numClasses, idx);
    match t
    case Leaf(c) => IsMajority(counts, c)
    case Node(f, thr, l, r) =>
      var p := Partition(features, f, thr, idx);
      CountsSplit(features, labels, cfg.numClasses, idx, p.0, p.1);
      && depth < cfg.maxDepth && |idx| >= cfg.minSamplesSplit && !IsPure(counts)
      && f < Width(features)
      && Admissible(features, f, idx, thr, cfg.minSamplesLeaf)
      && ThresholdGain(features, labels, cfg.numClasses, idx, f, thr) > 0.0
      && Grown(cfg, features, labels, l, p.0, depth + 1)
      && Grown(cfg, features, labels, r, p.1, depth + 1)
  }

  /** Whether a tree is grown from some rows depends only on which rows, not
      on their order. */
  lemma {:induction false} GrownPermutation(cfg: Config, features: seq<seq<int>>, labels: seq<int>, t: Tree<int>,
                                            a: seq<nat>, b: seq<nat>, depth: int)
    requires Labelled(features, labels, cfg.numClasses) && InRange(a, |features|) && InRange(b, |features|)
    requires multiset(a) == multiset(b)
    requires Grown(cfg, features, labels, t, a, depth)
    ensures Grown(cfg, features, labels, t, b, depth)
    decreases t
  {
    var k := cfg.numClasses;
    CountsPermutation(features, labels, k, a, b);
    match t
    case Leaf(_) =>
    case Node(f, thr, l, r) =>
      var pa, pb := Partition(features, f, thr, a), Partition(features, f, thr, b);
      PartitionPermutation(features, f, thr, a, b);
      AdmissiblePermutation(features, f, a, b, thr, cfg.minSamplesLeaf);
      CountsSplit(features, labels, k, a, pa.0, pa.1);
      CountsSplit(features, labels, k, b, pb.0, pb.1);
      CountsPermutation(features, labels, k, pa.0, pb.0);
      CountsPermutation(features, labels, k, pa.1, pb.1);
      assert ThresholdGain(features, labels, k, a, f, thr) == ThresholdGain(features, labels, k, b, f, thr);
      GrownPermutation(cfg, features, labels, l, pa.0, pb.0, depth + 1);
      GrownPermutation(cfg, features, labels, r, pa.1, pb.1, depth + 1);
  }

  /** No path of a grown tree holds more than `maxDepth - depth` internal nodes. */
  lemma {:induction false} GrownHeight(cfg: Config, features: seq<seq<int>>, labels: seq<int>, t: Tree<int>,
                                       idx: seq<nat>, depth: int)
    requires Labelled(features, labels, cfg.numClasses) && InRange(idx, |features|)
    requires Grown(cfg, features, labels, t, idx, depth)
    ensures Height(t) <= if depth < cfg.maxDepth then cfg.maxDepth - depth else 0
    decreases t
  {
    match t
    case Leaf(_) =>
    case Node(f, thr, l, r) =>
      var p := Partition(features, f, thr, idx);
      CountsSplit(features, labels, cfg.numClasses, idx, p.0, p.1);
      GrownHeight(cfg, features, labels, l, p.0, depth + 1);
      GrownHeight(cfg, features, labels, r, p.1, depth + 1);
  }

  /** The two sides of a grown internal node are grown one level deeper. */
  lemma GrownChildren(cfg: Config, features: seq<seq<int>>, labels: seq<int>, t: Tree<int>, idx: seq<nat>, depth: int)
    requires Labelled(features, labels, cfg.numClasses) && InRange(idx, |features|)
    requires t.Node? && Grown(cfg, features, labels, t, idx, depth)
    ensures var p := Partition(features, t.feature, t.threshold, idx);
      && InRange(p.0, |features|) && InRange(p.1, |features|)
      && t.feature < Width(features)
      && Grown(cfg, features, labels, t.left, p.0, depth + 1)
      && Grown(cfg, features, labels, t.right, p.1, depth + 1)
  {
    var p := Partition(features, t.feature, t.threshold, idx);
    CountsSplit(features, labels, cfg.numClasses, idx, p.0, p.1);
  }

  /** Every leaf of a grown tree holds a class id. */
  lemma {:induction false} GrownLeaves(cfg: Config, features: seq<seq<int>>, labels: seq<int>, t: Tree<int>,
                                       idx: seq<nat>, depth: int)
    requires Labelled(features, labels, cfg.numClasses) && InRange(idx, |features|)
    requires Grown(cfg, features, labels, t, idx, depth)
    ensures forall c :: c in Leaves(t) ==> 0 <= c < cfg.numClasses
    decreases t
  {
    if t.Node? {
      var p := Partition(features, t.feature, t.threshold, idx);
      GrownChildren(cfg, features, labels, t, idx, depth);
      GrownLeaves(cfg, features, labels, t.left, p.0, depth + 1);
      GrownLeaves(cfg, features, labels, t.right, p.1, depth + 1);
    }
  }

  /** A grown tree tests only existing features. */
  lemma {:induction false} GrownFeatures(cfg: Config, features: seq<seq<int>>, labels: seq<int>, t: Tree<int>,
                                         idx: seq<nat>, depth: int)
    requires Labelled(features, labels, cfg.numClasses) && InRange(idx, |features|)
    requires Grown(cfg, features, labels, t, idx, depth)
    ensures FeaturesBelow(t, Width(features))
    decreases t
  {
    match t
    case Leaf(_) =>
    case Node(f, thr, l, r) =>
      var p := Partition(features, f, thr, idx);
      CountsSplit(features, labels, cfg.numClasses, idx, p.0, p.1);
      GrownFeatures(cfg, features, labels, l, p.0, depth + 1);
      GrownFeatures(cfg, features, labels, r, p.1, depth + 1);
  }

  /** An internal node whose children are grown from the two sides of an
      admissible, positive-gain split of a node that was not stopped is grown. */
  lemma NodeIsGrown(cfg: Config, features: seq<seq<int>>, labels: seq<int>, idx: seq<nat>, depth: int,
                    f: nat, thr: int, order: seq<nat>, lt: Tree<int>, rt: Tree<int>)
    requires Labelled(features, labels, cfg.numClasses) && InRange(idx, |features|) && InRange(order, |features|)
    requires multiset(order) == multiset(idx)
    requires depth < cfg.maxDepth && |idx| >= cfg.minSamplesSplit
    requires !IsPure(NodeCounts(features, labels, cfg.numClasses, idx))
    requires f < Width(features) && Admissible(features, f, idx, thr, cfg.minSamplesLeaf)
    requires ThresholdGain(features, labels, cfg.numClasses, idx, f, thr) > 0.0
    requires var q := Partition(features, f, thr, order);
      && InRange(q.0, |features|) && InRange(q.1, |features|)
      && Grown(cfg, features, labels, lt, q.0, depth + 1)
      && Grown(cfg, features, labels, rt, q.1, depth + 1)
    ensures Grown(cfg, features, labels, Node(f, thr, lt, rt), idx, depth)
  {
    var k := cfg.numClasses;
    var p := Partition(features, f, thr, idx);
    var q := Partition(features, f, thr, order);
    PartitionPermutation(features, f, thr, order, idx);
    CountsSplit(features, labels, k, idx, p.0, p.1);
    GrownPermutation(cfg, features, labels, lt, q.0, p.0, depth + 1);
    GrownPermutation(cfg, features, labels, rt, q.1, p.1, depth + 1);
  }

  /** `buildNode` on a non-empty index list (the Java returns null for an
      empty one, which only the root can receive). The stopping rules come
      first; otherwise the best split is searched, and a leaf is made when
      there is none, its gain is not positive, or a side is below
      `minSamplesLeaf`. Children are built left first, sharing the generator.
      The root of the result carries the split `findBestSplit` chose among the
      features drawn at this node. */
  function BuildNode(cfg: Config, features: seq<seq<int>>, labels: seq<int>, idx: seq<nat>, depth: int,
                     g: Rng, nextInt: NextInt): (r: (Tree<int>, Rng))
    requires Labelled(features, labels, cfg.numClasses) && InRange(idx, |features|) && |idx| > 0
    requires ValidNextInt(nextInt)
    ensures Grown(cfg, features, labels, r.0, idx, depth)
    ensures r.0.Node? ==>
      Chosen(features, idx, cfg.minSamplesLeaf, Gains(features, labels, cfg.numClasses, idx),
             CandidateFeatures(Width(features), cfg.maxFeatures, g, nextInt).0,
             Split(r.0.feature, r.0.threshold, ThresholdGain(features, labels, cfg.numClasses, idx, r.0.feature, r.0.threshold)),
             0.0)
    decreases if depth < cfg.maxDepth then cfg.maxDepth - depth else 0
  {
    var k := cfg.numClasses;
    var counts := NodeCounts(features, labels, k, idx);
    var leaf: Tree<int> := Leaf(ArgMaxInt(counts));
    if depth >= cfg.maxDepth || |idx| < cfg.minSamplesSplit || IsPure(counts) then (leaf, g)
    else
      var (best, order, g1) := FindBestSplit(cfg, features, labels, idx, g, nextInt);
      if best.None? || best.value.gain <= 0.0 then (leaf, g1)
      else
        var sp := best.value;
        var (left, right) := Partition(features, sp.feature, sp.threshold, order);
        PartitionPermutation(features, sp.feature, sp.threshold, order, idx);
        if |left| < cfg.minSamplesLeaf || |right| < cfg.minSamplesLeaf then (leaf, g1)
        else
          InRangeSubMultiset(order, idx, |features|);
          InRangeSubMultiset(left, order, |features|);
          InRangeSubMultiset(right, order, |features|);
          var (lt, g2) := BuildNode(cfg, features, labels, left, depth + 1, g1, nextInt);
          var (rt, g3) := BuildNode(cfg, features, labels, right, depth + 1, g2, nextInt);
          NodeIsGrown(cfg, features, labels, idx, depth, sp.feature, sp.threshold, order, lt, rt);
          (Node(sp.feature, sp.threshold, lt, rt), g3)
  }

  /** The converse of the stopping rules: below `maxDepth`, on at least
      `minSamplesSplit` rows that are not pure, a node splits as soon as one
      admissible threshold of a drawn feature has positive gain. The
      `minSamplesLeaf` test after partitioning never fires, because the
      search only proposes thresholds that already pass it. */
  lemma SplitsWhenSomeGain(cfg: Config, features: seq<seq<int>>, labels: seq<int>, idx: seq<nat>, depth: int,
                           g: Rng, nextInt: NextInt, q: nat, v: int)
    requires Labelled(features, labels, cfg.numClasses) && InRange(idx, |features|) && |idx| > 0
    requires ValidNextInt(nextInt)
    requires depth < cfg.maxDepth && |idx| >= cfg.minSamplesSplit
    requires !IsPure(NodeCounts(features, labels, cfg.numClasses, idx))
    requires var cands := CandidateFeatures(Width(features), cfg.maxFeatures, g, nextInt).0;
      && q < |cands| && Admissible(features, cands[q], idx, v, cfg.minSamplesLeaf)
      && ThresholdGain(features, labels, cfg.numClasses, idx, cands[q], v) > 0.0
    ensures BuildNode(cfg, features, labels, idx, depth, g, nextInt).0.Node?
  {
    var r := FindBestSplit(cfg, features, labels, idx, g, nextInt);
    assert r.0.Some? && r.0.value.gain > 0.0;
    var sp := r.0.value;
    PartitionPermutation(features, sp.feature, sp.threshold, r.1, idx);
    FoundSplitIsMade(cfg, features, labels, idx, depth, g, nextInt);
  }

  /** One unfolding of `buildNode`: when the search reports a split of
      positive gain whose sides are large enough, the node splits. */
  lemma FoundSplitIsMade(cfg: Config, features: seq<seq<int>>, labels: seq<int>, idx: seq<nat>, depth: int,
                         g: Rng, nextInt: NextInt)
    requires Labelled(features, labels, cfg.numClasses) && InRange(idx, |features|) && |idx| > 0
    requires ValidNextInt(nextInt)
    requires depth < cfg.maxDepth && |idx| >= cfg.minSamplesSplit
    requires !IsPure(NodeCounts(features, labels, cfg.numClasses, idx))
    requires var r := FindBestSplit(cfg, features, labels, idx, g, nextInt);
      && r.0.Some? && r.0.value.gain > 0.0
      && |Partition(features, r.0.value.feature, r.0.value.threshold, r.1).0| >= cfg.minSamplesLeaf
      && |Partition(features, r.0.value.feature, r.0.value.threshold, r.1).1| >= cfg.minSamplesLeaf
    ensures BuildNode(cfg, features, labels, idx, depth, g, nextInt).0.Node?
  {
  }

  /** `train`: grow from all rows at depth 0. There is no tree (a null root)
      exactly when there are no rows. The tree has at most `maxDepth` levels of
      internal nodes, class ids at its leaves, and tests only existing features. */
  function Train(cfg: Config, features: seq<seq<int>>, labels: seq<int>, g: Rng, nextInt: NextInt)
    : (r: (Option<Tree<int>>, Rng))
    requires Labelled(features, labels, cfg.numClasses)
    requires ValidNextInt(nextInt)
    ensures r.0.None? <==> |features| == 0
    ensures r.0.Some? ==> Grown(cfg, features, labels, r.0.value, Range(|features|), 0)
    ensures r.0.Some? ==> Height(r.0.value) <= if 0 < cfg.maxDepth then cfg.maxDepth else 0
    ensures r.0.Some? ==> FeaturesBelow(r.0.value, Width(features))
    ensures r.0.Some? ==> forall c :: c in Leaves(r.0.value) ==> 0 <= c < cfg.numClasses
  {
    if |features| == 0 then (None, g)
    else
      var all := Range(|features|);
      var (t, g') := BuildNode(cfg, features, labels, all, 0, g, nextInt);
      GrownHeight(cfg, features, labels, t, all, 0);
      GrownLeaves(cfg, features, labels, t, all, 0);
      GrownFeatures(cfg, features, labels, t, all, 0);
      (Some(t), g')
  }

  /** `predict`: the class of the leaf the sample reaches, or failure (the
      Java dereferences a null root) when the tree was trained on no rows. */
  function Predict(root: Option<Tree<int>>, sample: seq<int>): (r: Option<int>)
    requires root.Some? ==> FeaturesBelow(root.value, |sample|)
    ensures r.Some? <==> root.Some?
    ensures r.Some? ==> r.value in Leaves(root.value)
  {
    match root
    case None => None
    case Some(t) => Some(Trees.Predict(t, sample))
  }

  /** The leaf rule of `createLeaf`: `c` is the majority class (lowest id on
      ties) of the rows of a cell. */
  ghost predicate MajorityCell(cfg: Config, features: seq<seq<int>>, labels: seq<int>, cell: seq<nat>, c: int)
  {
    Labelled(features, labels, cfg.numClasses) && InRange(cell, |features|)
    && IsMajority(NodeCounts(features, labels, cfg.numClasses, cell), c)
  }

  /** Every leaf of a grown tree holds the majority class of the rows the
      partitions on its path leave at it. */
  lemma {:induction false} GrownLeavesFit(cfg: Config, features: seq<seq<int>>, labels: seq<int>, t: Tree<int>,
                                          idx: seq<nat>, depth: int)
    requires Labelled(features, labels, cfg.numClasses) && InRange(idx, |features|)
    requires Grown(cfg, features, labels, t, idx, depth)
    ensures LeavesFit(t, features, idx, (cell, c) => MajorityCell(cfg, features, labels, cell, c))
    decreases t
  {
    match t
    case Leaf(_) =>
    case Node(f, thr, l, r) =>
      var p := Partition(features, f, thr, idx);
      CountsSplit(features, labels, cfg.numClasses, idx, p.0, p.1);
      GrownLeavesFit(cfg, features, labels, l, p.0, depth + 1);
      GrownLeavesFit(cfg, features, labels, r, p.1, depth + 1);
  }

  /** `predict` on a grown tree: any sample is answered with the majority
      class of the training rows that reach the same leaf, and a training row
      lies in the cell of the leaf it reaches. */
  lemma PredictIsCellMajority(cfg: Config, features: seq<seq<int>>, labels: seq<int>, t: Tree<int>,
                              idx: seq<nat>, depth: int, sample: seq<int>)
    requires Labelled(features, labels, cfg.numClasses) && InRange(idx, |features|)
    requires Grown(cfg, features, labels, t, idx, depth) && FeaturesBelow(t, |sample|)
    ensures MajorityCell(cfg, features, labels, Cell(t, features, idx, sample), Trees.Predict(t, sample))
    ensures forall i :: 0 <= i < |features| && i in idx && sample == features[i] ==>
      i in Cell(t, features, idx, sample)
  {
    GrownLeavesFit(cfg, features, labels, t, idx, depth);
    PredictFits(t, features, idx, sample, (cell, c) => MajorityCell(cfg, features, labels, cell, c));
    forall i | 0 <= i < |features| && i in idx && sample == features[i]
      ensures i in Cell(t, features, idx, sample)
    {
      RowInOwnCell(t, features, idx, i);
    }
  }
}

=== FILE: gradient_tree.dfy ===
/** `GradientTree`: a regression tree fitted to per-sample gradients and
    hessians, as one boosting step uses it. Gains and leaf values come from
    gradient and hessian sums with L2 regularisation `lambda`. */
module GradientTree {
  import opened Common
  import opened Seqs
  import opened Shuffle
  import opened Splitting
  import opened SplitSearch
  import opened Trees

  /** The constructor arguments. `secondOrder` is stored but never read. */
  datatype Config = Config(maxDepth: int, minSamplesLeaf: int, minSamplesSplit: int, lambda: real, gamma: real,
                           maxFeaturesRatio: real, secondOrder: bool)

  /** A positive `lambda` keeps every denominator `sumH + lambda` positive, given
      non-negative hessians. */
  predicate ValidConfig(cfg: Config)
  {
    cfg.lambda > 0.0
  }

  /** Per-sample statistics: a hessian for every gradient, none negative. */
  predicate Statistics(gradients: seq<real>, hessians: seq<real>)
  {
    |gradients| <= |hessians| && forall i :: 0 <= i < |gradients| ==> hessians[i] >= 0.0
  }

  /** The sum of `values[i]` over the listed samples. */
  function SumOver(values: seq<real>, idx: seq<nat>): real
    requires InRange(idx, |values|)
  {
    SumReal(Gather(values, idx))
  }

  lemma SumOverPermutation(values: seq<real>, a: seq<nat>, b: seq<nat>)
    requires InRange(a, |values|) && InRange(b, |values|) && multiset(a) == multiset(b)
    ensures SumOver(values, a) == SumOver(values, b)
  {
    GatherPermutation(values, a, b);
    SumRealPermutation(Gather(values, a), Gather(values, b));
  }

  /** Splitting the samples in two splits the sums in two. */
  lemma SumOverSplit(values: seq<real>, idx: seq<nat>, a: seq<nat>, b: seq<nat>)
    requires InRange(idx, |values|) && multiset(a) + multiset(b) == multiset(idx)
    ensures InRange(a, |values|) && InRange(b, |values|)
    ensures SumOver(values, a) + SumOver(values, b) == SumOver(values, idx)
  {
    InRangeSubMultiset(a, idx, |values|);
    InRangeSubMultiset(b, idx, |values|);
    GatherAppend(values, a, b);
    SumRealAppend(Gather(values, a), Gather(values, b));
    SumOverPermutation(values, a + b, idx);
  }

  lemma HessianSumNonNegative(gradients: seq<real>, hessians: seq<real>, idx: seq<nat>)
    requires Statistics(gradients, hessians) && InRange(idx, |gradients|)
    ensures SumOver(hessians, idx) >= 0.0
  {
    SumNonNegative(Gather(hessians, idx));
  }

  /** `createLeaf`: the leaf value `-sumG / (sumH + lambda)` over the listed
      samples, a value that minimises the leaf's regularised loss. */
  function LeafValue(lambda: real, gradients: seq<real>, hessians: seq<real>, idx: seq<nat>): (r: real)
    requires lambda > 0.0 && Statistics(gradients, hessians) && InRange(idx, |gradients|)
    ensures InRange(idx, |hessians|)
    ensures forall w ::
      Objective(SumOver(gradients, idx), SumOver(hessians, idx), lambda, r)
      <= Objective(SumOver(gradients, idx), SumOver(hessians, idx), lambda, w)
  {
    HessianSumNonNegative(gradients, hessians, idx);
    LeafValueOptimal(SumOver(gradients, idx), SumOver(hessians, idx), lambda);
    -SumOver(gradients, idx) / (SumOver(hessians, idx) + lambda)
  }

  /** Reordering the samples leaves the leaf value unchanged. */
  lemma LeafValuePermutation(lambda: real, gradients: seq<real>, hessians: seq<real>, a: seq<nat>, b: seq<nat>)
    requires lambda > 0.0 && Statistics(gradients, hessians) && InRange(b, |gradients|) && multiset(a) == multiset(b)
    ensures InRange(a, |gradients|)
    ensures LeafValue(lambda, gradients, hessians, a) == LeafValue(lambda, gradients, hessians, b)
  {
    InRangeSubMultiset(a, b, |gradients|);
    SumOverPermutation(gradients, a, b);
    SumOverPermutation(hessians, a, b);
  }

  /** The regularised second-order loss of a leaf with value w over samples
      whose gradients and hessians sum to g and h. */
  function Objective(g: real, h: real, lambda: real, w: real): real
  {
    g * w + (h + lambda) * w * w / 2.0
  }

  /** `leafScore(sumG, sumH, lambda)`: `-(sumG^2) / (sumH + lambda)`. */
  function LeafScore(g: real, h: real, lambda: real): (r: real)
    requires h + lambda > 0.0
    ensures r <= 0.0
  {
    -(g * g) / (h + lambda)
  }

  /** The leaf value is the minimiser of the regularised loss, whose minimum
      is half the leaf score. */
  lemma LeafValueMinimises(g: real, h: real, lambda: real, w: real)
    requires h + lambda > 0.0
    ensures Objective(g, h, lambda, -g / (h + lambda)) <= Objective(g, h, lambda, w)
    ensures Objective(g, h, lambda, -g / (h + lambda)) == LeafScore(g, h, lambda) / 2.0
  {
    var d := h + lambda;
    var v := -g / d;
    assert v * d == -g;
    assert Objective(g, h, lambda, w) - Objective(g, h, lambda, v) == d * (w - v) * (w - v) / 2.0 by {
      assert g == -(v * d);
    }
    assert (w - v) * (w - v) >= 0.0;
    assert d * (w - v) * (w - v) == d * ((w - v) * (w - v));
    assert Objective(g, h, lambda, v) == -(g * g) / d / 2.0 by {
      assert g * v == -(g * g) / d;
      assert d * v * v == (g * g) / d;
    }
  }

  /** No leaf value does better than `-g / (h + lambda)`. */
  lemma LeafValueOptimal(g: real, h: real, lambda: real)
    requires h + lambda > 0.0
    ensures forall w :: Objective(g, h, lambda, -g / (h + lambda)) <= Objective(g, h, lambda, w)
  {
    forall w
      ensures Objective(g, h, lambda, -g / (h + lambda)) <= Objective(g, h, lambda, w)
    {
      LeafValueMinimises(g, h, lambda, w);
    }
  }

  /** The gain as `findBestSplit` writes it: `leftScore + rightScore - baseScore`. */
  function SplitGain(gl: real, hl: real, gr: real, hr: real, lambda: real): real
    requires hl >= 0.0 && hr >= 0.0 && lambda > 0.0
  {
    LeafScore(gl, hl, lambda) + LeafScore(gr, hr, lambda) - LeafScore(gl + gr, hl + hr, lambda)
  }

  /** That gain is twice the amount by which the split RAISES the
      best achievable regularised loss: positive exactly when the two leaves
      fit worse than the single one. */
  lemma SplitGainIsLossIncrease(gl: real, hl: real, gr: real, hr: real, lambda: real)
    requires hl >= 0.0 && hr >= 0.0 && lambda > 0.0
    ensures SplitGain(gl, hl, gr, hr, lambda)
         == 2.0 * ((Objective(gl, hl, lambda, -gl / (hl + lambda)) + Objective(gr, hr, lambda, -gr / (hr + lambda)))
                   - Objective(gl + gr, hl + hr, lambda, -(gl + gr) / (hl + hr + lambda)))
  {
    LeafValueMinimises(gl, hl, lambda, 0.0);
    LeafValueMinimises(gr, hr, lambda, 0.0);
    LeafValueMinimises(gl + gr, hl + hr, lambda, 0.0);
  }

  /** Two samples with gradients -1 and 1, zero hessians and `lambda = 1`:
      the split that separates them fits both exactly (loss -1 against 0 for
      one leaf), yet the gain as written is -2, so the split is never taken. */
  lemma PerfectSplitRejected()
    ensures Objective(-1.0, 0.0, 1.0, 1.0) + Objective(1.0, 0.0, 1.0, -1.0) < Objective(0.0, 0.0, 1.0, 0.0)
    ensures SplitGain(-1.0, 0.0, 1.0, 0.0, 1.0) == -2.0
  {
  }

  lemma NegatedQuotient(x: real, d: real)
    requires d != 0.0
    ensures (-x) / d == -(x / d)
  {
    assert (-x) / d * d == -x;
  }

  /** The intended gain: how much the split lowers the best achievable
      regularised loss, `(leftScore + rightScore - baseScore)` with the sign
      flipped, i.e. the usual second-order gain
      `G_L^2/(H_L+lambda) + G_R^2/(H_R+lambda) - G^2/(H+lambda)`. */
  function LossReduction(gl: real, hl: real, gr: real, hr: real, lambda: real): (r: real)
    requires hl >= 0.0 && hr >= 0.0 && lambda > 0.0
    ensures r == 2.0 * (Objective(gl + gr, hl + hr, lambda, -(gl + gr) / (hl + hr + lambda))
                        - (Objective(gl, hl, lambda, -gl / (hl + lambda)) + Objective(gr, hr, lambda, -gr / (hr + lambda))))
  {
    SplitGainIsLossIncrease(gl, hl, gr, hr, lambda);
    NegatedQuotient(gl * gl, hl + lambda);
    NegatedQuotient(gr * gr, hr + lambda);
    NegatedQuotient((gl + gr) * (gl + gr), hl + hr + lambda);
    (gl * gl) / (hl + lambda) + (gr * gr) / (hr + lambda) - ((gl + gr) * (gl + gr)) / (hl + hr + lambda)
  }

  /** With the intended sign the separating split of the example gains 2. */
  lemma PerfectSplitAccepted()
    ensures LossReduction(-1.0, 0.0, 1.0, 0.0, 1.0) == 2.0
  {
  }

  /** The gain as written is the corrected gain with its sign flipped. */
  lemma SplitGainIsNegatedReduction(gl: real, hl: real, gr: real, hr: real, lambda: real)
    requires hl >= 0.0 && hr >= 0.0 && lambda > 0.0
    ensures SplitGain(gl, hl, gr, hr, lambda) == -LossReduction(gl, hl, gr, hr, lambda)
  {
    SplitGainIsLossIncrease(gl, hl, gr, hr, lambda);
  }

  /** The gain of splitting the listed samples on feature f at threshold v,
      from the sums over the two sides of the partition, as `findBestSplit`
      computes it (`SplitGain`); 0 where a side would be empty, a threshold no
      sweep proposes. */
  function ThresholdGain(lambda: real, gradients: seq<real>, hessians: seq<real>, idx: seq<nat>,
                         features: seq<seq<int>>, f: nat, v: int): real
    requires lambda > 0.0 && Statistics(gradients, hessians) && InRange(idx, |gradients|)
  {
    var p := Partition(features, f, v, idx);
    if |p.0| == 0 || |p.1| == 0 then 0.0
    else
      SumOverSplit(gradients, idx, p.0, p.1);
      HessianSumNonNegative(gradients, hessians, p.0);
      HessianSumNonNegative(gradients, hessians, p.1);
      SplitGain(SumOver(gradients, p.0), SumOver(hessians, p.0), SumOver(gradients, p.1),
                SumOver(hessians, p.1), lambda)
  }

  ghost function Gains(lambda: real, gradients: seq<real>, hessians: seq<real>, idx: seq<nat>,
                       features: seq<seq<int>>): ThresholdGains
    requires lambda > 0.0 && Statistics(gradients, hessians) && InRange(idx, |gradients|)
  {
    (f: nat, v: int) => ThresholdGain(lambda, gradients, hessians, idx, features, f, v)
  }

  /** The sweep's gain at sorted position i: `leftG`, `leftH` summed over
      `s[..i+1]`, the right sums as totals minus those. */
  function CutGain(lambda: real, gradients: seq<real>, hessians: seq<real>, idx: seq<nat>, s: seq<nat>, i: nat): real
    requires lambda > 0.0 && Statistics(gradients, hessians) && InRange(idx, |gradients|)
    requires multiset(s) == multiset(idx) && i + 1 < |s|
  {
    assert s[..i + 1] + s[i + 1..] == s;
    SumOverSplit(gradients, idx, s[..i + 1], s[i + 1..]);
    SumOverSplit(hessians, idx, s[..i + 1], s[i + 1..]);
    HessianSumNonNegative(gradients, hessians, s[..i + 1]);
    HessianSumNonNegative(gradients, hessians, s[i + 1..]);
    var sumG, sumH := SumOver(gradients, idx), SumOver(hessians, idx);
    var leftG, leftH := SumOver(gradients, s[..i + 1]), SumOver(hessians, s[..i + 1]);
    SplitGain(leftG, leftH, sumG - leftG, sumH - leftH, lambda)
  }

  function CutGains(lambda: real, gradients: seq<real>, hessians: seq<real>, idx: seq<nat>, s: seq<nat>): (r: seq<real>)
    requires lambda > 0.0 && Statistics(gradients, hessians) && InRange(idx, |gradients|)
    requires multiset(s) == multiset(idx)
    ensures |s| <= |r| + 1
    ensures forall i :: 0 <= i && i + 1 < |s| ==> r[i] == CutGain(lambda, gradients, hessians, idx, s, i)
  {
    if |s| == 0 then []
    else seq(|s| - 1, i requires 0 <= i < |s| - 1 => CutGain(lambda, gradients, hessians, idx, s, i))
  }

  /** At a boundary of a sorted order, the running sums give the gain of the
      partition at the value there. */
  lemma CutGainAtBoundary(lambda: real, minLeaf: int, gradients: seq<real>, hessians: seq<real>, idx: seq<nat>,
                          features: seq<seq<int>>, f: nat, s: seq<nat>, j: nat)
    requires lambda > 0.0 && Statistics(gradients, hessians) && InRange(idx, |gradients|)
    requires multiset(s) == multiset(idx) && SortedBy(features, f, s) && BoundaryAt(features, f, s, j, minLeaf)
    ensures CutGain(lambda, gradients, hessians, idx, s, j)
         == ThresholdGain(lambda, gradients, hessians, idx, features, f, Value(features, f, s[j]))
  {
    var v := Value(features, f, s[j]);
    BoundaryPartition(features, f, s, j, minLeaf);
    PartitionPermutation(features, f, v, s, idx);
    var p := Partition(features, f, v, idx);
    SidesGain(lambda, gradients, hessians, idx, s, j + 1, p.0, p.1);
  }

  /** Splitting on a prefix of a reordering of the samples, or on any pair of
      sides holding the same samples as that prefix and the rest, gains the
      same. */
  lemma SidesGain(lambda: real, gradients: seq<real>, hessians: seq<real>, idx: seq<nat>, s: seq<nat>, m: nat,
                  left: seq<nat>, right: seq<nat>)
    requires lambda > 0.0 && Statistics(gradients, hessians) && InRange(idx, |gradients|)
    requires multiset(s) == multiset(idx) && 0 < m < |s|
    requires multiset(left) == multiset(s[..m]) && multiset(right) == multiset(s[m..])
    ensures InRange(left, |gradients|) && InRange(right, |gradients|)
    ensures SumOver(hessians, left) >= 0.0 && SumOver(hessians, right) >= 0.0
    ensures SplitGain(SumOver(gradients, left), SumOver(hessians, left), SumOver(gradients, right),
                      SumOver(hessians, right), lambda)
         == CutGain(lambda, gradients, hessians, idx, s, m - 1)
  {
    SuffixSum(gradients, idx, s, m, left, right);
    SuffixSum(hessians, idx, s, m, left, right);
    HessianSumNonNegative(gradients, hessians, left);
    HessianSumNonNegative(gradients, hessians, right);
    assert m - 1 + 1 == m;
  }

  /** The sums over the two sides of a partition of the samples are the sum
      over a prefix of a reordering, and the total minus it. */
  lemma SuffixSum(values: seq<real>, idx: seq<nat>, s: seq<nat>, m: nat, left: seq<nat>, right: seq<nat>)
    requires InRange(idx, |values|) && multiset(s) == multiset(idx) && m <= |s|
    requires multiset(left) == multiset(s[..m]) && multiset(right) == multiset(s[m..])
    ensures InRange(s[..m], |values|) && InRange(left, |values|) && InRange(right, |values|)
    ensures SumOver(values, left) == SumOver(values, s[..m])
    ensures SumOver(values, right) == SumOver(values, idx) - SumOver(values, s[..m])
  {
    assert s[..m] + s[m..] == s;
    SumOverSplit(values, idx, s[..m], s[m..]);
    InRangeSubMultiset(left, s[..m], |values|);
    InRangeSubMultiset(right, s[m..], |values|);
    SumOverPermutation(values, left, s[..m]);
    SumOverPermutation(values, right, s[m..]);
  }

  /** `(int)(d * maxFeaturesRatio)`, truncated toward zero: 0 for a product in
      (-1, 1), and negative, which makes `subList` fail, at -1 and below. */
  function MaxFeatures(ratio: real, d: nat): (r: int)
    ensures r >= 0 <==> (d as real) * ratio > -1.0
    ensures r == 0 <==> -1.0 < (d as real) * ratio < 1.0
    ensures r > 0 ==> r as real <= (d as real) * ratio < r as real + 1.0
  {
    TruncateToInt((d as real) * ratio)
  }

  /** `MaxFeatures` as a count of features to draw. Wherever a search starts
      it is non-negative (`Searchable`), so the clamp never changes it there. */
  function FeatureBudget(ratio: real, d: nat): (r: nat)
    ensures MaxFeatures(ratio, d) >= 0 ==> r == MaxFeatures(ratio, d)
  {
    var m := MaxFeatures(ratio, d);
    if m < 0 then 0 else m
  }

  /** `findBestSplit`: the split search with the gain above, over
      `min((int)(d * maxFeaturesRatio), d)` drawn features. A returned split
      is admissible for the node's samples, carries its true gain, which is
      positive, and is the first of strictly greatest gain in search order;
      no admissible threshold of a candidate gains more. */
  function FindBestSplit(lambda: real, minLeaf: int, maxFeatures: nat, features: seq<seq<int>>,
                         gradients: seq<real>, hessians: seq<real>, idx: seq<nat>, g: Rng, nextInt: NextInt)
    : (r: (Option<Split>, seq<nat>, Rng))
    requires lambda > 0.0 && Statistics(gradients, hessians) && InRange(idx, |gradients|)
    requires ValidNextInt(nextInt)
    ensures |r.1| == |idx| && multiset(r.1) == multiset(idx)
    ensures r.2 == CandidateFeatures(Width(features), maxFeatures, g, nextInt).1
    ensures var cands := CandidateFeatures(Width(features), maxFeatures, g, nextInt).0;
      && (r.0.Some? ==> Chosen(features, idx, minLeaf, Gains(lambda, gradients, hessians, idx, features),
                               cands, r.0.value, 0.0))
      && (forall q, v :: 0 <= q < |cands| && Admissible(features, cands[q], idx, v, minLeaf) ==>
            ThresholdGain(lambda, gradients, hessians, idx, features, cands[q], v)
            <= if r.0.Some? then r.0.value.gain else 0.0)
  {
    var (cands, g') := CandidateFeatures(Width(features), maxFeatures, g, nextInt);
    var gainsOf := s => if multiset(s) == multiset(idx) then CutGains(lambda, gradients, hessians, idx, s) else [];
    var r := SearchFeatures(features, minLeaf, gainsOf, cands, idx, None, 0.0);
    forall f: nat, s: seq<nat>, j: nat | multiset(s) == multiset(idx) && SortedBy(features, f, s)
        && BoundaryAt(features, f, s, j, minLeaf)
      ensures gainsOf(s)[j] == Gains(lambda, gradients, hessians, idx, features)(f, Value(features, f, s[j]))
    {
      CutGainAtBoundary(lambda, minLeaf, gradients, hessians, idx, features, f, s, j);
    }
    SearchFeaturesCorrect(features, idx, minLeaf, gainsOf, Gains(lambda, gradients, hessians, idx, features),
                          cands, idx, None, 0.0);
    (r.0, r.2, g')
  }

  /** `buildNode` reads `features[0]` and the rows of the listed samples only
      once a split search starts, which happens below `maxDepth` on at least
      `minSamplesSplit` samples. */
  predicate Searchable(cfg: Config, features: seq<seq<int>>, idx: seq<nat>, depth: int)
  {
    depth >= cfg.maxDepth || |idx| < cfg.minSamplesSplit
    || (|features| > 0 && Rectangular(features, Width(features)) && InRange(idx, |features|)
        && MaxFeatures(cfg.maxFeaturesRatio, Width(features)) >= 0)
  }

  /** What `buildNode` guarantees of the tree it grows from the listed samples
      at a given depth: a leaf holds `-sumG / (sumH + lambda)` of its samples;
      an internal node appears only below `maxDepth` on at least
      `minSamplesSplit` samples (there is no purity test), with an admissible
      threshold whose gain is positive and at least `gamma`, and its children
      are grown from the two sides of the partition. */
  ghost predicate Grown(cfg: Config, features: seq<seq<int>>, gradients: seq<real>, hessians: seq<real>,
                        t: Tree<real>, idx: seq<nat>, depth: int)
    requires ValidConfig(cfg) && Statistics(gradients, hessians) && InRange(idx, |gradients|)
    decreases t
  {
    match t
    case Leaf(w) => w == LeafValue(cfg.lambda, gradients, hessians, idx)
    case Node(f, thr, l, r) =>
      var p := Partition(features, f, thr, idx);
      SumOverSplit(gradients, idx, p.0, p.1);
      && depth < cfg.maxDepth && |idx| >= cfg.minSamplesSplit
      && f < Width(features)
      && Admissible(features, f, idx, thr, cfg.minSamplesLeaf)
      && ThresholdGain(cfg.lambda, gradients, hessians, idx, features, f, thr) > 0.0
      && ThresholdGain(cfg.lambda, gradients, hessians, idx, features, f, thr) >= cfg.gamma
      && Grown(cfg, features, gradients, hessians, l, p.0, depth + 1)
      && Grown(cfg, features, gradients, hessians, r, p.1, depth + 1)
  }

  lemma {:induction false} GrownPermutation(cfg: Config, features: seq<seq<int>>, gradients: seq<real>,
                                            hessians: seq<real>, t: Tree<real>, a: seq<nat>, b: seq<nat>, depth: int)
    requires ValidConfig(cfg) && Statistics(gradients, hessians)
    requires InRange(a, |gradients|) && InRange(b, |gradients|) && multiset(a) == multiset(b)
    requires Grown(cfg, features, gradients, hessians, t, a, depth)
    ensures Grown(cfg, features, gradients, hessians, t, b, depth)
    decreases t
  {
    match t
    case Leaf(_) =>
      SumOverPermutation(gradients, a, b);
      SumOverPermutation(hessians, a, b);
    case Node(f, thr, l, r) =>
      var pa, pb := Partition(features, f, thr, a), Partition(features, f, thr, b);
      PartitionPermutation(features, f, thr, a, b);
      AdmissiblePermutation(features, f, a, b, thr, cfg.minSamplesLeaf);
      SumOverSplit(gradients, a, pa.0, pa.1);
      SumOverSplit(gradients, b, pb.0, pb.1);
      SumOverPermutation(gradients, pa.0, pb.0);
      SumOverPermutation(gradients, pa.1, pb.1);
      SumOverPermutation(hessians, pa.0, pb.0);
      SumOverPermutation(hessians, pa.1, pb.1);
      assert ThresholdGain(cfg.lambda, gradients, hessians, a, features, f, thr)
          == ThresholdGain(cfg.lambda, gradients, hessians, b, features, f, thr);
      GrownPermutation(cfg, features, gradients, hessians, l, pa.0, pb.0, depth + 1);
      GrownPermutation(cfg, features, gradients, hessians, r, pa.1, pb.1, depth + 1);
  }

  lemma GrownChildren(cfg: Config, features: seq<seq<int>>, gradients: seq<real>, hessians: seq<real>,
                      t: Tree<real>, idx: seq<nat>, depth: int)
    requires ValidConfig(cfg) && Statistics(gradients, hessians) && InRange(idx, |gradients|)
    requires t.Node? && Grown(cfg, features, gradients, hessians, t, idx, depth)
    ensures var p := Partition(features, t.feature, t.threshold, idx);
      && InRange(p.0, |gradients|) && InRange(p.1, |gradients|)
      && t.feature < Width(features)
      && Grown(cfg, features, gradients, hessians, t.left, p.0, depth + 1)
      && Grown(cfg, features, gradients, hessians, t.right, p.1, depth + 1)
  {
    var p := Partition(features, t.feature, t.threshold, idx);
    SumOverSplit(gradients, idx, p.0, p.1);
  }

  /** No path of a grown tree holds more than `maxDepth - depth` internal nodes. */
  lemma {:induction false} GrownHeight(cfg: Config, features: seq<seq<int>>, gradients: seq<real>, hessians: seq<real>,
                                       t: Tree<real>, idx: seq<nat>, depth: int)
    requires ValidConfig(cfg) && Statistics(gradients, hessians) && InRange(idx, |gradients|)
    requires Grown(cfg, features, gradients, hessians, t, idx, depth)
    ensures Height(t) <= if depth < cfg.maxDepth then cfg.maxDepth - depth else 0
    decreases t
  {
    if t.Node? {
      var p := Partition(features, t.feature, t.threshold, idx);
      GrownChildren(cfg, features, gradients, hessians, t, idx, depth);
      GrownHeight(cfg, features, gradients, hessians, t.left, p.0, depth + 1);
      GrownHeight(cfg, features, gradients, hessians, t.right, p.1, depth + 1);
    }
  }

  /** A grown tree tests only existing features. */
  lemma {:induction false} GrownFeatures(cfg: Config, features: seq<seq<int>>, gradients: seq<real>, hessians: seq<real>,
                                         t: Tree<real>, idx: seq<nat>, depth: int)
    requires ValidConfig(cfg) && Statistics(gradients, hessians) && InRange(idx, |gradients|)
    requires Grown(cfg, features, gradients, hessians, t, idx, depth)
    ensures FeaturesBelow(t, Width(features))
    decreases t
  {
    if t.Node? {
      var p := Partition(features, t.feature, t.threshold, idx);
      GrownChildren(cfg, features, gradients, hessians, t, idx, depth);
      GrownFeatures(cfg, features, gradients, hessians, t.left, p.0, depth + 1);
      GrownFeatures(cfg, features, gradients, hessians, t.right, p.1, depth + 1);
    }
  }

  lemma NodeIsGrown(cfg: Config, features: seq<seq<int>>, gradients: seq<real>, hessians: seq<real>,
                    idx: seq<nat>, depth: int, f: nat, thr: int, order: seq<nat>, lt: Tree<real>, rt: Tree<real>)
    requires ValidConfig(cfg) && Statistics(gradients, hessians) && InRange(idx, |gradients|)
    requires InRange(order, |gradients|) && multiset(order) == multiset(idx)
    requires depth < cfg.maxDepth && |idx| >= cfg.minSamplesSplit
    requires f < Width(features) && Admissible(features, f, idx, thr, cfg.minSamplesLeaf)
    requires ThresholdGain(cfg.lambda, gradients, hessians, idx, features, f, thr) > 0.0
    requires ThresholdGain(cfg.lambda, gradients, hessians, idx, features, f, thr) >= cfg.gamma
    requires var q := Partition(features, f, thr, order);
      && InRange(q.0, |gradients|) && InRange(q.1, |gradients|)
      && Grown(cfg, features, gradients, hessians, lt, q.0, depth + 1)
      && Grown(cfg, features, gradients, hessians, rt, q.1, depth + 1)
    ensures Grown(cfg, features, gradients, hessians, Node(f, thr, lt, rt), idx, depth)
  {
    var p := Partition(features, f, thr, idx);
    var q := Partition(features, f, thr, order);
    PartitionPermutation(features, f, thr, order, idx);
    SumOverSplit(gradients, idx, p.0, p.1);
    GrownPermutation(cfg, features, gradients, hessians, lt, q.0, p.0, depth + 1);
    GrownPermutation(cfg, features, gradients, hessians, rt, q.1, p.1, depth + 1);
  }

  /** `buildNode`. The stopping rules come first; otherwise the best split is
      searched (which reorders the index list), and a leaf of the reordered
      list is made when there is none, its gain is below `gamma` (a gain equal
      to `gamma` is accepted), or a side is below `minSamplesLeaf`. Children
      are built left first, sharing the generator. The root of the result
      carries the split `findBestSplit` chose among the features drawn here. */
  function BuildNode(cfg: Config, features: seq<seq<int>>, gradients: seq<real>, hessians: seq<real>,
                     idx: seq<nat>, depth: int, g: Rng, nextInt: NextInt): (r: (Tree<real>, Rng))
    requires ValidConfig(cfg) && Statistics(gradients, hessians) && InRange(idx, |gradients|)
    requires Searchable(cfg, features, idx, depth)
    requires ValidNextInt(nextInt)
    ensures Grown(cfg, features, gradients, hessians, r.0, idx, depth)
    ensures r.0.Node? ==>
      Chosen(features, idx, cfg.minSamplesLeaf, Gains(cfg.lambda, gradients, hessians, idx, features),
             CandidateFeatures(Width(features), FeatureBudget(cfg.maxFeaturesRatio, Width(features)), g, nextInt).0,
             Split(r.0.feature, r.0.threshold,
                   ThresholdGain(cfg.lambda, gradients, hessians, idx, features, r.0.feature, r.0.threshold)),
             0.0)
    decreases if depth < cfg.maxDepth then cfg.maxDepth - depth else 0
  {
    if depth >= cfg.maxDepth || |idx| < cfg.minSamplesSplit then
      (Leaf(LeafValue(cfg.lambda, gradients, hessians, idx)), g)
    else
      var maxFeatures := FeatureBudget(cfg.maxFeaturesRatio, Width(features));
      var (best, order, g1) :=
        FindBestSplit(cfg.lambda, cfg.minSamplesLeaf, maxFeatures, features, gradients, hessians, idx, g, nextInt);
      LeafValuePermutation(cfg.lambda, gradients, hessians, order, idx);
      var leaf: Tree<real> := Leaf(LeafValue(cfg.lambda, gradients, hessians, order));
      if best.None? || best.value.gain < cfg.gamma then (leaf, g1)
      else
        var sp := best.value;
        var (left, right) := Partition(features, sp.feature, sp.threshold, order);
        PartitionPermutation(features, sp.feature, sp.threshold, order, idx);
        if |left| < cfg.minSamplesLeaf || |right| < cfg.minSamplesLeaf then (leaf, g1)
        else
          SumOverSplit(gradients, order, left, right);
          InRangeSubMultiset(order, idx, |features|);
          InRangeSubMultiset(left, order, |features|);
          InRangeSubMultiset(right, order, |features|);
          var (lt, g2) := BuildNode(cfg, features, gradients, hessians, left, depth + 1, g1, nextInt);
          var (rt, g3) := BuildNode(cfg, features, gradients, hessians, right, depth + 1, g2, nextInt);
          NodeIsGrown(cfg, features, gradients, hessians, idx, depth, sp.feature, sp.threshold, order, lt, rt);
          (Node(sp.feature, sp.threshold, lt, rt), g3)
  }

  /** The converse of the stopping rules: below `maxDepth`, on at least
      `minSamplesSplit` samples, a node splits as soon as one admissible
      threshold of a drawn feature has positive gain of at least `gamma`; a
      gain equal to `gamma` is enough. */
  lemma SplitsWhenSomeGain(cfg: Config, features: seq<seq<int>>, gradients: seq<real>, hessians: seq<real>,
                           idx: seq<nat>, depth: int, g: Rng, nextInt: NextInt, q: nat, v: int)
    requires ValidConfig(cfg) && Statistics(gradients, hessians) && InRange(idx, |gradients|)
    requires Searchable(cfg, features, idx, depth) && ValidNextInt(nextInt)
    requires depth < cfg.maxDepth && |idx| >= cfg.minSamplesSplit
    requires var cands := CandidateFeatures(Width(features), FeatureBudget(cfg.maxFeaturesRatio, Width(features)), g, nextInt).0;
      && q < |cands| && Admissible(features, cands[q], idx, v, cfg.minSamplesLeaf)
      && ThresholdGain(cfg.lambda, gradients, hessians, idx, features, cands[q], v) > 0.0
      && ThresholdGain(cfg.lambda, gradients, hessians, idx, features, cands[q], v) >= cfg.gamma
    ensures BuildNode(cfg, features, gradients, hessians, idx, depth, g, nextInt).0.Node?
  {
    var maxFeatures := FeatureBudget(cfg.maxFeaturesRatio, Width(features));
    var r := FindBestSplit(cfg.lambda, cfg.minSamplesLeaf, maxFeatures, features, gradients, hessians, idx, g, nextInt);
    assert r.0.Some? && r.0.value.gain > 0.0 && r.0.value.gain >= cfg.gamma;
    var sp := r.0.value;
    PartitionPermutation(features, sp.feature, sp.threshold, r.1, idx);
    FoundSplitIsMade(cfg, features, gradients, hessians, idx, depth, g, nextInt);
  }

  /** One unfolding of `buildNode`: when the search reports a split whose
      gain reaches `gamma` and whose sides are large enough, the node splits. */
  lemma FoundSplitIsMade(cfg: Config, features: seq<seq<int>>, gradients: seq<real>, hessians: seq<real>,
                         idx: seq<nat>, depth: int, g: Rng, nextInt: NextInt)
    requires ValidConfig(cfg) && Statistics(gradients, hessians) && InRange(idx, |gradients|)
    requires Searchable(cfg, features, idx, depth) && ValidNextInt(nextInt)
    requires depth < cfg.maxDepth && |idx| >= cfg.minSamplesSplit
    requires var r := FindBestSplit(cfg.lambda, cfg.minSamplesLeaf, FeatureBudget(cfg.maxFeaturesRatio, Width(features)),
                                    features, gradients, hessians, idx, g, nextInt);
      && r.0.Some? && r.0.value.gain >= cfg.gamma
      && |Partition(features, r.0.value.feature, r.0.value.threshold, r.1).0| >= cfg.minSamplesLeaf
      && |Partition(features, r.0.value.feature, r.0.value.threshold, r.1).1| >= cfg.minSamplesLeaf
    ensures BuildNode(cfg, features, gradients, hessians, idx, depth, g, nextInt).0.Node?
  {
  }

  /** `train`: grow from samples `0 .. gradients.length - 1` at depth 0. */
  function Train(cfg: Config, features: seq<seq<int>>, gradients: seq<real>, hessians: seq<real>,
                 g: Rng, nextInt: NextInt): (r: (Tree<real>, Rng))
    requires ValidConfig(cfg) && Statistics(gradients, hessians)
    requires Searchable(cfg, features, Range(|gradients|), 0)
    requires ValidNextInt(nextInt)
    ensures Grown(cfg, features, gradients, hessians, r.0, Range(|gradients|), 0)
    ensures Height(r.0) <= if 0 < cfg.maxDepth then cfg.maxDepth else 0
    ensures FeaturesBelow(r.0, Width(features))
  {
    var all := Range(|gradients|);
    var (t, g') := BuildNode(cfg, features, gradients, hessians, all, 0, g, nextInt);
    GrownHeight(cfg, features, gradients, hessians, t, all, 0);
    GrownFeatures(cfg, features, gradients, hessians, t, all, 0);
    (t, g')
  }

  /** The leaf rule of `createLeaf`: `w` is `-sumG / (sumH + lambda)` over the
      rows of a cell. */
  ghost predicate ValueCell(cfg: Config, gradients: seq<real>, hessians: seq<real>, cell: seq<nat>, w: real)
  {
    ValidConfig(cfg) && Statistics(gradients, hessians) && InRange(cell, |gradients|)
    && w == LeafValue(cfg.lambda, gradients, hessians, cell)
  }

  /** Every leaf of a grown tree holds the value of the rows the partitions on
      its path leave at it. */
  lemma {:induction false} GrownLeavesFit(cfg: Config, features: seq<seq<int>>, gradients: seq<real>,
                                          hessians: seq<real>, t: Tree<real>, idx: seq<nat>, depth: int)
    requires ValidConfig(cfg) && Statistics(gradients, hessians) && InRange(idx, |gradients|)
    requires Grown(cfg, features, gradients, hessians, t, idx, depth)
    ensures LeavesFit(t, features, idx, (cell, w) => ValueCell(cfg, gradients, hessians, cell, w))
    decreases t
  {
    match t
    case Leaf(_) =>
    case Node(f, thr, l, r) =>
      var p := Partition(features, f, thr, idx);
      SumOverSplit(gradients, idx, p.0, p.1);
      GrownLeavesFit(cfg, features, gradients, hessians, l, p.0, depth + 1);
      GrownLeavesFit(cfg, features, gradients, hessians, r, p.1, depth + 1);
  }

  /** `predict` on a grown tree: any sample is answered with
      `-sumG / (sumH + lambda)` over the training rows that reach the same
      leaf, and a training row lies in the cell of the leaf it reaches. */
  lemma PredictIsCellValue(cfg: Config, features: seq<seq<int>>, gradients: seq<real>, hessians: seq<real>,
                           t: Tree<real>, idx: seq<nat>, depth: int, sample: seq<int>)
    requires ValidConfig(cfg) && Statistics(gradients, hessians) && InRange(idx, |gradients|)
    requires Grown(cfg, features, gradients, hessians, t, idx, depth) && FeaturesBelow(t, |sample|)
    ensures ValueCell(cfg, gradients, hessians, Cell(t, features, idx, sample), Trees.Predict(t, sample))
    ensures forall i :: 0 <= i < |features| && i in idx && sample == features[i] ==>
      i in Cell(t, features, idx, sample)
  {
    GrownLeavesFit(cfg, features, gradients, hessians, t, idx, depth);
    PredictFits(t, features, idx, sample, (cell, w) => ValueCell(cfg, gradients, hessians, cell, w));
    forall i | 0 <= i < |features| && i in idx && sample == features[i]
      ensures i in Cell(t, features, idx, sample)
    {
      RowInOwnCell(t, features, idx, i);
    }
  }
}

=== FILE: impurity.dfy ===
/** Class counts and the Gini impurity shared by the decision tree and the
    decision stump: `counts[labels[i]]++` over a set of samples, then
    `1 - sum (count/total)^2`. */
module Impurity {
  import opened Common

  predicate LabelsBelow(xs: seq<int>, k: nat)
  {
    forall i :: 0 <= i < |xs| ==> 0 <= xs[i] < k
  }

  function Zeros(k: nat): (r: seq<nat>)
    ensures |r| == k && forall c :: 0 <= c < k ==> r[c] == 0
  {
    seq(k, c requires 0 <= c < k => 0)
  }

  lemma {:induction false} SumZeros(k: nat)
    ensures Sum(Zeros(k)) == 0
  {
    if k > 0 {
      assert Zeros(k)[..k - 1] == Zeros(k - 1);
      SumZeros(k - 1);
    }
  }

  lemma {:induction false} SumIncrement(v: seq<int>, j: nat)
    requires j < |v|
    ensures Sum(v[j := v[j] + 1]) == Sum(v) + 1
    decreases |v|
  {
    var w := v[j := v[j] + 1];
    if j == |v| - 1 {
      assert w[..|w| - 1] == v[..|v| - 1];
    } else {
      assert w[..|w| - 1] == v[..|v| - 1][j := v[j] + 1];
      SumIncrement(v[..|v| - 1], j);
    }
  }

  /** `classCounts(labels, numClasses)`: one counter per class, incremented
      once per label. Every label must be a class id, or the Java array access
      fails. Entry c is the number of occurrences of c, so the counters add up
      to the number of labels. */
  function ClassCounts(xs: seq<int>, k: nat): (r: seq<nat>)
    requires LabelsBelow(xs, k)
    ensures |r| == k
    ensures forall c :: 0 <= c < k ==> r[c] == multiset(xs)[c]
    ensures Sum(r) == |xs|
    decreases |xs|
  {
    if |xs| == 0 then
      SumZeros(k);
      Zeros(k)
    else
      var xs', l := xs[..|xs| - 1], xs[|xs| - 1];
      assert xs == xs' + [l];
      var r' := ClassCounts(xs', k);
      SumIncrement(r', l);
      r'[l := r'[l] + 1]
  }

  /** Two label sequences holding the same labels have the same counts. */
  lemma ClassCountsPermutation(xs: seq<int>, ys: seq<int>, k: nat)
    requires LabelsBelow(xs, k) && LabelsBelow(ys, k)
    requires multiset(xs) == multiset(ys)
    ensures ClassCounts(xs, k) == ClassCounts(ys, k)
  {
  }

  /** Counts of a concatenation are the sums of the counts of the parts. */
  lemma ClassCountsAppend(xs: seq<int>, ys: seq<int>, k: nat)
    requires LabelsBelow(xs, k) && LabelsBelow(ys, k)
    ensures LabelsBelow(xs + ys, k)
    ensures forall c :: 0 <= c < k ==>
      ClassCounts(xs + ys, k)[c] == ClassCounts(xs, k)[c] + ClassCounts(ys, k)[c]
  {
    assert multiset(xs + ys) == multiset(xs) + multiset(ys);
  }

  /** `rightCounts[c]--` for every label moved left: the parent counts minus the left counts. */
  function Minus(parent: seq<nat>, left: seq<nat>): (r: seq<nat>)
    requires |left| == |parent|
    requires forall c :: 0 <= c < |parent| ==> left[c] <= parent[c]
    ensures |r| == |parent|
    ensures forall c :: 0 <= c < |parent| ==> left[c] + r[c] == parent[c]
    ensures Sum(r) == Sum(parent) - Sum(left)
  {
    var r := seq(|parent|, c requires 0 <= c < |parent| => parent[c] - left[c]);
    SumMinus(parent, left, r);
    r
  }

  lemma {:induction false} SumMinus(p: seq<int>, l: seq<int>, r: seq<int>)
    requires |p| == |l| == |r|
    requires forall c :: 0 <= c < |p| ==> r[c] == p[c] - l[c]
    ensures Sum(r) == Sum(p) - Sum(l)
    decreases |p|
  {
    if |p| > 0 {
      SumMinus(p[..|p| - 1], l[..|l| - 1], r[..|r| - 1]);
    }
  }

  /** sum over classes of (count/total)^2, accumulated in class order. */
  function SquaredShares(counts: seq<nat>, total: nat): real
    requires total > 0
  {
    if |counts| == 0 then 0.0
    else
      var p := (counts[|counts| - 1] as real) / (total as real);
      SquaredShares(counts[..|counts| - 1], total) + p * p
  }

  /** `gini(counts)`: one minus the sum of squared class shares. The Java
      divides by the sum of the counts, which is positive at every call. */
  function Gini(counts: seq<nat>): real
    requires Sum(counts) > 0
  {
    1.0 - SquaredShares(counts, Sum(counts))
  }

  /** `isPure(counts)`: at most one class has a positive count. The Java loop
      stops at the second positive count; counting them all gives the same answer. */
  function PositiveCount(counts: seq<nat>): nat
  {
    if |counts| == 0 then 0
    else PositiveCount(counts[..|counts| - 1]) + (if counts[|counts| - 1] > 0 then 1 else 0)
  }

  function IsPure(counts: seq<nat>): bool
  {
    PositiveCount(counts) <= 1
  }

  /** Two distinct classes never both have positive counts. */
  ghost predicate SingleClass(counts: seq<nat>)
  {
    forall i, j :: 0 <= i < |counts| && 0 <= j < |counts| && counts[i] > 0 && counts[j] > 0 ==> i == j
  }

  lemma {:induction false} PositiveCountZero(v: seq<nat>)
    ensures PositiveCount(v) == 0 <==> forall c :: 0 <= c < |v| ==> v[c] == 0
    decreases |v|
  {
    if |v| > 0 {
      PositiveCountZero(v[..|v| - 1]);
      assert forall c :: 0 <= c < |v| - 1 ==> v[..|v| - 1][c] == v[c];
    }
  }

  lemma {:induction false} PositiveCountSingle(v: seq<nat>)
    ensures PositiveCount(v) <= 1 <==> SingleClass(v)
    decreases |v|
  {
    if |v| > 0 {
      var v' := v[..|v| - 1];
      PositiveCountSingle(v');
      PositiveCountZero(v');
      assert forall c :: 0 <= c < |v'| ==> v'[c] == v[c];
      if v[|v| - 1] > 0 && PositiveCount(v') == 1 {
        var c :| 0 <= c < |v'| && v'[c] > 0;
        assert v[c] > 0 && v[|v| - 1] > 0;
      }
    }
  }

  /** The Java purity test says exactly that at most one class is present. */
  lemma IsPureMeansSingleClass(counts: seq<nat>)
    ensures IsPure(counts) <==> SingleClass(counts)
  {
    PositiveCountSingle(counts);
  }

  function SumSquares(v: seq<nat>): nat
  {
    if |v| == 0 then 0 else SumSquares(v[..|v| - 1]) + v[|v| - 1] * v[|v| - 1]
  }

  lemma {:induction false} SumNonNegativeNat(v: seq<nat>)
    ensures Sum(v) >= 0
    ensures Sum(v) == 0 <==> forall c :: 0 <= c < |v| ==> v[c] == 0
    decreases |v|
  {
    if |v| > 0 {
      SumNonNegativeNat(v[..|v| - 1]);
      assert forall c :: 0 <= c < |v| - 1 ==> v[..|v| - 1][c] == v[c];
    }
  }

  /** sum c^2 <= (sum c)^2, with equality exactly when at most one count is positive. */
  lemma {:induction false} SquaresBelowSquaredSum(v: seq<nat>)
    ensures SumSquares(v) <= Sum(v) * Sum(v)
    ensures SumSquares(v) == Sum(v) * Sum(v) <==> PositiveCount(v) <= 1
    decreases |v|
  {
    if |v| > 0 {
      var v', x := v[..|v| - 1], v[|v| - 1];
      var s', q' := Sum(v'), SumSquares(v');
      SquaresBelowSquaredSum(v');
      SumNonNegativeNat(v');
      PositiveCountZero(v');
      assert Sum(v) * Sum(v) - SumSquares(v) == (s' * s' - q') + 2 * s' * x by {
        assert Sum(v) == s' + x;
        assert (s' + x) * (s' + x) == s' * s' + 2 * s' * x + x * x;
      }
      assert s' * x >= 0;
      assert s' * x == 0 <==> s' == 0 || x == 0;
    }
  }

  lemma ShareSquared(c: nat, total: nat)
    requires total > 0
    ensures ((c as real) / (total as real)) * ((c as real) / (total as real))
         == ((c * c) as real) / ((total * total) as real)
  {
  }

  lemma {:induction false} SquaredSharesExact(v: seq<nat>, total: nat)
    requires total > 0
    ensures SquaredShares(v, total) == (SumSquares(v) as real) / ((total * total) as real)
    decreases |v|
  {
    if |v| > 0 {
      SquaredSharesExact(v[..|v| - 1], total);
      ShareSquared(v[|v| - 1], total);
    }
  }

  /** The Gini impurity in exact arithmetic: 1 - (sum c^2) / (sum c)^2. */
  lemma GiniExact(counts: seq<nat>)
    requires Sum(counts) > 0
    ensures Gini(counts) == 1.0 - (SumSquares(counts) as real) / ((Sum(counts) * Sum(counts)) as real)
  {
    SquaredSharesExact(counts, Sum(counts));
  }

  /** Gini lies in [0, 1) and is 0 exactly for a pure count vector. */
  lemma GiniBounds(counts: seq<nat>)
    requires Sum(counts) > 0
    ensures 0.0 <= Gini(counts) < 1.0
    ensures Gini(counts) == 0.0 <==> IsPure(counts)
  {
    GiniExact(counts);
    SquaresBelowSquaredSum(counts);
    var s, q := Sum(counts), SumSquares(counts);
    assert q > 0 by {
      SumNonNegativeNat(counts);
      var c :| 0 <= c < |counts| && counts[c] > 0;
      SquaresPositive(counts, c);
    }
    var ss := (s * s) as real;
    assert ss > 0.0;
    assert (q as real) / ss <= 1.0;
    var ratio := (q as real) / ss;
    assert ratio * ss == q as real;
    assert ratio == 1.0 <==> q == s * s;
  }

  lemma {:induction false} SquaresPositive(v: seq<nat>, c: nat)
    requires c < |v| && v[c] > 0
    ensures SumSquares(v) > 0
    decreases |v|
  {
    if c < |v| - 1 {
      SquaresPositive(v[..|v| - 1], c);
    }
  }
}

=== FILE: kernels.dfy ===
/** The dot-product kernel: `LinearKernel.compute` and the perceptron's own
    `kernelFunction` both sum `x1[i] * x2[i]` over the positions of `x1`,
    reading `x2` at the same positions. */
module Kernels {

  /** The sum of `x1[i] * x2[i]` for `i < |x1|`, in exact integers. */
  function Dot(x1: seq<int>, x2: seq<int>): int
    requires |x1| <= |x2|
  {
    if |x1| == 0 then 0 else Dot(x1[..|x1| - 1], x2) + x1[|x1| - 1] * x2[|x1| - 1]
  }

  /** Only the first `|x1|` entries of `x2` are read. */
  lemma {:induction false} DotPrefix(x1: seq<int>, x2: seq<int>, n: nat)
    requires |x1| <= n <= |x2|
    ensures Dot(x1, x2) == Dot(x1, x2[..n])
    decreases |x1|
  {
    if |x1| > 0 {
      DotPrefix(x1[..|x1| - 1], x2, n);
    }
  }

  /** On vectors of the same length the kernel is symmetric. */
  lemma {:induction false} DotSymmetric(x1: seq<int>, x2: seq<int>)
    requires |x1| == |x2|
    ensures Dot(x1, x2) == Dot(x2, x1)
    decreases |x1|
  {
    if |x1| > 0 {
      var n := |x1| - 1;
      DotPrefix(x1[..n], x2, n);
      DotPrefix(x2[..n], x1, n);
      DotSymmetric(x1[..n], x2[..n]);
    }
  }

  /** A zero vector on either side gives 0. */
  lemma {:induction false} DotZero(x1: seq<int>, x2: seq<int>)
    requires |x1| <= |x2|
    requires (forall i :: 0 <= i < |x1| ==> x1[i] == 0) || (forall i :: 0 <= i < |x2| ==> x2[i] == 0)
    ensures Dot(x1, x2) == 0
    decreases |x1|
  {
    if |x1| > 0 {
      DotZero(x1[..|x1| - 1], x2);
    }
  }

  /** `LinearKernel.compute(x1, x2)`: each product is taken in integers and
      added to a double accumulator; in exact arithmetic the result is the
      dot product. It is 0 on an empty `x1` and on a zero vector, and
      symmetric on vectors of the same length. */
  function LinearCompute(x1: seq<int>, x2: seq<int>): (r: real)
    requires |x1| <= |x2|
    ensures |x1| == 0 ==> r == 0.0
  {
    Dot(x1, x2) as real
  }

  lemma LinearComputeSymmetric(x1: seq<int>, x2: seq<int>)
    requires |x1| == |x2|
    ensures LinearCompute(x1, x2) == LinearCompute(x2, x1)
  {
    DotSymmetric(x1, x2);
  }

  lemma LinearComputeOfZero(x1: seq<int>, x2: seq<int>)
    requires |x1| <= |x2|
    requires (forall i :: 0 <= i < |x1| ==> x1[i] == 0) || (forall i :: 0 <= i < |x2| ==> x2[i] == 0)
    ensures LinearCompute(x1, x2) == 0.0
  {
    DotZero(x1, x2);
  }
}

=== FILE: knn.dfy ===
/** `WeightedKNearestNeighborsClassifier`: a query is compared with every
    stored sample, the k closest are moved to the front by k rounds of
    selection sort, and each of them votes for its label with weight
    `1 / (distance + 1e-5)`. Distances are an input, as for the
    nearest-neighbour classifier. */
module WeightedKnn {
  import opened Common
  import opened Seqs
  import opened NearestNeighbor

  /** A `(distances[i], labels[i])` pair, the label as `target`; the sort swaps both arrays at the
      same positions, so it moves pairs. */
  datatype Neighbor = Neighbor(dist: real, target: int)

  /** `epsilon`, which keeps a weight finite at distance 0. */
  const Epsilon: real := 0.00001

  /** The pairs the distance loop fills in, one per stored sample. */
  function Neighbors(m: Memory, sample: seq<int>, dist: Distance): (r: seq<Neighbor>)
    requires |m.features| <= |m.labels|
    ensures |r| == |m.features|
    ensures forall i :: 0 <= i < |m.features| ==> r[i] == Neighbor(dist(sample, m.features[i]), m.labels[i])
  {
    seq(|m.features|, i requires 0 <= i < |m.features| => Neighbor(dist(sample, m.features[i]), m.labels[i]))
  }

  /** The first i pairs are in order of distance and none is farther than a
      later pair. */
  predicate SortedPrefix(s: seq<Neighbor>, i: nat)
  {
    forall a, b :: 0 <= a < b < |s| && a < i ==> s[a].dist <= s[b].dist
  }

  /** The earliest position of the smallest distance in `s[i..]`: no later
      pair is nearer, and every earlier pair is strictly farther. */
  function MinFrom(s: seq<Neighbor>, i: nat): (r: nat)
    requires i < |s|
    ensures i <= r < |s|
    ensures forall q :: i <= q < |s| ==> s[r].dist <= s[q].dist
    ensures forall q :: i <= q < r ==> s[q].dist > s[r].dist
    decreases |s| - i
  {
    if i + 1 == |s| then i
    else
      var m := MinFrom(s, i + 1);
      if s[m].dist < s[i].dist then m else i
  }

  /** Rounds `i .. k-1` of the selection sort: each swaps the earliest
      nearest remaining pair into position `i`. */
  function Select(s: seq<Neighbor>, i: nat, k: nat): (r: seq<Neighbor>)
    requires i <= k <= |s|
    ensures |r| == |s| && multiset(r) == multiset(s)
    decreases k - i
  {
    if i == k then s else Select(Swap(s, i, MinFrom(s, i)), i + 1, k)
  }

  /** The inner loop: the position of the smallest distance from i on, the
      earliest one among equals since only a strictly smaller distance moves
      `minIndex`. */
  method FirstMin(s: seq<Neighbor>, i: nat) returns (minIndex: nat)
    requires i < |s|
    ensures i <= minIndex < |s|
    ensures forall q :: i <= q < |s| ==> s[minIndex].dist <= s[q].dist
    ensures forall q :: i <= q < minIndex ==> s[q].dist > s[minIndex].dist
    ensures minIndex == MinFrom(s, i)
  {
    minIndex := i;
    for j := i + 1 to |s|
      invariant i <= minIndex < j
      invariant forall q :: i <= q < j ==> s[minIndex].dist <= s[q].dist
      invariant forall q :: i <= q < minIndex ==> s[q].dist > s[minIndex].dist
    {
      if s[j].dist < s[minIndex].dist {
        minIndex := j;
      }
    }
  }

  /** The outer loop, k rounds of selection sort (`k <= n`, or the swap
      reads past the arrays). The result holds the same pairs, and its
      first k are the k nearest in order of distance. */
  method SelectNearest(s0: seq<Neighbor>, k: nat) returns (s: seq<Neighbor>)
    requires k <= |s0|
    ensures |s| == |s0| && multiset(s) == multiset(s0)
    ensures SortedPrefix(s, k)
    ensures s == Select(s0, 0, k)
  {
    s := s0;
    for i := 0 to k
      invariant |s| == |s0| && multiset(s) == multiset(s0)
      invariant SortedPrefix(s, i)
      invariant Select(s, i, k) == Select(s0, 0, k)
    {
      var minIndex := FirstMin(s, i);
      SwapExtendsSorted(s, i, minIndex);
      s := Swap(s, i, minIndex);
    }
  }

  /** One round keeps the order: swapping a nearest remaining pair into
      position i extends the sorted prefix by one. */
  lemma SwapExtendsSorted(s: seq<Neighbor>, i: nat, m: nat)
    requires i <= m < |s| && SortedPrefix(s, i)
    requires forall q :: i <= q < |s| ==> s[m].dist <= s[q].dist
    ensures SortedPrefix(Swap(s, i, m), i + 1)
  {
    var r := Swap(s, i, m);
    forall a, b | 0 <= a < b < |r| && a < i + 1
      ensures r[a].dist <= r[b].dist
    {
      if a < i {
        assert r[a] == s[a];
        assert r[b] == s[b] || r[b] == s[m] || r[b] == s[i];
      }
    }
  }

  /** One vote, `1.0 / (distances[i] + epsilon)`: positive for any distance
      that is not negative. */
  function Weight(d: real): (w: real)
    requires d >= 0.0
    ensures w > 0.0
  {
    1.0 / (d + Epsilon)
  }

  /** A closer pair never weighs less. */
  lemma WeightDecreasing(d: real, e: real)
    requires 0.0 <= e <= d
    ensures Weight(e) >= Weight(d)
  {
    var x, y := e + Epsilon, d + Epsilon;
    var p, q := 1.0 / x, 1.0 / y;
    assert p * x == 1.0 && q * y == 1.0;
    assert q * x <= q * y;
  }

  /** The real zero vector `new double[numClasses]`. */
  function Zeros(n: nat): (r: seq<real>)
    ensures |r| == n && forall c :: 0 <= c < n ==> r[c] == 0.0
  {
    seq(n, c requires 0 <= c < n => 0.0)
  }

  /** Every pair has a distance that is not negative. */
  predicate NonNegative(s: seq<Neighbor>)
  {
    forall i :: 0 <= i < |s| ==> s[i].dist >= 0.0
  }

  /** `labelWeights` after the voting loop over `s`: a pair adds its weight
      to its label only when the label is a class id. So every class weight
      is at least 0, and it is positive exactly when some pair has that
      class. */
  function LabelWeights(s: seq<Neighbor>, numClasses: nat): (r: seq<real>)
    requires NonNegative(s)
    ensures |r| == numClasses
    ensures forall c :: 0 <= c < numClasses ==> r[c] >= 0.0
    ensures forall c :: 0 <= c < numClasses ==> (r[c] > 0.0 <==> exists i :: 0 <= i < |s| && s[i].target == c)
    decreases |s|
  {
    if |s| == 0 then Zeros(numClasses)
    else
      var init := s[..|s| - 1];
      var last := s[|s| - 1];
      assert forall i :: 0 <= i < |init| ==> init[i] == s[i];
      var w := LabelWeights(init, numClasses);
      if 0 <= last.target < numClasses then w[last.target := w[last.target] + Weight(last.dist)] else w
  }

  /** The weighted vote of the first k pairs: the scan from -1.0 that keeps
      a strictly larger weight, so the largest weight with the lowest class
      id wins, and -1 only when there are no classes. */
  function Vote(s: seq<Neighbor>, k: nat, numClasses: nat): (r: int)
    requires k <= |s| && NonNegative(s[..k])
    ensures r == -1 <==> numClasses == 0
    ensures r != -1 ==> 0 <= r < numClasses
    ensures r != -1 ==> forall c :: 0 <= c < numClasses ==>
      LabelWeights(s[..k], numClasses)[c] <= LabelWeights(s[..k], numClasses)[r]
    ensures r != -1 ==> forall c :: 0 <= c < r ==>
      LabelWeights(s[..k], numClasses)[c] < LabelWeights(s[..k], numClasses)[r]
  {
    ArgMaxAbove(LabelWeights(s[..k], numClasses), -1.0)
  }

  /** When one of the k pairs carries a class id, the vote goes to the label
      of one of the k pairs: that class has positive weight, so the winner
      does too. */
  lemma VoteIsNeighborLabel(s: seq<Neighbor>, k: nat, numClasses: nat)
    requires k <= |s| && NonNegative(s[..k])
    requires exists i :: 0 <= i < k && 0 <= s[i].target < numClasses
    ensures exists i :: 0 <= i < k && s[i].target == Vote(s, k, numClasses)
  {
    var w := LabelWeights(s[..k], numClasses);
    var r := Vote(s, k, numClasses);
    var i :| 0 <= i < k && 0 <= s[i].target < numClasses;
    assert s[..k][i] == s[i];
    assert w[s[i].target] > 0.0;
    var j :| 0 <= j < k && s[..k][j].target == r;
    assert s[j].target == r;
  }

  /** `predict(testImage)`, for `k <= n` and distances that are not
      negative: the answer is the weighted vote of the first k pairs after
      the partial sort, which holds the k nearest in order of distance, so
      -1 exactly when there are no classes. Ties at the k-th distance are
      settled as the sort settles them: the earlier stored row is kept. A
      negative `k` runs neither loop, exactly like `k = 0`. */
  method Predict(m: Memory, k: int, numClasses: nat, sample: seq<int>, dist: Distance) returns (predicted: int)
    requires |m.features| <= |m.labels| && k <= |m.features|
    requires forall i :: 0 <= i < |m.features| ==> dist(sample, m.features[i]) >= 0.0
    ensures predicted == -1 <==> numClasses == 0
    ensures var rounds := if k > 0 then k else 0;
      var s := Select(Neighbors(m, sample, dist), 0, rounds);
      && multiset(s) == multiset(Neighbors(m, sample, dist)) && SortedPrefix(s, rounds)
      && NonNegative(s[..rounds]) && predicted == Vote(s, rounds, numClasses)
  {
    var rounds: nat := if k > 0 then k else 0;
    var all := Neighbors(m, sample, dist);
    var s := SelectNearest(all, rounds);
    forall i | 0 <= i < rounds
      ensures s[i].dist >= 0.0
    {
      assert s[i] in multiset(all);
    }
    predicted := Vote(s, rounds, numClasses);
  }

  /** With no neighbour voting (k <= 0) every class weighs 0.0, which beats
      the initial -1.0 only at class 0: the answer is 0, or -1 without
      classes. */
  lemma NoVotersPicksFirstClass(s: seq<Neighbor>, numClasses: nat)
    ensures Vote(s, 0, numClasses) == if numClasses == 0 then -1 else 0
  {
    var w := LabelWeights(s[..0], numClasses);
    if numClasses > 0 {
      assert w[0] == 0.0;
    }
  }

  /** Two stored rows at the same distance and k = 1: the selection leaves
      the first in front, so its label is the answer, not the other. */
  lemma TieKeepsFirst()
    ensures Select([Neighbor(1.0, 0), Neighbor(1.0, 1)], 0, 1) == [Neighbor(1.0, 0), Neighbor(1.0, 1)]
    ensures Vote([Neighbor(1.0, 0), Neighbor(1.0, 1)], 1, 2) == 0
  {
    var s := [Neighbor(1.0, 0), Neighbor(1.0, 1)];
    assert MinFrom(s, 0) == 0;
    assert Swap(s, 0, 0) == s;
    var w := LabelWeights(s[..1], 2);
    assert s[..1][0].target == 0;
    assert w[0] > 0.0;
  }
}

=== FILE: nearest.dfy ===
/** `NearestNeighborClassifier`: training keeps the samples, and a query is
    answered with the label of the closest stored sample. The distance is an
    input: `DistanceCalculator.euclideanDistance` takes a square root in
    floating point, which the model does not compute. */
module NearestNeighbor {

  /** `Double.MAX_VALUE`, (2^53 - 1) * 2^971, the starting minimum. */
  const MaxDouble: real := 179769313486231570814527423731704356798070567525844996598917476803157260780028538760589558632766878171540458953514382464234321326889464182768467546703537516986049910576551282076245490090389328944075868508455133942304583236903222948165808559332123348274797826204144723168738177180919299881250404026184124858368.0

  /** A distance between a query and a stored sample. */
  type Distance = (seq<int>, seq<int>) -> real

  /** The stored `trainingFeatures` and `trainingLabels`. */
  datatype Memory = Memory(features: seq<seq<int>>, labels: seq<int>)

  /** `train(features, labels)`: the arrays are kept as given, with no
      computation and no check. */
  function Train(features: seq<seq<int>>, labels: seq<int>): (m: Memory)
    ensures m.features == features && m.labels == labels
  {
    Memory(features, labels)
  }

  /** The distance of the query to each stored sample, in sample order. */
  function Distances(m: Memory, sample: seq<int>, dist: Distance): (r: seq<real>)
    ensures |r| == |m.features|
    ensures forall i :: 0 <= i < |m.features| ==> r[i] == dist(sample, m.features[i])
  {
    seq(|m.features|, i requires 0 <= i < |m.features| => dist(sample, m.features[i]))
  }

  /** Position j holds the smallest distance, below `Double.MAX_VALUE`, and
      every earlier position is strictly farther. */
  ghost predicate EarliestMin(ds: seq<real>, j: nat)
  {
    && j < |ds|
    && ds[j] < MaxDouble
    && (forall q :: 0 <= q < |ds| ==> ds[j] <= ds[q])
    && (forall q :: 0 <= q < j ==> ds[q] > ds[j])
  }

  /** At most one position is the earliest minimum. */
  lemma EarliestMinUnique(ds: seq<real>, i: nat, j: nat)
    requires EarliestMin(ds, i) && EarliestMin(ds, j)
    ensures i == j
  {
  }

  /** `predict(testImage)`: the scan from `Double.MAX_VALUE` and label -1
      that takes a sample only when it is strictly closer. Without samples,
      or when no distance is below `Double.MAX_VALUE`, the answer is -1;
      otherwise it is the label of the earliest closest sample, and so a
      stored label. */
  method Predict(m: Memory, sample: seq<int>, dist: Distance) returns (predicted: int)
    requires |m.features| <= |m.labels|
    ensures |m.features| == 0 ==> predicted == -1
    ensures (forall i :: 0 <= i < |m.features| ==> dist(sample, m.features[i]) >= MaxDouble) ==> predicted == -1
    ensures forall j: nat :: EarliestMin(Distances(m, sample, dist), j) ==> predicted == m.labels[j]
    ensures (exists i :: 0 <= i < |m.features| && dist(sample, m.features[i]) < MaxDouble) ==>
      exists j :: 0 <= j < |m.features| && predicted == m.labels[j]
  {
    var minDistance := MaxDouble;
    predicted := -1;
    ghost var at := -1;
    ghost var ds := Distances(m, sample, dist);
    for i := 0 to |m.features|
      invariant -1 <= at < i
      invariant at == -1 ==> predicted == -1 && minDistance == MaxDouble && forall q :: 0 <= q < i ==> ds[q] >= MaxDouble
      invariant at >= 0 ==> predicted == m.labels[at] && minDistance == ds[at] < MaxDouble
      invariant at >= 0 ==> forall q :: 0 <= q < i ==> ds[at] <= ds[q]
      invariant at >= 0 ==> forall q :: 0 <= q < at ==> ds[q] > ds[at]
    {
      var distance := dist(sample, m.features[i]);
      if distance < minDistance {
        minDistance := distance;
        predicted := m.labels[i];
        at := i;
      }
    }
    if at >= 0 {
      assert EarliestMin(ds, at);
      forall j: nat | EarliestMin(ds, j)
        ensures predicted == m.labels[j]
      {
        EarliestMinUnique(ds, at, j);
      }
    } else {
      forall j: nat | EarliestMin(ds, j)
        ensures false
      {
      }
    }
  }
}

=== FILE: one_vs_rest.dfy ===
/** `MulticlassSVMClassifier`: one binary linear SVM per class, trained to
    tell that class (+1) from all others (-1); a sample goes to the class
    whose SVM gives the largest decision score. The binary SVM itself is
    abstract: its training and its `decisionFunction` are inputs. */
module OneVsRest {
  import opened Common

  /** `binaryLabels` for class c over the first n labels: +1 exactly where
      the label is c, -1 everywhere else. */
  function BinaryLabels(labels: seq<int>, n: nat, c: int): (r: seq<int>)
    requires n <= |labels|
    ensures |r| == n
    ensures forall i :: 0 <= i < n ==> (r[i] == 1 || r[i] == -1) && (r[i] == 1 <==> labels[i] == c)
  {
    seq(n, i requires 0 <= i < n => if labels[i] == c then 1 else -1)
  }

  /** Over classes 0 to k - 1, a sample is marked +1 for its own class only,
      and for none when its label is not a class id. */
  lemma OnePositivePerSample(labels: seq<int>, n: nat, k: nat, i: nat)
    requires i < n <= |labels|
    ensures forall c :: 0 <= c < k ==> (BinaryLabels(labels, n, c)[i] == 1 <==> c == labels[i])
    ensures !(0 <= labels[i] < k) ==> forall c :: 0 <= c < k ==> BinaryLabels(labels, n, c)[i] == -1
  {
  }

  /** `train(features, labels)`: classifier c, for each c below
      `numClasses`, is trained on all the features with the labels of
      class c against the rest. */
  function Train<M>(numClasses: nat, features: seq<seq<int>>, labels: seq<int>,
                    fit: (seq<seq<int>>, seq<int>) -> M): (r: seq<M>)
    requires |features| <= |labels|
    ensures |r| == numClasses
    ensures forall c :: 0 <= c < numClasses ==> r[c] == fit(features, BinaryLabels(labels, |features|, c))
  {
    seq(numClasses, c requires 0 <= c < numClasses => fit(features, BinaryLabels(labels, |features|, c)))
  }

  /** A double that may be `Double.NEGATIVE_INFINITY`, the start of the max
      loop. */
  datatype Bound = NegInf | Finite(value: real)

  /** `score > maxScore`. */
  predicate Above(score: real, b: Bound)
  {
    match b
    case NegInf => true
    case Finite(v) => score > v
  }

  /** The decision score of each class's classifier, in class order. */
  function Scores<M>(models: seq<M>, decide: (M, seq<int>) -> real, sample: seq<int>): (r: seq<real>)
    ensures |r| == |models|
    ensures forall c :: 0 <= c < |models| ==> r[c] == decide(models[c], sample)
  {
    seq(|models|, c requires 0 <= c < |models| => decide(models[c], sample))
  }

  /** `predict(sample)`: the loop from `NEGATIVE_INFINITY` and -1 that keeps
      a strictly larger score. Class 0 always beats the start, so the answer
      is -1 exactly when there are no classes, and otherwise the first class
      of largest score. */
  method Predict<M>(models: seq<M>, decide: (M, seq<int>) -> real, sample: seq<int>) returns (predicted: int)
    ensures predicted == -1 <==> |models| == 0
    ensures predicted != -1 ==> predicted == ArgMax(Scores(models, decide, sample))
  {
    ghost var scores := Scores(models, decide, sample);
    var maxScore := NegInf;
    predicted := -1;
    for c := 0 to |models|
      invariant c == 0 <==> predicted == -1
      invariant c == 0 ==> maxScore == NegInf
      invariant c > 0 ==> 0 <= predicted < c && maxScore == Finite(scores[predicted])
      invariant c > 0 ==> forall q :: 0 <= q < c ==> scores[q] <= scores[predicted]
      invariant c > 0 ==> forall q :: 0 <= q < predicted ==> scores[q] < scores[predicted]
    {
      var score := decide(models[c], sample);
      if Above(score, maxScore) {
        maxScore := Finite(score);
        predicted := c;
      }
    }
    if predicted != -1 {
      ArgMaxUnique(scores, predicted);
    }
  }
}

=== FILE: perceptron.dfy ===
/** `KernelPerceptronClassifier`: a dual perceptron in integers. Each sample i
    has a mistake counter `alphas[i]`; the prediction is the sign of
    `sum alphas[i] * labels[i] * K(features[i], sample)` with the dot-product
    kernel, and training sweeps the samples `epochs` times, bumping the
    counter of every sample the current model gets wrong. */
module KernelPerceptron {
  import opened Kernels
  import opened Splitting

  /** The trained fields: `alphas`, `trainingFeatures`, `trainingLabels`. */
  datatype Perceptron = Perceptron(alphas: seq<int>, features: seq<seq<int>>, labels: seq<int>)

  /** One counter per stored sample, and a label for each. */
  predicate Ready(m: Perceptron)
  {
    |m.alphas| == |m.features| <= |m.labels|
  }

  /** Every sample with a non-zero counter is at most as wide as `sample`:
      those are the rows the kernel reads against it. */
  predicate Readable(m: Perceptron, sample: seq<int>)
    requires Ready(m)
  {
    forall i :: 0 <= i < |m.alphas| && m.alphas[i] != 0 ==> |m.features[i]| <= |sample|
  }

  /** The accumulated `sum` of `predict` over the first n samples; a zero
      counter skips the sample. */
  function Score(m: Perceptron, sample: seq<int>, n: nat): int
    requires Ready(m) && Readable(m, sample) && n <= |m.alphas|
  {
    if n == 0 then 0
    else
      var i := n - 1;
      Score(m, sample, i)
        + (if m.alphas[i] == 0 then 0 else m.alphas[i] * m.labels[i] * Dot(m.features[i], sample))
  }

  /** `predict(sample)`: 1 when the score is at least 0 and -1 otherwise;
      nothing else is ever returned. */
  function Predict(m: Perceptron, sample: seq<int>): (r: int)
    requires Ready(m) && Readable(m, sample)
    ensures r == 1 || r == -1
    ensures r == 1 <==> Score(m, sample, |m.alphas|) >= 0
  {
    if Score(m, sample, |m.alphas|) >= 0 then 1 else -1
  }

  /** Samples whose counter is 0 contribute nothing: replacing their rows and
      labels leaves the score unchanged. */
  lemma {:induction false} ZeroAlphasIgnored(m: Perceptron, m': Perceptron, sample: seq<int>, n: nat)
    requires Ready(m) && Ready(m') && Readable(m, sample) && Readable(m', sample)
    requires m'.alphas == m.alphas && n <= |m.alphas|
    requires forall i :: 0 <= i < |m.alphas| && m.alphas[i] != 0 ==>
      m'.features[i] == m.features[i] && m'.labels[i] == m.labels[i]
    ensures Score(m, sample, n) == Score(m', sample, n)
    decreases n
  {
    if n > 0 {
      ZeroAlphasIgnored(m, m', sample, n - 1);
    }
  }

  /** With every counter at 0 the score is 0, so `predict` answers 1. */
  lemma {:induction false} AllZeroPredictsOne(m: Perceptron, sample: seq<int>)
    requires Ready(m) && Readable(m, sample)
    requires forall i :: 0 <= i < |m.alphas| ==> m.alphas[i] == 0
    ensures Predict(m, sample) == 1
  {
    ScoreOfZeros(m, sample, |m.alphas|);
  }

  lemma {:induction false} ScoreOfZeros(m: Perceptron, sample: seq<int>, n: nat)
    requires Ready(m) && Readable(m, sample) && n <= |m.alphas|
    requires forall i :: 0 <= i < |m.alphas| ==> m.alphas[i] == 0
    ensures Score(m, sample, n) == 0
    decreases n
  {
    if n > 0 {
      ScoreOfZeros(m, sample, n - 1);
    }
  }

  /** All rows share the width of row 0, so every stored row can be scored
      against every other whatever the counters are. */
  predicate Trainable(features: seq<seq<int>>, labels: seq<int>)
  {
    Rectangular(features, Width(features)) && |features| <= |labels|
  }

  function Zeros(n: nat): (r: seq<int>)
    ensures |r| == n && forall i :: 0 <= i < n ==> r[i] == 0
  {
    seq(n, i requires 0 <= i < n => 0)
  }

  /** One step of the inner loop at sample i: predict it with the current
      counters and bump its counter on a mistake. */
  function Step(alphas: seq<int>, features: seq<seq<int>>, labels: seq<int>, i: nat): seq<int>
    requires Trainable(features, labels) && |alphas| == |features| && i < |features|
  {
    var m := Perceptron(alphas, features, labels);
    if Predict(m, features[i]) != labels[i] then alphas[i := alphas[i] + 1] else alphas
  }

  /** The first i steps of one epoch. */
  function Pass(alphas: seq<int>, features: seq<seq<int>>, labels: seq<int>, i: nat): (r: seq<int>)
    requires Trainable(features, labels) && |alphas| == |features| && i <= |features|
    ensures |r| == |alphas|
  {
    if i == 0 then alphas
    else Step(Pass(alphas, features, labels, i - 1), features, labels, i - 1)
  }

  /** The counters after e whole epochs from `alphas`. */
  function Epochs(alphas: seq<int>, features: seq<seq<int>>, labels: seq<int>, e: nat): (r: seq<int>)
    requires Trainable(features, labels) && |alphas| == |features|
    ensures |r| == |alphas|
  {
    if e == 0 then alphas
    else Pass(Epochs(alphas, features, labels, e - 1), features, labels, |features|)
  }

  /** One epoch of the inner loop: each counter either stays or grows by
      one, and the counter of a sample whose label is neither 1 nor -1 always
      grows. */
  method Epoch(start: seq<int>, features: seq<seq<int>>, labels: seq<int>) returns (alphas: seq<int>)
    requires Trainable(features, labels) && |start| == |features|
    ensures alphas == Pass(start, features, labels, |features|)
    ensures forall j :: 0 <= j < |features| ==> start[j] <= alphas[j] <= start[j] + 1
    ensures forall j :: 0 <= j < |features| && labels[j] != 1 && labels[j] != -1 ==> alphas[j] == start[j] + 1
  {
    var n := |features|;
    alphas := start;
    for i := 0 to n
      invariant |alphas| == n
      invariant alphas == Pass(start, features, labels, i)
      invariant forall j :: 0 <= j < n ==> start[j] <= alphas[j] <= start[j] + 1
      invariant forall j :: i <= j < n ==> alphas[j] == start[j]
      invariant forall j :: 0 <= j < i && labels[j] != 1 && labels[j] != -1 ==> alphas[j] == start[j] + 1
    {
      var yPred := Predict(Perceptron(alphas, features, labels), features[i]);
      if yPred != labels[i] {
        alphas := alphas[i := alphas[i] + 1];
      }
    }
  }

  /** `train(features, labels)`: counters start at 0, one per sample; the two
      loops run the epochs. Afterwards every counter lies in [0, epochs], and a
      sample whose label is neither 1 nor -1, which `predict` can never
      answer, is counted on every pass. */
  method Train(features: seq<seq<int>>, labels: seq<int>, epochs: int) returns (m: Perceptron)
    requires Trainable(features, labels)
    ensures Ready(m) && m.features == features && m.labels == labels
    ensures var e := if epochs > 0 then epochs else 0;
      && m.alphas == Epochs(Zeros(|features|), features, labels, e)
      && (forall i :: 0 <= i < |features| ==> 0 <= m.alphas[i] <= e)
      && (forall i :: 0 <= i < |features| && labels[i] != 1 && labels[i] != -1 ==> m.alphas[i] == e)
  {
    var n := |features|;
    var e := if epochs > 0 then epochs else 0;
    var alphas := Zeros(n);
    for epoch := 0 to e
      invariant |alphas| == n
      invariant alphas == Epochs(Zeros(n), features, labels, epoch)
      invariant forall j :: 0 <= j < n ==> 0 <= alphas[j] <= epoch
      invariant forall j :: 0 <= j < n && labels[j] != 1 && labels[j] != -1 ==> alphas[j] == epoch
    {
      alphas := Epoch(alphas, features, labels);
    }
    m := Perceptron(alphas, features, labels);
  }
}

=== FILE: random_forest.dfy ===
/** `RandomForestClassifier`: `numTrees` decision trees, each grown on a
    bootstrap resample of the training rows, all drawing from one generator;
    prediction is a majority vote over the trees. */
module RandomForest {
  import opened Common
  import opened Seqs
  import opened Impurity
  import opened Splitting
  import opened Trees
  import DecisionTree

  /** The constructor arguments. */
  datatype Config = Config(numTrees: int, numClasses: nat, maxDepth: int, minSamplesSplit: int, minSamplesLeaf: int,
                           maxFeaturesRatio: real, sampleRatio: real)

  /** `(int) (n * ratio)`: Java's cast truncates toward zero, so a product in
      (-1, 1) gives 0 and only a product at -1 or below gives a negative size. */
  function Truncate(n: nat, ratio: real): (r: int)
    ensures r >= 0 <==> (n as real) * ratio > -1.0
    ensures r == 0 <==> -1.0 < (n as real) * ratio < 1.0
    ensures r > 0 ==> r as real <= (n as real) * ratio < r as real + 1.0
  {
    TruncateToInt((n as real) * ratio)
  }

  /** The two sizes `train` derives are usable: `sampleSize` allocates the
      resample arrays, and `maxFeatures` bounds `subList` in every member's
      split search. A negative one makes the first tree fail. */
  predicate Sizes(cfg: Config, n: nat, d: nat)
  {
    Truncate(n, cfg.sampleRatio) >= 0 && Truncate(d, cfg.maxFeaturesRatio) >= 0
  }

  /** The configuration of every member tree: the forest's own limits, and
      `(int) (d * maxFeaturesRatio)` features per split. */
  function TreeConfig(cfg: Config, d: nat): (r: DecisionTree.Config)
    requires Truncate(d, cfg.maxFeaturesRatio) >= 0
    ensures r.maxFeatures == Truncate(d, cfg.maxFeaturesRatio)
  {
    DecisionTree.Config(cfg.numClasses, cfg.maxDepth, cfg.minSamplesSplit, cfg.minSamplesLeaf,
                        Truncate(d, cfg.maxFeaturesRatio))
  }

  /** The bootstrap loop: `size` draws of `nextInt(n)`, in order. */
  function Bootstrap(n: nat, size: nat, g: Rng, nextInt: NextInt): (r: (seq<nat>, Rng))
    requires n > 0 && ValidNextInt(nextInt)
    ensures |r.0| == size && InRange(r.0, n)
  {
    if size == 0 then ([], g)
    else
      var (drawn, g1) := Bootstrap(n, size - 1, g, nextInt);
      var (x, g2) := nextInt(g1, n);
      (drawn + [x], g2)
  }

  /** Drawing more leaves the earlier draws as they were: the first draws of a
      longer resample are the shorter resample. */
  lemma {:induction false} BootstrapExtends(n: nat, m: nat, size: nat, g: Rng, nextInt: NextInt)
    requires n > 0 && ValidNextInt(nextInt) && m <= size
    ensures Bootstrap(n, size, g, nextInt).0[..m] == Bootstrap(n, m, g, nextInt).0
    decreases size
  {
    if m < size {
      BootstrapExtends(n, m, size - 1, g, nextInt);
      var prev := Bootstrap(n, size - 1, g, nextInt).0;
      assert Bootstrap(n, size, g, nextInt).0[..size - 1] == prev;
      assert prev[..m] == Bootstrap(n, size, g, nextInt).0[..m];
    }
  }

  /** A trained tree together with the bootstrap indices its rows came from
      (row i of its training set is original row `sample[i]`, label included). */
  datatype Member = Member(sample: seq<nat>, tree: Option<Tree<int>>)

  /** What `train` guarantees of one member: `(int) (n * sampleRatio)` indices
      in `[0, n)`, and a tree grown, with the forest's limits, on the rows and
      labels at those indices. Training on an empty resample leaves no tree
      (a null root). */
  ghost predicate TrainedOnBootstrap(cfg: Config, features: seq<seq<int>>, labels: seq<int>, m: Member)
    requires |features| > 0 && Sizes(cfg, |features|, Width(features)) && DecisionTree.Labelled(features, labels, cfg.numClasses)
  {
    && |m.sample| == Truncate(|features|, cfg.sampleRatio)
    && InRange(m.sample, |features|)
    && InRange(m.sample, |labels|)
    && DecisionTree.Labelled(Gather(features, m.sample), Gather(labels, m.sample), cfg.numClasses)
    && (m.tree.Some? <==> |m.sample| > 0)
    && (m.tree.Some? ==>
          && DecisionTree.Grown(TreeConfig(cfg, Width(features)), Gather(features, m.sample), Gather(labels, m.sample),
                                m.tree.value, Range(|m.sample|), 0)
          && FeaturesBelow(m.tree.value, Width(features))
          && forall c :: c in Leaves(m.tree.value) ==> 0 <= c < cfg.numClasses)
  }

  /** The resampled rows are rows of the data, so they have its width. */
  lemma ResampleLabelled(features: seq<seq<int>>, labels: seq<int>, k: nat, sample: seq<nat>)
    requires |features| > 0 && DecisionTree.Labelled(features, labels, k) && InRange(sample, |features|)
    ensures InRange(sample, |labels|)
    ensures DecisionTree.Labelled(Gather(features, sample), Gather(labels, sample), k)
    ensures |sample| > 0 ==> Width(Gather(features, sample)) == Width(features)
  {
  }

  /** One pass of the `train` loop: draw a resample, then grow a tree on it,
      continuing with the generator the draws left. */
  function GrowMember(cfg: Config, features: seq<seq<int>>, labels: seq<int>, g: Rng, nextInt: NextInt)
    : (r: (Member, Rng))
    requires |features| > 0 && Sizes(cfg, |features|, Width(features)) && DecisionTree.Labelled(features, labels, cfg.numClasses)
    requires ValidNextInt(nextInt)
    ensures TrainedOnBootstrap(cfg, features, labels, r.0)
  {
    var n := |features|;
    var (sample, g1) := Bootstrap(n, Truncate(n, cfg.sampleRatio), g, nextInt);
    ResampleLabelled(features, labels, cfg.numClasses, sample);
    var rows, rowLabels := Gather(features, sample), Gather(labels, sample);
    var (tree, g2) := DecisionTree.Train(TreeConfig(cfg, Width(features)), rows, rowLabels, g1, nextInt);
    (Member(sample, tree), g2)
  }

  /** The first `count` passes of the `train` loop, in order, threading one
      generator through all of them. */
  function GrowMembers(cfg: Config, features: seq<seq<int>>, labels: seq<int>, count: nat, g: Rng, nextInt: NextInt)
    : (r: (seq<Member>, Rng))
    requires |features| > 0 && DecisionTree.Labelled(features, labels, cfg.numClasses)
    requires count > 0 ==> Sizes(cfg, |features|, Width(features))
    requires ValidNextInt(nextInt)
    ensures |r.0| == count
    ensures forall t :: 0 <= t < count ==> TrainedOnBootstrap(cfg, features, labels, r.0[t])
  {
    if count == 0 then ([], g)
    else
      var (members, g1) := GrowMembers(cfg, features, labels, count - 1, g, nextInt);
      var (m, g2) := GrowMember(cfg, features, labels, g1, nextInt);
      (members + [m], g2)
  }

  /** `train`: exactly `numTrees` members (none for a negative count). The
      Java reads `features[0]`, so there is at least one row, and the derived
      sizes matter only once a tree is grown. */
  function Train(cfg: Config, features: seq<seq<int>>, labels: seq<int>, g: Rng, nextInt: NextInt)
    : (r: (seq<Member>, Rng))
    requires |features| > 0 && DecisionTree.Labelled(features, labels, cfg.numClasses)
    requires cfg.numTrees > 0 ==> Sizes(cfg, |features|, Width(features))
    requires ValidNextInt(nextInt)
    ensures |r.0| == if cfg.numTrees > 0 then cfg.numTrees else 0
    ensures forall t :: 0 <= t < |r.0| ==> TrainedOnBootstrap(cfg, features, labels, r.0[t])
  {
    GrowMembers(cfg, features, labels, if cfg.numTrees > 0 then cfg.numTrees else 0, g, nextInt)
  }

  /** Every member can answer for a sample of at least `width` features. */
  predicate Answerable(forest: seq<Member>, width: nat)
  {
    forall t :: 0 <= t < |forest| && forest[t].tree.Some? ==> FeaturesBelow(forest[t].tree.value, width)
  }

  /** The members' predictions, in order; failure when a member has no tree. */
  function Votes(forest: seq<Member>, sample: seq<int>): (r: Option<seq<int>>)
    requires Answerable(forest, |sample|)
    ensures r.Some? <==> forall t :: 0 <= t < |forest| ==> forest[t].tree.Some?
    ensures r.Some? ==> |r.value| == |forest|
    ensures r.Some? ==> forall t :: 0 <= t < |forest| ==> r.value[t] == Trees.Predict(forest[t].tree.value, sample)
  {
    if |forest| == 0 then Some([])
    else
      var last := forest[|forest| - 1];
      match Votes(forest[..|forest| - 1], sample)
      case None => None
      case Some(vs) =>
        match last.tree
        case None => None
        case Some(t) => Some(vs + [Trees.Predict(t, sample)])
  }

  /** `classCounts`: entry c is the number of members voting c, and the
      entries add up to the number of members. */
  function VoteCounts(votes: seq<int>, numClasses: nat): (r: seq<nat>)
    requires LabelsBelow(votes, numClasses)
    ensures |r| == numClasses && Sum(r) == |votes|
    ensures forall c :: 0 <= c < numClasses ==> r[c] == multiset(votes)[c]
  {
    ClassCounts(votes, numClasses)
  }

  /** `predict`: count the votes, then take the first class of strictly
      greatest count. Fails as the Java does when a member has no tree, a
      vote is not a class id (the `classCounts` index), or there are no
      classes (`classCounts[0]`). */
  function Predict(forest: seq<Member>, numClasses: nat, sample: seq<int>): (r: Option<nat>)
    requires Answerable(forest, |sample|)
    ensures r.Some? <==> (Votes(forest, sample).Some? && LabelsBelow(Votes(forest, sample).value, numClasses)
                          && numClasses > 0)
    ensures r.Some? ==> var votes := Votes(forest, sample).value;
      && r.value < numClasses
      && (forall c :: 0 <= c < numClasses ==> multiset(votes)[c] <= multiset(votes)[r.value])
      && (forall c :: 0 <= c < r.value ==> multiset(votes)[c] < multiset(votes)[r.value])
  {
    match Votes(forest, sample)
    case None => None
    case Some(votes) =>
      if !LabelsBelow(votes, numClasses) || numClasses == 0 then None
      else
        var counts := VoteCounts(votes, numClasses);
        Some(ArgMaxInt(counts))
  }

  /** With no members every count is zero and the vote returns class 0. */
  lemma EmptyForestVotesZero(numClasses: nat, sample: seq<int>)
    requires numClasses > 0
    ensures Predict([], numClasses, sample) == Some(0)
  {
    var counts := VoteCounts([], numClasses);
    assert counts[0] == 0;
  }

  /** A unanimous forest returns the class every member votes for. */
  lemma {:induction false} UnanimousVote(forest: seq<Member>, numClasses: nat, sample: seq<int>, c: nat)
    requires Answerable(forest, |sample|) && |forest| > 0 && c < numClasses
    requires Votes(forest, sample).Some? && forall t :: 0 <= t < |forest| ==> Votes(forest, sample).value[t] == c
    ensures Predict(forest, numClasses, sample) == Some(c)
  {
    var votes := Votes(forest, sample).value;
    assert votes == seq(|forest|, t => c);
    assert LabelsBelow(votes, numClasses);
    AllVotesFor(votes, c);
  }

  lemma {:induction false} AllVotesFor(votes: seq<int>, c: int)
    requires forall t :: 0 <= t < |votes| ==> votes[t] == c
    ensures multiset(votes)[c] == |votes|
    ensures forall x :: x != c ==> multiset(votes)[x] == 0
  {
    if |votes| > 0 {
      AllVotesFor(votes[..|votes| - 1], c);
      assert votes == votes[..|votes| - 1] + [c];
    }
  }

  /** A forest trained on resamples that are not empty answers any sample of
      the training width: every member has a tree, every vote is a class id. */
  lemma TrainedForestAnswers(cfg: Config, features: seq<seq<int>>, labels: seq<int>, g: Rng, nextInt: NextInt,
                             sample: seq<int>)
    requires |features| > 0 && Sizes(cfg, |features|, Width(features)) && DecisionTree.Labelled(features, labels, cfg.numClasses)
    requires ValidNextInt(nextInt)
    requires Truncate(|features|, cfg.sampleRatio) > 0 && cfg.numClasses > 0 && |sample| >= Width(features)
    ensures var forest := Train(cfg, features, labels, g, nextInt).0;
      Answerable(forest, |sample|) && Predict(forest, cfg.numClasses, sample).Some?
  {
    var forest := Train(cfg, features, labels, g, nextInt).0;
    forall t | 0 <= t < |forest| && forest[t].tree.Some?
      ensures FeaturesBelow(forest[t].tree.value, |sample|)
    {
      FeaturesBelowWider(forest[t].tree.value, Width(features), |sample|);
    }
    var votes := Votes(forest, sample).value;
    forall t | 0 <= t < |votes|
      ensures 0 <= votes[t] < cfg.numClasses
    {
      assert votes[t] in Leaves(forest[t].tree.value);
    }
  }

  lemma {:induction false} FeaturesBelowWider<V>(t: Tree<V>, d: nat, e: nat)
    requires FeaturesBelow(t, d) && d <= e
    ensures FeaturesBelow(t, e)
  {
    if t.Node? {
      FeaturesBelowWider(t.left, d, e);
      FeaturesBelowWider(t.right, d, e);
    }
  }
}

=== FILE: seqs.dfy ===
/** Index sequences: the `List<Integer>` index sets the tree builders pass
    around, and gathering values through them (`subsetLabels`, the bootstrap
    copy of rows). */
module Seqs {

  predicate InRange(idx: seq<nat>, n: nat)
  {
    forall k :: 0 <= k < |idx| ==> idx[k] < n
  }

  /** `0, 1, ..., n-1`, the index list every `train` starts from. */
  function Range(n: nat): (r: seq<nat>)
    ensures |r| == n && forall k :: 0 <= k < n ==> r[k] == k
  {
    seq(n, k requires 0 <= k < n => k)
  }

  /** The values at the given positions, in the order of the positions. */
  function Gather<T>(values: seq<T>, idx: seq<nat>): (r: seq<T>)
    requires InRange(idx, |values|)
    ensures |r| == |idx|
    ensures forall k :: 0 <= k < |idx| ==> r[k] == values[idx[k]]
  {
    seq(|idx|, k requires 0 <= k < |idx| => values[idx[k]])
  }

  lemma GatherAppend<T>(values: seq<T>, a: seq<nat>, b: seq<nat>)
    requires InRange(a, |values|) && InRange(b, |values|)
    ensures InRange(a + b, |values|)
    ensures Gather(values, a + b) == Gather(values, a) + Gather(values, b)
  {
  }

  lemma GatherMiddle<T>(values: seq<T>, b1: seq<nat>, x: nat, b2: seq<nat>)
    requires InRange(b1, |values|) && InRange(b2, |values|) && x < |values|
    ensures InRange(b1 + [x] + b2, |values|) && InRange(b1 + b2, |values|)
    ensures multiset(Gather(values, b1 + [x] + b2))
         == multiset(Gather(values, b1 + b2)) + multiset{values[x]}
  {
    GatherAppend(values, b1, [x]);
    GatherAppend(values, b1 + [x], b2);
    GatherAppend(values, b1, b2);
  }

  /** Removing one occurrence of an element from two orderings of the same
      multiset leaves two orderings of the same multiset. */
  lemma RemoveOccurrence<T>(a: seq<T>, b: seq<T>, j: nat)
    requires multiset(a) == multiset(b) && |a| > 0
    requires j < |b| && b[j] == a[|a| - 1]
    ensures multiset(a[..|a| - 1]) == multiset(b[..j] + b[j + 1..])
  {
    var x := a[|a| - 1];
    assert b == b[..j] + [x] + b[j + 1..];
    assert a == a[..|a| - 1] + [x];
    assert multiset(a[..|a| - 1]) == multiset(a) - multiset{x};
    assert multiset(b[..j] + b[j + 1..]) == multiset(b) - multiset{x};
  }

  /** Gathering through two orderings of the same positions gives the same
      values up to order. */
  lemma {:induction false} GatherPermutation<T>(values: seq<T>, a: seq<nat>, b: seq<nat>)
    requires InRange(a, |values|) && InRange(b, |values|)
    requires multiset(a) == multiset(b)
    ensures multiset(Gather(values, a)) == multiset(Gather(values, b))
    decreases |a|
  {
    if |a| > 0 {
      var x := a[|a| - 1];
      assert x in multiset(b);
      var j :| 0 <= j < |b| && b[j] == x;
      RemoveOccurrence(a, b, j);
      GatherPermutation(values, a[..|a| - 1], b[..j] + b[j + 1..]);
      GatherMiddle(values, a[..|a| - 1], x, []);
      assert a[..|a| - 1] + [x] + [] == a;
      assert a[..|a| - 1] + [] == a[..|a| - 1];
      GatherMiddle(values, b[..j], x, b[j + 1..]);
      assert b[..j] + [x] + b[j + 1..] == b;
    } else {
      assert |b| == |multiset(b)| == 0;
    }
  }

  /** Elements of an index sequence with pairwise distinct entries. */
  predicate Distinct(s: seq<nat>)
  {
    forall i, j :: 0 <= i < j < |s| ==> s[i] != s[j]
  }

  /** `s` lists every value of `0..n-1` exactly once. */
  predicate IsPermutation(s: seq<nat>, n: nat)
  {
    |s| == n && InRange(s, n) && Distinct(s)
  }

  function Swap<T>(s: seq<T>, i: nat, j: nat): (r: seq<T>)
    requires i < |s| && j < |s|
    ensures |r| == |s| && r[i] == s[j] && r[j] == s[i]
    ensures forall k :: 0 <= k < |s| && k != i && k != j ==> r[k] == s[k]
    ensures multiset(r) == multiset(s)
  {
    s[i := s[j]][j := s[i]]
  }

  /** Positions drawn from an in-range list stay in range. */
  lemma InRangeSubMultiset(a: seq<nat>, b: seq<nat>, n: nat)
    requires multiset(a) <= multiset(b) && InRange(b, n)
    ensures InRange(a, n)
  {
    forall m | 0 <= m < |a|
      ensures a[m] < n
    {
      assert a[m] in multiset(a);
      assert a[m] in multiset(b);
      var j :| 0 <= j < |b| && b[j] == a[m];
    }
  }
}

=== FILE: shuffle.dfy ===
/** Random feature subsets: `Collections.shuffle` of the feature indices
    followed by `subList(0, min(maxFeatures, d))`, as both tree learners do at
    every split search. */
module Shuffle {
  import opened Common
  import opened Seqs

  /** `Collections.shuffle(list, rnd)` on an `ArrayList`: for i from the size
      down to 2, swap positions i-1 and `rnd.nextInt(i)`. `i` is the loop
      variable; the generator is threaded through the draws. */
  function ShuffleFrom<T>(s: seq<T>, i: nat, g: Rng, nextInt: NextInt): (r: (seq<T>, Rng))
    requires i <= |s|
    requires ValidNextInt(nextInt)
    ensures |r.0| == |s| && multiset(r.0) == multiset(s)
    decreases i
  {
    if i <= 1 then (s, g)
    else
      var (j, g') := nextInt(g, i);
      ShuffleFrom(Swap(s, i - 1, j), i - 1, g', nextInt)
  }

  function ShuffleList<T>(s: seq<T>, g: Rng, nextInt: NextInt): (r: (seq<T>, Rng))
    requires ValidNextInt(nextInt)
    ensures |r.0| == |s| && multiset(r.0) == multiset(s)
  {
    ShuffleFrom(s, |s|, g, nextInt)
  }

  lemma {:induction false} DistinctOccursOnce(s: seq<nat>, x: nat)
    requires Distinct(s)
    ensures multiset(s)[x] <= 1
    decreases |s|
  {
    if |s| > 0 {
      var s', y := s[..|s| - 1], s[|s| - 1];
      assert s == s' + [y];
      assert y !in s' by {
        assert forall q :: 0 <= q < |s'| ==> s'[q] == s[q] != s[|s| - 1];
      }
      DistinctOccursOnce(s', x);
    }
  }

  lemma RepeatOccursTwice(t: seq<nat>, i: nat, j: nat)
    requires i < j < |t|
    ensures t[i] == t[j] ==> multiset(t)[t[i]] >= 2
  {
    assert t == t[..i] + [t[i]] + t[i + 1..j] + [t[j]] + t[j + 1..];
  }

  /** A reordering of a duplicate-free sequence is duplicate-free. */
  lemma PermutationKeepsDistinct(s: seq<nat>, t: seq<nat>)
    requires multiset(s) == multiset(t) && Distinct(s)
    ensures Distinct(t)
  {
    forall i, j | 0 <= i < j < |t|
      ensures t[i] != t[j]
    {
      DistinctOccursOnce(s, t[i]);
      RepeatOccursTwice(t, i, j);
    }
  }

  /** The candidate features of one split search: the first
      `min(maxFeatures, d)` entries of a shuffle of `0..d-1`. They are
      distinct feature indices, as many as asked for when `d` allows. */
  function CandidateFeatures(d: nat, maxFeatures: nat, g: Rng, nextInt: NextInt): (r: (seq<nat>, Rng))
    requires ValidNextInt(nextInt)
    ensures |r.0| == if maxFeatures < d then maxFeatures else d
    ensures InRange(r.0, d) && Distinct(r.0)
  {
    var (perm, g') := ShuffleList(Range(d), g, nextInt);
    PermutationKeepsDistinct(Range(d), perm);
    assert forall k :: 0 <= k < d ==> perm[k] in multiset(Range(d));
    var m := if maxFeatures < d then maxFeatures else d;
    (perm[..m], g')
  }
}

=== FILE: split_search.dfy ===
/** The split search both tree learners run (`findBestSplit` in
    DecisionTreeClassifier and GradientTree): for each candidate feature in
    turn, sort the node's index list by that feature and sweep the cut
    positions, keeping a split only when its gain strictly beats the best gain
    so far, which starts at 0. The learners differ only in how the gain of a
    cut is computed, so that computation is a parameter here. */
module SplitSearch {
  import opened Common
  import opened Seqs
  import opened Splitting

  /** The `Split` record: feature, threshold, and the gain it was found with. */
  datatype Split = Split(feature: nat, threshold: int, gain: real)

  /** The gains of a learner for a sorted index list: entry i is the gain of
      sending `s[..i+1]` left and `s[i+1..]` right. */
  type PrefixGains = seq<nat> -> seq<real>

  /** The gain of splitting the node's own samples on feature f at threshold v,
      computed from scratch; the reference the sweep is proved against. */
  type ThresholdGains = (nat, int) -> real

  /** The inner loop of `findBestSplit` for one feature, from position i on.
      The Java skips a position when the value equals the next one or a side
      would fall below `minSamplesLeaf`; otherwise a strictly larger gain
      replaces the best, with the value at i as threshold. */
  function ScanFeature(features: seq<seq<int>>, f: nat, s: seq<nat>, minLeaf: int,
                       gains: seq<real>, i: nat, best: Option<Split>, bestGain: real): (r: (Option<Split>, real))
    requires |s| <= |gains| + 1 && i <= |s|
    decreases |s| - i
  {
    if i + 1 >= |s| then (best, bestGain)
    else if BoundaryAt(features, f, s, i, minLeaf) && gains[i] > bestGain then
      ScanFeature(features, f, s, minLeaf, gains, i + 1, Some(Split(f, Value(features, f, s[i]), gains[i])), gains[i])
    else
      ScanFeature(features, f, s, minLeaf, gains, i + 1, best, bestGain)
  }

  /** The outer loop: sort the current order by the next candidate (the Java
      sorts the caller's list in place, so each sort starts from the previous
      one) and sweep it. Returns the best split, its gain and the final order. */
  function SearchFeatures(features: seq<seq<int>>, minLeaf: int, gainsOf: PrefixGains, cands: seq<nat>,
                          order: seq<nat>, best: Option<Split>, bestGain: real): (r: (Option<Split>, real, seq<nat>))
    requires forall s: seq<nat> :: multiset(s) == multiset(order) ==> |s| <= |gainsOf(s)| + 1
    ensures |r.2| == |order| && multiset(r.2) == multiset(order)
    decreases |cands|
  {
    if |cands| == 0 then (best, bestGain, order)
    else
      var f := cands[0];
      var sorted := SortByFeature(features, f, order);
      var (b, g) := ScanFeature(features, f, sorted, minLeaf, gainsOf(sorted), 0, best, bestGain);
      SearchFeatures(features, minLeaf, gainsOf, cands[1..], sorted, b, g)
  }

  /** Every admissible threshold of feature f at or above `lo` gains at most g. */
  ghost predicate Dominates(features: seq<seq<int>>, idx: seq<nat>, minLeaf: int, gainOf: ThresholdGains,
                            f: nat, lo: int, g: real)
  {
    forall v :: lo <= v && Admissible(features, f, idx, v, minLeaf) ==> gainOf(f, v) <= g
  }

  /** `sp` is an admissible split at or above `lo`, found with its true gain,
      which beats `floor` and every admissible threshold of its feature between
      `lo` and its own threshold. */
  ghost predicate FirstFrom(features: seq<seq<int>>, idx: seq<nat>, minLeaf: int, gainOf: ThresholdGains,
                            lo: int, sp: Split, floor: real)
  {
    && lo <= sp.threshold
    && Admissible(features, sp.feature, idx, sp.threshold, minLeaf)
    && sp.gain == gainOf(sp.feature, sp.threshold)
    && sp.gain > floor
    && forall v :: lo <= v < sp.threshold && Admissible(features, sp.feature, idx, v, minLeaf) ==>
         gainOf(sp.feature, v) < sp.gain
  }

  /** Every admissible threshold of feature f gains at most g. */
  ghost predicate DominatesAll(features: seq<seq<int>>, idx: seq<nat>, minLeaf: int, gainOf: ThresholdGains,
                               f: nat, g: real)
  {
    forall v :: Admissible(features, f, idx, v, minLeaf) ==> gainOf(f, v) <= g
  }

  /** `sp` is an admissible split found with its true gain, which beats
      `floor` and every lower admissible threshold of its feature. */
  ghost predicate FirstOf(features: seq<seq<int>>, idx: seq<nat>, minLeaf: int, gainOf: ThresholdGains,
                          sp: Split, floor: real)
  {
    && Admissible(features, sp.feature, idx, sp.threshold, minLeaf)
    && sp.gain == gainOf(sp.feature, sp.threshold)
    && sp.gain > floor
    && forall v :: v < sp.threshold && Admissible(features, sp.feature, idx, v, minLeaf) ==>
         gainOf(sp.feature, v) < sp.gain
  }

  /** `sp` is what the search over `cands` reports when it beats `floor`: an
      admissible split on a candidate, with its true gain, strictly better than
      every lower threshold of its feature and every threshold of an earlier
      candidate. */
  ghost predicate Chosen(features: seq<seq<int>>, idx: seq<nat>, minLeaf: int, gainOf: ThresholdGains,
                         cands: seq<nat>, sp: Split, floor: real)
  {
    && sp.feature in cands
    && FirstOf(features, idx, minLeaf, gainOf, sp, floor)
    && (forall q, q', v ::
          (0 <= q < q' < |cands| && cands[q'] == sp.feature && Admissible(features, cands[q], idx, v, minLeaf))
          ==> gainOf(cands[q], v) < sp.gain)
  }

  /** What the sweep of feature f from a position whose value is `lo`, started
      from (best, bestGain), may report as (r, rg): a gain no lower than the
      start, carried by the split, bounding every admissible threshold at or
      above `lo`; and either the start unchanged or a split on f that is the
      first threshold from `lo` of strictly greatest gain. */
  ghost predicate SweptFrom(features: seq<seq<int>>, idx: seq<nat>, minLeaf: int, gainOf: ThresholdGains,
                            f: nat, lo: int, best: Option<Split>, bestGain: real, r: Option<Split>, rg: real)
  {
    && rg >= bestGain
    && (r.Some? ==> r.value.gain == rg)
    && Dominates(features, idx, minLeaf, gainOf, f, lo, rg)
    && ((r == best && rg == bestGain)
        || (r.Some? && r.value.feature == f && FirstFrom(features, idx, minLeaf, gainOf, lo, r.value, bestGain)))
  }

  /** The sweep of one feature finds the first threshold of strictly greatest
      gain among those at or above the value at i, when that gain beats the
      best so far, and otherwise leaves the best unchanged. */
  lemma {:induction false} ScanFeatureCorrect(features: seq<seq<int>>, f: nat, idx: seq<nat>, s: seq<nat>, minLeaf: int,
                                              gains: seq<real>, gainOf: ThresholdGains, i: nat,
                                              best: Option<Split>, bestGain: real)
    requires SortedBy(features, f, s) && multiset(s) == multiset(idx)
    requires i < |s| && |s| <= |gains| + 1
    requires forall j :: i <= j && BoundaryAt(features, f, s, j, minLeaf) ==>
      gains[j] == gainOf(f, Value(features, f, s[j]))
    requires best.Some? ==> best.value.gain == bestGain
    ensures var r := ScanFeature(features, f, s, minLeaf, gains, i, best, bestGain);
      SweptFrom(features, idx, minLeaf, gainOf, f, Value(features, f, s[i]), best, bestGain, r.0, r.1)
    decreases |s| - i
  {
    var vi := Value(features, f, s[i]);
    if i + 1 >= |s| {
      forall v | vi <= v
        ensures !Admissible(features, f, idx, v, minLeaf)
      {
        AdmissiblePermutation(features, f, s, idx, v, minLeaf);
        SweepEnd(features, f, s, v, minLeaf);
      }
    } else {
      var atVi := BoundaryAt(features, f, s, i, minLeaf);
      var taken := atVi && gains[i] > bestGain;
      var best', bestGain' := if taken then Some(Split(f, vi, gains[i])) else best, if taken then gains[i] else bestGain;
      ScanFeatureCorrect(features, f, idx, s, minLeaf, gains, gainOf, i + 1, best', bestGain');
      var r := ScanFeature(features, f, s, minLeaf, gains, i + 1, best', bestGain');
      assert r == ScanFeature(features, f, s, minLeaf, gains, i, best, bestGain);
      var vn := Value(features, f, s[i + 1]);
      assert InOrder(features, f, s, i, i + 1);
      if atVi {
        BoundaryPartition(features, f, s, i, minLeaf);
        AdmissiblePermutation(features, f, s, idx, vi, minLeaf);
      }
      forall v | vi <= v && Admissible(features, f, idx, v, minLeaf)
        ensures (v == vi && atVi) || vn <= v
      {
        AdmissiblePermutation(features, f, s, idx, v, minLeaf);
        SweepCovers(features, f, s, i, v, minLeaf);
      }
      ScanStep(features, idx, minLeaf, gainOf, f, vi, vn, atVi, gains[i], best, bestGain, r.0, r.1);
    }
  }

  /** One position of the sweep: from value `vi`, where a boundary proposes
      gain `gi` exactly when `atVi`, to the next value `vn`, with every
      admissible threshold from `vi` on being `vi` itself or at least `vn`. */
  lemma ScanStep(features: seq<seq<int>>, idx: seq<nat>, minLeaf: int, gainOf: ThresholdGains, f: nat,
                 vi: int, vn: int, atVi: bool, gi: real, best: Option<Split>, bestGain: real, r: Option<Split>, rg: real)
    requires vi <= vn
    requires atVi ==> vi < vn && Admissible(features, f, idx, vi, minLeaf) && gi == gainOf(f, vi)
    requires forall v :: vi <= v && Admissible(features, f, idx, v, minLeaf) ==> (v == vi && atVi) || vn <= v
    requires best.Some? ==> best.value.gain == bestGain
    requires var taken := atVi && gi > bestGain;
      SweptFrom(features, idx, minLeaf, gainOf, f, vn, if taken then Some(Split(f, vi, gi)) else best,
                if taken then gi else bestGain, r, rg)
    ensures SweptFrom(features, idx, minLeaf, gainOf, f, vi, best, bestGain, r, rg)
  {
    var taken := atVi && gi > bestGain;
    var best', bestGain' := if taken then Some(Split(f, vi, gi)) else best, if taken then gi else bestGain;
    if r != best' || rg != bestGain' {
      assert FirstFrom(features, idx, minLeaf, gainOf, vn, r.value, bestGain');
    } else if taken {
      assert FirstFrom(features, idx, minLeaf, gainOf, vi, r.value, bestGain);
    }
  }

  /** The sweep of one whole feature, from the first sorted position: its
      gain bounds every admissible threshold of the feature, and a new best is
      the first threshold of strictly greatest gain. */
  lemma FeatureSweepCorrect(features: seq<seq<int>>, f: nat, idx: seq<nat>, s: seq<nat>, minLeaf: int,
                            gains: seq<real>, gainOf: ThresholdGains, best: Option<Split>, bestGain: real)
    requires SortedBy(features, f, s) && multiset(s) == multiset(idx)
    requires |s| <= |gains| + 1
    requires forall j: nat :: BoundaryAt(features, f, s, j, minLeaf) ==>
      gains[j] == gainOf(f, Value(features, f, s[j]))
    requires best.Some? ==> best.value.gain == bestGain
    ensures var r := ScanFeature(features, f, s, minLeaf, gains, 0, best, bestGain);
      && r.1 >= bestGain
      && (r.0.Some? ==> r.0.value.gain == r.1)
      && DominatesAll(features, idx, minLeaf, gainOf, f, r.1)
      && ((r.0 == best && r.1 == bestGain)
          || (r.0.Some? && r.0.value.feature == f && FirstOf(features, idx, minLeaf, gainOf, r.0.value, bestGain)))
  {
    if |s| == 0 {
      forall v ensures !Admissible(features, f, idx, v, minLeaf) {
        AdmissiblePermutation(features, f, s, idx, v, minLeaf);
      }
    } else {
      var lo := Value(features, f, s[0]);
      ScanFeatureCorrect(features, f, idx, s, minLeaf, gains, gainOf, 0, best, bestGain);
      forall v | Admissible(features, f, idx, v, minLeaf)
        ensures lo <= v
      {
        AdmissiblePermutation(features, f, s, idx, v, minLeaf);
        AdmissibleAboveFirst(features, f, s, v, minLeaf);
      }
    }
  }

  /** What a search over `cands` that started from (best, bestGain) may
      report as (r, rg): a gain no lower than the start, carried by the split,
      bounding every admissible threshold of every candidate; and either the
      start unchanged or a split chosen as the first of strictly greatest gain. */
  ghost predicate Reported(features: seq<seq<int>>, idx: seq<nat>, minLeaf: int, gainOf: ThresholdGains,
                           cands: seq<nat>, best: Option<Split>, bestGain: real, r: Option<Split>, rg: real)
  {
    && rg >= bestGain
    && (r.Some? ==> r.value.gain == rg)
    && (forall q, v :: 0 <= q < |cands| && Admissible(features, cands[q], idx, v, minLeaf) ==>
          gainOf(cands[q], v) <= rg)
    && ((r == best && rg == bestGain) || (r.Some? && Chosen(features, idx, minLeaf, gainOf, cands, r.value, bestGain)))
  }

  /** The learner's prefix gains of any ordering of the node's samples cover
      its cut positions, and at a boundary of a sorted ordering they are the
      gains of the threshold computed from scratch. */
  ghost predicate GainsAgree(features: seq<seq<int>>, idx: seq<nat>, minLeaf: int,
                             gainsOf: PrefixGains, gainOf: ThresholdGains)
  {
    && (forall s: seq<nat> :: multiset(s) == multiset(idx) ==> |s| <= |gainsOf(s)| + 1)
    && (forall f: nat, s: seq<nat>, j: nat ::
          (multiset(s) == multiset(idx) && SortedBy(features, f, s) && BoundaryAt(features, f, s, j, minLeaf))
          ==> gainsOf(s)[j] == gainOf(f, Value(features, f, s[j])))
  }

  /** The whole search over the candidates: the reported gain bounds every
      admissible threshold of every candidate, and a reported split is the
      first of strictly greatest gain in search order. */
  lemma {:induction false} SearchFeaturesCorrect(features: seq<seq<int>>, idx: seq<nat>, minLeaf: int,
                                                 gainsOf: PrefixGains, gainOf: ThresholdGains, cands: seq<nat>,
                                                 order: seq<nat>, best: Option<Split>, bestGain: real)
    requires multiset(order) == multiset(idx)
    requires GainsAgree(features, idx, minLeaf, gainsOf, gainOf)
    requires Distinct(cands)
    requires best.Some? ==> best.value.gain == bestGain
    ensures var r := SearchFeatures(features, minLeaf, gainsOf, cands, order, best, bestGain);
      Reported(features, idx, minLeaf, gainOf, cands, best, bestGain, r.0, r.1)
    decreases |cands|
  {
    if |cands| == 0 {
      assert SearchFeatures(features, minLeaf, gainsOf, cands, order, best, bestGain) == (best, bestGain, order);
    } else {
      var f := cands[0];
      var sorted := SortByFeature(features, f, order);
      var bg := ScanFeature(features, f, sorted, minLeaf, gainsOf(sorted), 0, best, bestGain);
      FirstSweepCorrect(features, idx, minLeaf, gainsOf, gainOf, f, order, best, bestGain);
      var rest := cands[1..];
      var r := SearchFeatures(features, minLeaf, gainsOf, rest, sorted, bg.0, bg.1);
      assert r == SearchFeatures(features, minLeaf, gainsOf, cands, order, best, bestGain);
      SearchFeaturesCorrect(features, idx, minLeaf, gainsOf, gainOf, rest, sorted, bg.0, bg.1);
      SearchStep(features, idx, minLeaf, gainOf, cands, best, bestGain, bg.0, bg.1, r.0, r.1);
    }
  }

  /** The sweep of one candidate over the current order sorted by it, with
      the learner's prefix gains, reports as a search over that candidate alone. */
  lemma FirstSweepCorrect(features: seq<seq<int>>, idx: seq<nat>, minLeaf: int, gainsOf: PrefixGains,
                          gainOf: ThresholdGains, f: nat, order: seq<nat>, best: Option<Split>, bestGain: real)
    requires multiset(order) == multiset(idx)
    requires GainsAgree(features, idx, minLeaf, gainsOf, gainOf)
    requires best.Some? ==> best.value.gain == bestGain
    ensures multiset(SortByFeature(features, f, order)) == multiset(idx)
    ensures |SortByFeature(features, f, order)| <= |gainsOf(SortByFeature(features, f, order))| + 1
    ensures var sorted := SortByFeature(features, f, order);
      var r := ScanFeature(features, f, sorted, minLeaf, gainsOf(sorted), 0, best, bestGain);
      Reported(features, idx, minLeaf, gainOf, [f], best, bestGain, r.0, r.1)
  {
    var sorted := SortByFeature(features, f, order);
    var gains := gainsOf(sorted);
    assert forall j: nat :: BoundaryAt(features, f, sorted, j, minLeaf) ==>
      gains[j] == gainOf(f, Value(features, f, sorted[j]));
    FeatureSweepCorrect(features, f, idx, sorted, minLeaf, gains, gainOf, best, bestGain);
  }

  /** Combining the sweep of the first candidate (result b, g) with the search
      over the others (result r, rg). */
  lemma SearchStep(features: seq<seq<int>>, idx: seq<nat>, minLeaf: int, gainOf: ThresholdGains, cands: seq<nat>,
                   best: Option<Split>, bestGain: real, b: Option<Split>, g: real, r: Option<Split>, rg: real)
    requires |cands| > 0 && Distinct(cands)
    requires Reported(features, idx, minLeaf, gainOf, [cands[0]], best, bestGain, b, g)
    requires Reported(features, idx, minLeaf, gainOf, cands[1..], b, g, r, rg)
    ensures Reported(features, idx, minLeaf, gainOf, cands, best, bestGain, r, rg)
  {
    var f, rest := cands[0], cands[1..];
    assert f !in rest;
    forall q, v | 0 <= q < |cands| && Admissible(features, cands[q], idx, v, minLeaf)
      ensures gainOf(cands[q], v) <= rg
    {
      if q > 0 {
        assert rest[q - 1] == cands[q];
      } else {
        assert [f][0] == f;
      }
    }
    if r != b || rg != g {
      var sp := r.value;
      assert Chosen(features, idx, minLeaf, gainOf, rest, sp, g);
      forall q, q', v | 0 <= q < q' < |cands| && cands[q'] == sp.feature && Admissible(features, cands[q], idx, v, minLeaf)
        ensures gainOf(cands[q], v) < sp.gain
      {
        assert rest[q' - 1] == cands[q'];
        if q > 0 {
          assert rest[q - 1] == cands[q];
        } else {
          assert [f][0] == f;
        }
      }
    } else if b != best || g != bestGain {
      var sp := b.value;
      assert Chosen(features, idx, minLeaf, gainOf, [cands[0]], sp, bestGain);
    }
  }
}

=== FILE: splitting.dfy ===
/** Machinery shared by the two split searches (DecisionTreeClassifier and
    GradientTree): sorting an index list by one feature, partitioning it by a
    threshold, and which thresholds a sweep over the sorted list can propose. */
module Splitting {
  import opened Common
  import opened Seqs

  /** Every row has the same width `d` (the Java reads `features[0].length`). */
  predicate Rectangular(features: seq<seq<int>>, d: nat)
  {
    forall i :: 0 <= i < |features| ==> |features[i]| == d
  }

  /** `features[0].length`, the number of features. */
  function Width(features: seq<seq<int>>): nat
  {
    if |features| == 0 then 0 else |features[0]|
  }

  /** `features[x][f]`; the guards hold wherever the learners read it. */
  function Value(features: seq<seq<int>>, f: nat, x: nat): int
  {
    if x < |features| && f < |features[x]| then features[x][f] else 0
  }

  /** Positions i and j of `s` are in order of feature f. */
  predicate InOrder(features: seq<seq<int>>, f: nat, s: seq<nat>, i: nat, j: nat)
    requires i < |s| && j < |s|
  {
    Value(features, f, s[i]) <= Value(features, f, s[j])
  }

  /** `s` is sorted by feature f. The pairwise fact is only drawn for the
      positions a proof names through `InOrder`. */
  predicate SortedBy(features: seq<seq<int>>, f: nat, s: seq<nat>)
  {
    forall i: nat, j: nat {:trigger InOrder(features, f, s, i, j)} :: i < j < |s| ==> InOrder(features, f, s, i, j)
  }

  /** Insertion into a sorted list, before the first element whose value is
      not smaller, so that equal values keep their input order. */
  function Insert(features: seq<seq<int>>, f: nat, x: nat, s: seq<nat>): (r: seq<nat>)
    requires SortedBy(features, f, s)
    ensures SortedBy(features, f, r)
    ensures |r| == |s| + 1 && multiset(r) == multiset(s) + multiset{x}
    ensures forall k :: 0 <= k < |r| ==> r[k] == x || r[k] in s
  {
    if |s| == 0 then [x]
    else if Value(features, f, x) <= Value(features, f, s[0]) then
      var r := [x] + s;
      assert SortedBy(features, f, r) by {
        forall i: nat, j: nat | i < j < |r| ensures InOrder(features, f, r, i, j) {
          if i > 0 {
            assert InOrder(features, f, s, i - 1, j - 1);
          } else {
            assert InOrder(features, f, s, 0, j - 1);
          }
        }
      }
      r
    else
      assert SortedBy(features, f, s[1..]) by {
        forall i: nat, j: nat | i < j < |s[1..]| ensures InOrder(features, f, s[1..], i, j) {
          assert InOrder(features, f, s, i + 1, j + 1);
        }
      }
      var t := Insert(features, f, x, s[1..]);
      assert multiset(s) == multiset{s[0]} + multiset(s[1..]) by {
        assert s == [s[0]] + s[1..];
      }
      assert forall k :: 0 <= k < |t| ==> Value(features, f, s[0]) <= Value(features, f, t[k]) by {
        forall k | 0 <= k < |t|
          ensures Value(features, f, s[0]) <= Value(features, f, t[k])
        {
          if t[k] != x {
            var m :| 0 <= m < |s[1..]| && s[1..][m] == t[k];
            assert s[m + 1] == t[k];
            assert InOrder(features, f, s, 0, m + 1);
          }
        }
      }
      var r := [s[0]] + t;
      assert SortedBy(features, f, r) by {
        forall i: nat, j: nat | i < j < |r| ensures InOrder(features, f, r, i, j) {
          if i > 0 {
            assert InOrder(features, f, t, i - 1, j - 1);
          }
        }
      }
      r
  }

  /** `indices.sort((a, b) -> Integer.compare(features[a][f], features[b][f]))`:
      a stable sort by the value of feature f. */
  function SortByFeature(features: seq<seq<int>>, f: nat, s: seq<nat>): (r: seq<nat>)
    ensures SortedBy(features, f, r)
    ensures |r| == |s| && multiset(r) == multiset(s)
  {
    if |s| == 0 then []
    else
      assert s == [s[0]] + s[1..];
      Insert(features, f, s[0], SortByFeature(features, f, s[1..]))
  }

  predicate GoesLeft(features: seq<seq<int>>, f: nat, threshold: int, x: nat)
  {
    Value(features, f, x) <= threshold
  }

  /** The partition loop of `buildNode`: each index, in list order, goes left
      when `features[i][f] <= threshold` and right otherwise. */
  function Partition(features: seq<seq<int>>, f: nat, threshold: int, s: seq<nat>): (r: (seq<nat>, seq<nat>))
    ensures |r.0| + |r.1| == |s|
    ensures multiset(r.0) + multiset(r.1) == multiset(s)
    ensures forall k :: 0 <= k < |r.0| ==> GoesLeft(features, f, threshold, r.0[k])
    ensures forall k :: 0 <= k < |r.1| ==> !GoesLeft(features, f, threshold, r.1[k])
  {
    if |s| == 0 then ([], [])
    else
      var x := s[|s| - 1];
      assert s == s[..|s| - 1] + [x];
      var (l, r) := Partition(features, f, threshold, s[..|s| - 1]);
      if GoesLeft(features, f, threshold, x) then (l + [x], r) else (l, r + [x])
  }

  /** Each side holds every listed index that belongs to it, as often as it is listed. */
  lemma {:induction false} PartitionCounts(features: seq<seq<int>>, f: nat, threshold: int, s: seq<nat>)
    ensures forall x :: (multiset(Partition(features, f, threshold, s).0)[x]
      == if GoesLeft(features, f, threshold, x) then multiset(s)[x] else 0)
    ensures forall x :: (multiset(Partition(features, f, threshold, s).1)[x]
      == if GoesLeft(features, f, threshold, x) then 0 else multiset(s)[x])
    decreases |s|
  {
    if |s| > 0 {
      var x := s[|s| - 1];
      assert s == s[..|s| - 1] + [x];
      PartitionCounts(features, f, threshold, s[..|s| - 1]);
    }
  }

  /** The sides of a partition depend only on which indices are partitioned,
      not on their order. */
  lemma PartitionPermutation(features: seq<seq<int>>, f: nat, threshold: int, a: seq<nat>, b: seq<nat>)
    requires multiset(a) == multiset(b)
    ensures multiset(Partition(features, f, threshold, a).0) == multiset(Partition(features, f, threshold, b).0)
    ensures multiset(Partition(features, f, threshold, a).1) == multiset(Partition(features, f, threshold, b).1)
    ensures |Partition(features, f, threshold, a).0| == |Partition(features, f, threshold, b).0|
    ensures |Partition(features, f, threshold, a).1| == |Partition(features, f, threshold, b).1|
  {
    var pa, pb := Partition(features, f, threshold, a), Partition(features, f, threshold, b);
    PartitionCounts(features, f, threshold, a);
    PartitionCounts(features, f, threshold, b);
    assert multiset(pa.0) == multiset(pb.0);
    assert multiset(pa.1) == multiset(pb.1);
    assert |pa.0| == |multiset(pa.0)| == |multiset(pb.0)| == |pb.0|;
    assert |pa.1| == |multiset(pa.1)| == |multiset(pb.1)| == |pb.1|;
  }

  lemma {:induction false} PartitionAllLeft(features: seq<seq<int>>, f: nat, threshold: int, s: seq<nat>)
    requires forall k :: 0 <= k < |s| ==> GoesLeft(features, f, threshold, s[k])
    ensures Partition(features, f, threshold, s) == (s, [])
    decreases |s|
  {
    if |s| > 0 {
      var s' := s[..|s| - 1];
      assert forall k :: 0 <= k < |s'| ==> s'[k] == s[k];
      PartitionAllLeft(features, f, threshold, s');
      assert s' + [s[|s| - 1]] == s;
    }
  }

  /** A list whose first m elements go left and the rest right is cut at m. */
  lemma {:induction false} PartitionOfCut(features: seq<seq<int>>, f: nat, threshold: int, s: seq<nat>, m: nat)
    requires m <= |s|
    requires forall k :: 0 <= k < m ==> GoesLeft(features, f, threshold, s[k])
    requires forall k :: m <= k < |s| ==> !GoesLeft(features, f, threshold, s[k])
    ensures Partition(features, f, threshold, s) == (s[..m], s[m..])
    decreases |s|
  {
    if m == |s| {
      assert s[..m] == s && s[m..] == [];
      PartitionAllLeft(features, f, threshold, s);
    } else {
      var s', x := s[..|s| - 1], s[|s| - 1];
      assert s == s' + [x];
      assert Partition(features, f, threshold, s') == (s'[..m], s'[m..]) by {
        assert forall k :: 0 <= k < |s'| ==> s'[k] == s[k];
        PartitionOfCut(features, f, threshold, s', m);
      }
      assert !GoesLeft(features, f, threshold, x);
      assert s'[m..] + [x] == s[m..];
      assert s'[..m] == s[..m];
    }
  }

  /** The split test of both sweeps at sorted position i: the values at i and
      i+1 differ, and both sides keep at least `minLeaf` samples. */
  predicate BoundaryAt(features: seq<seq<int>>, f: nat, s: seq<nat>, i: nat, minLeaf: int)
  {
    && i + 1 < |s|
    && Value(features, f, s[i]) != Value(features, f, s[i + 1])
    && i + 1 >= minLeaf
    && |s| - (i + 1) >= minLeaf
  }

  /** `v` is the value of feature f at one of the listed samples. */
  ghost predicate IsValueAt(features: seq<seq<int>>, f: nat, s: seq<nat>, v: int)
  {
    exists k :: 0 <= k < |s| && Value(features, f, s[k]) == v
  }

  /** The thresholds a sweep may propose, stated on the index set itself:
      a sample value that leaves at least `minLeaf` samples, and at least one,
      on either side. */
  ghost predicate Admissible(features: seq<seq<int>>, f: nat, s: seq<nat>, v: int, minLeaf: int)
  {
    var p := Partition(features, f, v, s);
    && IsValueAt(features, f, s, v)
    && |p.0| > 0
    && |p.1| > 0
    && |p.0| >= minLeaf
    && |p.1| >= minLeaf
  }

  lemma IsValueAtPermutation(features: seq<seq<int>>, f: nat, a: seq<nat>, b: seq<nat>, v: int)
    requires multiset(a) == multiset(b)
    ensures IsValueAt(features, f, a, v) <==> IsValueAt(features, f, b, v)
  {
    if IsValueAt(features, f, a, v) {
      var k :| 0 <= k < |a| && Value(features, f, a[k]) == v;
      assert a[k] in multiset(b);
      var m :| 0 <= m < |b| && b[m] == a[k];
    }
    if IsValueAt(features, f, b, v) {
      var k :| 0 <= k < |b| && Value(features, f, b[k]) == v;
      assert b[k] in multiset(a);
      var m :| 0 <= m < |a| && a[m] == b[k];
    }
  }

  lemma AdmissiblePermutation(features: seq<seq<int>>, f: nat, a: seq<nat>, b: seq<nat>, v: int, minLeaf: int)
    requires multiset(a) == multiset(b)
    ensures Admissible(features, f, a, v, minLeaf) <==> Admissible(features, f, b, v, minLeaf)
  {
    IsValueAtPermutation(features, f, a, b, v);
    PartitionPermutation(features, f, v, a, b);
  }

  /** In a sorted list the value at i bounds the values before it from above
      and the values after it from below. */
  lemma SortedAround(features: seq<seq<int>>, f: nat, s: seq<nat>, i: nat)
    requires SortedBy(features, f, s) && i < |s|
    ensures forall k :: 0 <= k <= i ==> Value(features, f, s[k]) <= Value(features, f, s[i])
    ensures forall k :: i <= k < |s| ==> Value(features, f, s[i]) <= Value(features, f, s[k])
  {
    forall k | 0 <= k < i ensures Value(features, f, s[k]) <= Value(features, f, s[i]) {
      assert InOrder(features, f, s, k, i);
    }
    forall k | i < k < |s| ensures Value(features, f, s[i]) <= Value(features, f, s[k]) {
      assert InOrder(features, f, s, i, k);
    }
  }

  /** At a boundary of a sorted list, the partition by the value at i is the
      cut after i, and that value is an admissible threshold. */
  lemma BoundaryPartition(features: seq<seq<int>>, f: nat, s: seq<nat>, i: nat, minLeaf: int)
    requires SortedBy(features, f, s) && BoundaryAt(features, f, s, i, minLeaf)
    ensures Partition(features, f, Value(features, f, s[i]), s) == (s[..i + 1], s[i + 1..])
    ensures Admissible(features, f, s, Value(features, f, s[i]), minLeaf)
  {
    var v := Value(features, f, s[i]);
    SortedAround(features, f, s, i);
    SortedAround(features, f, s, i + 1);
    PartitionOfCut(features, f, v, s, i + 1);
  }

  /** The sweep visits the admissible thresholds in increasing order: one
      that is at least the value at i is either the value at i, proposed at a
      boundary at i, or at least the value at i+1. */
  lemma SweepCovers(features: seq<seq<int>>, f: nat, s: seq<nat>, i: nat, v: int, minLeaf: int)
    requires SortedBy(features, f, s) && i + 1 < |s|
    requires Admissible(features, f, s, v, minLeaf) && v >= Value(features, f, s[i])
    ensures (v == Value(features, f, s[i]) && BoundaryAt(features, f, s, i, minLeaf))
         || v >= Value(features, f, s[i + 1])
  {
    var vi := Value(features, f, s[i]);
    var k :| 0 <= k < |s| && Value(features, f, s[k]) == v;
    SortedAround(features, f, s, i);
    SortedAround(features, f, s, i + 1);
    if v > vi {
      assert k > i;
    } else if Value(features, f, s[i + 1]) != vi {
      PartitionOfCut(features, f, v, s, i + 1);
    }
  }

  /** No admissible threshold lies at or above the largest value. */
  lemma SweepEnd(features: seq<seq<int>>, f: nat, s: seq<nat>, v: int, minLeaf: int)
    requires SortedBy(features, f, s) && |s| > 0
    requires v >= Value(features, f, s[|s| - 1])
    ensures !Admissible(features, f, s, v, minLeaf)
  {
    var p := Partition(features, f, v, s);
    PartitionCounts(features, f, v, s);
    forall x ensures multiset(p.1)[x] == 0 {
      if x in s {
        var k :| 0 <= k < |s| && s[k] == x;
        SortedAround(features, f, s, |s| - 1);
      }
    }
    assert multiset(p.1) == multiset{};
  }

  /** Every admissible threshold is at least the smallest value of a sorted list. */
  lemma AdmissibleAboveFirst(features: seq<seq<int>>, f: nat, s: seq<nat>, v: int, minLeaf: int)
    requires SortedBy(features, f, s) && Admissible(features, f, s, v, minLeaf)
    ensures |s| > 0 && v >= Value(features, f, s[0])
  {
    var k :| 0 <= k < |s| && Value(features, f, s[k]) == v;
    SortedAround(features, f, s, 0);
  }
}

=== FILE: stump.dfy ===
/** `SimpleDecisionTreeClassifier`: a one-level decision stump. Training draws
    `min(d, 10)` (feature, sample) pairs from a fresh generator, takes the
    sample's value of the feature as a threshold, and keeps the candidate of
    strictly lowest weighted Gini, starting from the Gini of all labels with
    feature 0, threshold 0 and the overall majority on both sides. */
module DecisionStump {
  import opened Common
  import opened Seqs
  import opened Impurity
  import opened Splitting

  /** The trained fields `featureIndex`, `threshold`, `majorityClassLeft`
      and `majorityClassRight`. */
  datatype Stump = Stump(feature: nat, threshold: int, left: nat, right: nat)

  /** One drawn candidate: a feature and the threshold read from a sample. */
  datatype Candidate = Candidate(feature: nat, threshold: int)

  /** Every row is at least as wide as row 0 (`d = features[0].length`), so
      each read `features[i][f]` with `f < d` is in bounds. */
  predicate Covered(features: seq<seq<int>>)
  {
    forall i :: 0 <= i < |features| ==> |features[i]| >= Width(features)
  }

  /** What `train` needs: a first row to read `d` from, a label for every
      row, and every label a class id (`counts[l]++` fails otherwise). */
  predicate Trainable(k: nat, features: seq<seq<int>>, labels: seq<int>)
  {
    |features| > 0 && Covered(features) && |features| <= |labels| && LabelsBelow(labels, k)
  }

  /** `Math.min(d, 10)`. */
  function Tries(d: nat): nat
  {
    if d < 10 then d else 10
  }

  /** The loop's random draws: `f = rand.nextInt(d)`, then
      `idx = rand.nextInt(n)`, t times. Each threshold is the value of the
      drawn feature at one of the samples. */
  function Draws(features: seq<seq<int>>, t: nat, g: Rng, nextInt: NextInt): (r: seq<Candidate>)
    requires ValidNextInt(nextInt) && Covered(features)
    requires t > 0 ==> |features| > 0 && Width(features) > 0
    ensures |r| == t
    ensures forall j :: 0 <= j < t ==>
      r[j].feature < Width(features) && IsValueAt(features, r[j].feature, Range(|features|), r[j].threshold)
  {
    if t == 0 then []
    else
      var (f, g1) := nextInt(g, Width(features));
      var (i, g2) := nextInt(g1, |features|);
      assert Value(features, f, Range(|features|)[i]) == features[i][f];
      [Candidate(f, features[i][f])] + Draws(features, t - 1, g2, nextInt)
  }

  /** The two index lists of a candidate, in sample order: `features[i][f]
      <= threshold` goes left, the rest right. */
  function Sides(features: seq<seq<int>>, c: Candidate): (r: (seq<nat>, seq<nat>))
    ensures InRange(r.0, |features|) && InRange(r.1, |features|)
  {
    var p := Partition(features, c.feature, c.threshold, Range(|features|));
    InRangeSubMultiset(p.0, Range(|features|), |features|);
    InRangeSubMultiset(p.1, Range(|features|), |features|);
    p
  }

  /** `gini(labels)`: one minus the squared class shares, the shares taken
      over `labels.length`, which is the sum of the counts. */
  function LabelGini(labels: seq<int>, k: nat): real
    requires |labels| > 0 && LabelsBelow(labels, k)
  {
    Gini(ClassCounts(labels, k))
  }

  /** The mean of x and y weighted by a and b. */
  function Mean(a: real, b: real, x: real, y: real): real
    requires a + b != 0.0
  {
    (a * x + b * y) / (a + b)
  }

  /** `weightedGini(leftLabels, rightLabels)`: the side Ginis weighted by the
      side sizes. */
  function WeightedGini(left: seq<int>, right: seq<int>, k: nat): real
    requires |left| > 0 && |right| > 0 && LabelsBelow(left, k) && LabelsBelow(right, k)
  {
    Mean(|left| as real, |right| as real, LabelGini(left, k), LabelGini(right, k))
  }

  /** Weighting keeps the Gini range: the weighted Gini lies in [0, 1), and it
      does not depend on which side is called left. */
  lemma WeightedGiniBounds(left: seq<int>, right: seq<int>, k: nat)
    requires |left| > 0 && |right| > 0 && LabelsBelow(left, k) && LabelsBelow(right, k)
    ensures 0.0 <= WeightedGini(left, right, k) < 1.0
    ensures WeightedGini(left, right, k) == WeightedGini(right, left, k)
  {
    GiniBounds(ClassCounts(left, k));
    GiniBounds(ClassCounts(right, k));
    MeanBounds(|left| as real, |right| as real, LabelGini(left, k), LabelGini(right, k));
  }

  /** A mean of two values in [0, 1) with positive weights stays in [0, 1),
      does not depend on the order of the pairs, and is 0 when both are. */
  lemma MeanBounds(a: real, b: real, x: real, y: real)
    requires a > 0.0 && b > 0.0 && 0.0 <= x < 1.0 && 0.0 <= y < 1.0
    ensures 0.0 <= Mean(a, b, x, y) < 1.0
    ensures Mean(a, b, x, y) == Mean(b, a, y, x)
    ensures x == 0.0 && y == 0.0 ==> Mean(a, b, x, y) == 0.0
  {
    assert a * x < a by {
      assert a * (1.0 - x) > 0.0;
    }
    assert b * y < b by {
      assert b * (1.0 - y) > 0.0;
    }
    var q := (a * x + b * y) / (a + b);
    assert q * (a + b) == a * x + b * y;
  }

  /** A stump whose sides are both pure has weighted Gini 0. */
  lemma PureSidesScoreZero(left: seq<int>, right: seq<int>, k: nat)
    requires |left| > 0 && |right| > 0 && LabelsBelow(left, k) && LabelsBelow(right, k)
    requires IsPure(ClassCounts(left, k)) && IsPure(ClassCounts(right, k))
    ensures WeightedGini(left, right, k) == 0.0
  {
    GiniBounds(ClassCounts(left, k));
    GiniBounds(ClassCounts(right, k));
    MeanBounds(|left| as real, |right| as real, LabelGini(left, k), LabelGini(right, k));
  }

  /** `subsetLabels(labels, idx)`: the labels at the listed rows, in list order. */
  function SubsetLabels(labels: seq<int>, idx: seq<nat>): (r: seq<int>)
    requires InRange(idx, |labels|)
    ensures |r| == |idx| && forall j :: 0 <= j < |idx| ==> r[j] == labels[idx[j]]
  {
    Gather(labels, idx)
  }

  /** The weighted Gini of a candidate, or None when one side is empty
      (`if (leftIdx.isEmpty() || rightIdx.isEmpty()) continue`). */
  function Score(k: nat, features: seq<seq<int>>, labels: seq<int>, c: Candidate): (r: Option<real>)
    requires |features| <= |labels| && LabelsBelow(labels, k)
    ensures r.None? <==> |Sides(features, c).0| == 0 || |Sides(features, c).1| == 0
  {
    var (l, rt) := Sides(features, c);
    if |l| == 0 || |rt| == 0 then None
    else Some(WeightedGini(SubsetLabels(labels, l), SubsetLabels(labels, rt), k))
  }

  /** The stump a candidate stands for: its feature and threshold, and the
      majority class of each side. */
  function Fit(k: nat, features: seq<seq<int>>, labels: seq<int>, c: Candidate): (r: Stump)
    requires k > 0 && |features| <= |labels| && LabelsBelow(labels, k)
    ensures r.feature == c.feature && r.threshold == c.threshold && r.left < k && r.right < k
  {
    var (l, rt) := Sides(features, c);
    Stump(c.feature, c.threshold,
          ArgMaxInt(ClassCounts(SubsetLabels(labels, l), k)),
          ArgMaxInt(ClassCounts(SubsetLabels(labels, rt), k)))
  }

  /** A candidate's weighted Gini (None when it is skipped) and the stump it
      stands for: the two computations the search loop consults. */
  type Scorer = Candidate -> Option<real>
  type Fitter = Candidate -> Stump

  /** The loop over the drawn candidates, in draw order: a candidate replaces
      the best only when its weighted Gini is strictly lower. */
  function Search(score: Scorer, fit: Fitter, cands: seq<Candidate>, best: Stump, bestGini: real): (r: (Stump, real))
    ensures r.1 <= bestGini
    decreases |cands|
  {
    if |cands| == 0 then (best, bestGini)
    else
      var s := score(cands[0]);
      if s.Some? && s.value < bestGini then Search(score, fit, cands[1..], fit(cands[0]), s.value)
      else Search(score, fit, cands[1..], best, bestGini)
  }

  /** No candidate scores below `floor`. */
  ghost predicate NoneBelow(score: Scorer, cands: seq<Candidate>, floor: real)
  {
    forall j :: 0 <= j < |cands| && score(cands[j]).Some? ==> score(cands[j]).value >= floor
  }

  /** Candidate j has the lowest score, below `floor`, and is the first one
      with that score: earlier candidates score strictly more, later ones at
      least as much. */
  ghost predicate FirstLowestAt(score: Scorer, cands: seq<Candidate>, j: nat, floor: real)
  {
    && j < |cands|
    && score(cands[j]).Some?
    && score(cands[j]).value < floor
    && (forall m :: 0 <= m < j && score(cands[m]).Some? ==> score(cands[m]).value > score(cands[j]).value)
    && (forall m :: j < m < |cands| && score(cands[m]).Some? ==> score(cands[m]).value >= score(cands[j]).value)
  }

  /** The search keeps the start when no candidate beats it, and otherwise
      ends on the fit of the first candidate of lowest score. */
  lemma {:induction false} SearchFindsFirstLowest(score: Scorer, fit: Fitter, cands: seq<Candidate>,
                                                  best: Stump, bestGini: real)
    ensures var r := Search(score, fit, cands, best, bestGini);
      || (r == (best, bestGini) && NoneBelow(score, cands, bestGini))
      || (exists j: nat :: FirstLowestAt(score, cands, j, bestGini) && r.0 == fit(cands[j]) && r.1 == score(cands[j]).value)
    decreases |cands|
  {
    if |cands| > 0 {
      var c, rest := cands[0], cands[1..];
      var s := score(c);
      var taken := s.Some? && s.value < bestGini;
      var best', bestGini' := if taken then fit(c) else best, if taken then s.value else bestGini;
      var r := Search(score, fit, rest, best', bestGini');
      assert r == Search(score, fit, cands, best, bestGini);
      SearchFindsFirstLowest(score, fit, rest, best', bestGini');
      if r == (best', bestGini') && NoneBelow(score, rest, bestGini') {
        if taken {
          assert FirstLowestAt(score, cands, 0, bestGini) by {
            forall m | 0 < m < |cands| && score(cands[m]).Some?
              ensures score(cands[m]).value >= s.value
            {
              assert cands[m] == rest[m - 1];
            }
          }
        } else {
          forall m | 0 <= m < |cands| && score(cands[m]).Some?
            ensures score(cands[m]).value >= bestGini
          {
            if m > 0 {
              assert cands[m] == rest[m - 1];
            }
          }
        }
      } else {
        var j: nat :| FirstLowestAt(score, rest, j, bestGini') && r.0 == fit(rest[j]) && r.1 == score(rest[j]).value;
        assert cands[j + 1] == rest[j];
        assert FirstLowestAt(score, cands, j + 1, bestGini) by {
          forall m | 0 <= m < j + 1 && score(cands[m]).Some?
            ensures score(cands[m]).value > r.1
          {
            if m > 0 {
              assert cands[m] == rest[m - 1];
            }
          }
          forall m | j + 1 < m < |cands| && score(cands[m]).Some?
            ensures score(cands[m]).value >= r.1
          {
            assert cands[m] == rest[m - 1];
          }
        }
      }
    }
  }

  /** `Score` and `Fit` for one training set, as the search consults them. */
  function ScoreOf(k: nat, features: seq<seq<int>>, labels: seq<int>): Scorer
    requires |features| <= |labels| && LabelsBelow(labels, k)
  {
    c => Score(k, features, labels, c)
  }

  function FitOf(k: nat, features: seq<seq<int>>, labels: seq<int>): Fitter
    requires k > 0 && |features| <= |labels| && LabelsBelow(labels, k)
  {
    c => Fit(k, features, labels, c)
  }

  /** The overall majority class, `argMax(classCounts(labels))`. */
  function Majority(k: nat, labels: seq<int>): (r: nat)
    requires k > 0 && LabelsBelow(labels, k)
    ensures r < k
  {
    ArgMaxInt(ClassCounts(labels, k))
  }

  /** The drawn candidates of a training run. */
  function Candidates(features: seq<seq<int>>, g: Rng, nextInt: NextInt): (r: seq<Candidate>)
    requires ValidNextInt(nextInt) && |features| > 0 && Covered(features)
    ensures |r| == Tries(Width(features))
  {
    Draws(features, Tries(Width(features)), g, nextInt)
  }

  /** The stump training starts from: feature 0, threshold 0, the overall
      majority on both sides. */
  function Unsplit(k: nat, labels: seq<int>): Stump
    requires k > 0 && LabelsBelow(labels, k)
  {
    Stump(0, 0, Majority(k, labels), Majority(k, labels))
  }

  /** `train(features, labels)`, with the generator's initial state and its
      `nextInt` as inputs. Both sides predict a class id, and the feature is
      a column of row 0 unless the stump is the unsplit one. */
  function Train(k: nat, features: seq<seq<int>>, labels: seq<int>, g: Rng, nextInt: NextInt): (r: Stump)
    requires ValidNextInt(nextInt) && Trainable(k, features, labels)
    ensures r.left < k && r.right < k
    ensures r.feature < Width(features) || r == Unsplit(k, labels)
  {
    assert 0 <= labels[0] < k;
    var cands := Candidates(features, g, nextInt);
    var r := Search(ScoreOf(k, features, labels), FitOf(k, features, labels), cands, Unsplit(k, labels), LabelGini(labels, k));
    SearchFindsFirstLowest(ScoreOf(k, features, labels), FitOf(k, features, labels), cands, Unsplit(k, labels), LabelGini(labels, k));
    r.0
  }

  /** Training keeps the unsplit stump when no drawn candidate has a lower
      weighted Gini than all the labels, and otherwise fits the first drawn
      candidate of lowest weighted Gini. */
  lemma TrainFitsFirstLowest(k: nat, features: seq<seq<int>>, labels: seq<int>, g: Rng, nextInt: NextInt)
    requires ValidNextInt(nextInt) && Trainable(k, features, labels)
    ensures k > 0
    ensures var cands := Candidates(features, g, nextInt);
      var floor := LabelGini(labels, k);
      || (NoneBelow(ScoreOf(k, features, labels), cands, floor) && Train(k, features, labels, g, nextInt) == Unsplit(k, labels))
      || (exists j: nat :: FirstLowestAt(ScoreOf(k, features, labels), cands, j, floor)
            && Train(k, features, labels, g, nextInt) == Fit(k, features, labels, cands[j]))
  {
    assert 0 <= labels[0] < k;
    SearchFindsFirstLowest(ScoreOf(k, features, labels), FitOf(k, features, labels), Candidates(features, g, nextInt),
                           Unsplit(k, labels), LabelGini(labels, k));
  }

  /** `predict(sample)`: the left majority when `sample[featureIndex] <=
      threshold`, the right one otherwise. */
  function Predict(m: Stump, sample: seq<int>): (r: int)
    requires m.feature < |sample|
    ensures r == m.left || r == m.right
  {
    if sample[m.feature] <= m.threshold then m.left else m.right
  }

  /** A training row is predicted with the majority of the side the
      candidate's partition put it on. */
  lemma PredictFollowsSides(k: nat, features: seq<seq<int>>, labels: seq<int>, c: Candidate, i: nat)
    requires k > 0 && |features| <= |labels| && LabelsBelow(labels, k)
    requires i < |features| && c.feature < |features[i]|
    ensures var m := Fit(k, features, labels, c);
      Predict(m, features[i]) == if i in Sides(features, c).0 then m.left else m.right
  {
    var s := Range(|features|);
    PartitionCounts(features, c.feature, c.threshold, s);
    assert s[i] == i;
    assert Value(features, c.feature, i) == features[i][c.feature];
    var p := Partition(features, c.feature, c.threshold, s);
    if GoesLeft(features, c.feature, c.threshold, i) {
      assert i in multiset(p.0);
    } else {
      assert multiset(p.0)[i] == 0;
    }
  }

  /** When no candidate improves, the stump answers the overall majority for
      every sample. */
  lemma UnsplitPredictsMajority(k: nat, features: seq<seq<int>>, labels: seq<int>, g: Rng, nextInt: NextInt,
                                sample: seq<int>)
    requires ValidNextInt(nextInt) && Trainable(k, features, labels) && |sample| > 0
    requires NoneBelow(ScoreOf(k, features, labels), Candidates(features, g, nextInt), LabelGini(labels, k))
    ensures Train(k, features, labels, g, nextInt) == Unsplit(k, labels)
    ensures Predict(Train(k, features, labels, g, nextInt), sample) == Majority(k, labels)
  {
    TrainFitsFirstLowest(k, features, labels, g, nextInt);
    var cands := Candidates(features, g, nextInt);
    if j :| FirstLowestAt(ScoreOf(k, features, labels), cands, j, LabelGini(labels, k)) {
      assert false;
    }
  }

  /** A threshold read from a sample keeps that sample, and so the left side,
      non-empty. */
  lemma SampleThresholdKeepsLeft(features: seq<seq<int>>, c: Candidate)
    requires IsValueAt(features, c.feature, Range(|features|), c.threshold)
    ensures |Sides(features, c).0| > 0
  {
    var s := Range(|features|);
    var i :| 0 <= i < |s| && Value(features, c.feature, s[i]) == c.threshold;
    PartitionCounts(features, c.feature, c.threshold, s);
    assert s[i] in multiset(s);
    var p := Partition(features, c.feature, c.threshold, s);
    assert s[i] in multiset(p.0);
  }
}

=== FILE: trees.dfy ===
/** The binary tree both tree learners build (`Node` with `isLeaf`, `feature`,
    `threshold`, `left`, `right` and a leaf payload) and the prediction walk. */
module Trees {
  import opened Splitting

  /** A leaf holds a class id (DecisionTreeClassifier) or a real value
      (GradientTree); an internal node sends `sample[feature] <= threshold`
      to the left. */
  datatype Tree<V> = Leaf(value: V) | Node(feature: nat, threshold: int, left: Tree<V>, right: Tree<V>)

  /** Every feature tested in the tree is below `d`. */
  predicate FeaturesBelow<V>(t: Tree<V>, d: nat)
  {
    match t
    case Leaf(_) => true
    case Node(f, _, l, r) => f < d && FeaturesBelow(l, d) && FeaturesBelow(r, d)
  }

  /** Number of internal nodes on the longest root-to-leaf path. */
  function Height<V>(t: Tree<V>): nat
  {
    match t
    case Leaf(_) => 0
    case Node(_, _, l, r) => 1 + (if Height(l) < Height(r) then Height(r) else Height(l))
  }

  ghost function Leaves<V>(t: Tree<V>): set<V>
  {
    match t
    case Leaf(v) => {v}
    case Node(_, _, l, r) => Leaves(l) + Leaves(r)
  }

  /** `predict`: from the root, go left while `sample[feature] <= threshold`,
      right otherwise, and return the payload of the leaf reached. The answer
      is always one of the tree's leaf payloads. */
  function Predict<V>(t: Tree<V>, sample: seq<int>): (r: V)
    requires FeaturesBelow(t, |sample|)
    ensures r in Leaves(t)
  {
    match t
    case Leaf(v) => v
    case Node(f, thr, l, r) => if sample[f] <= thr then Predict(l, sample) else Predict(r, sample)
  }

  /** The listed training rows that `predict` sends to the same leaf as
      `sample`: at every node on the sample's path, the side of that node's
      partition the sample takes. */
  function Cell<V>(t: Tree<V>, features: seq<seq<int>>, idx: seq<nat>, sample: seq<int>): (r: seq<nat>)
    requires FeaturesBelow(t, |sample|)
    ensures multiset(r) <= multiset(idx)
  {
    match t
    case Leaf(_) => idx
    case Node(f, thr, lt, rt) =>
      var p := Partition(features, f, thr, idx);
      if sample[f] <= thr then Cell(lt, features, p.0, sample) else Cell(rt, features, p.1, sample)
  }

  /** A listed training row lies in the cell of its own prediction: the walk
      takes, at every node, the side the partition put the row on. */
  lemma {:induction false} RowInOwnCell<V>(t: Tree<V>, features: seq<seq<int>>, idx: seq<nat>, i: nat)
    requires i < |features| && FeaturesBelow(t, |features[i]|) && i in idx
    ensures i in Cell(t, features, idx, features[i])
    decreases t
  {
    if t.Node? {
      var p := Partition(features, t.feature, t.threshold, idx);
      assert i in multiset(p.0) + multiset(p.1);
      if features[i][t.feature] <= t.threshold {
        RowInOwnCell(t.left, features, p.0, i);
      } else {
        RowInOwnCell(t.right, features, p.1, i);
      }
    }
  }

  /** Every leaf's payload fits, by `fits`, the listed rows the partitions on
      its path leave at it: the form of every leaf rule of the learners. */
  ghost predicate LeavesFit<V>(t: Tree<V>, features: seq<seq<int>>, idx: seq<nat>, fits: (seq<nat>, V) -> bool)
  {
    match t
    case Leaf(v) => fits(idx, v)
    case Node(f, thr, lt, rt) =>
      var p := Partition(features, f, thr, idx);
      LeavesFit(lt, features, p.0, fits) && LeavesFit(rt, features, p.1, fits)
  }

  /** When every leaf fits its rows, the answer `predict` gives for a sample
      fits the rows of the leaf it reaches. */
  lemma {:induction false} PredictFits<V>(t: Tree<V>, features: seq<seq<int>>, idx: seq<nat>, sample: seq<int>,
                                          fits: (seq<nat>, V) -> bool)
    requires FeaturesBelow(t, |sample|) && LeavesFit(t, features, idx, fits)
    ensures fits(Cell(t, features, idx, sample), Predict(t, sample))
    decreases t
  {
    match t
    case Leaf(_) =>
    case Node(f, thr, lt, rt) =>
      var p := Partition(features, f, thr, idx);
      if sample[f] <= thr {
        PredictFits(lt, features, p.0, sample, fits);
      } else {
        PredictFits(rt, features, p.1, sample, fits);
      }
  }
}

=== FILE: utils.dfy ===
/** `Utils`: splitting the loaded rows into the 64 pixel columns and the
    label column, and the largest label of one or two label arrays. */
module Utils {
  import opened Common

  /** The number of feature columns of a row; the label sits right after them. */
  const FeatureColumns: nat := 64

  /** `extractFeatures(data)`: one new row per input row holding its first 64
      columns. `System.arraycopy` fails on a shorter row. */
  function ExtractFeatures(data: seq<seq<int>>): (r: seq<seq<int>>)
    requires forall i :: 0 <= i < |data| ==> |data[i]| >= FeatureColumns
    ensures |r| == |data|
    ensures forall i :: 0 <= i < |data| ==> |r[i]| == FeatureColumns
    ensures forall i, j :: 0 <= i < |data| && 0 <= j < FeatureColumns ==> r[i][j] == data[i][j]
  {
    seq(|data|, i requires 0 <= i < |data| => data[i][..FeatureColumns])
  }

  /** `extractLabels(data)`: column 64 of every row, which needs 65 columns. */
  function ExtractLabels(data: seq<seq<int>>): (r: seq<int>)
    requires forall i :: 0 <= i < |data| ==> |data[i]| > FeatureColumns
    ensures |r| == |data|
    ensures forall i :: 0 <= i < |data| ==> r[i] == data[i][FeatureColumns]
  {
    seq(|data|, i requires 0 <= i < |data| => data[i][FeatureColumns])
  }

  /** A row of at least 65 columns is its features followed by its label and
      whatever columns come after. */
  lemma RowSplits(data: seq<seq<int>>, i: nat)
    requires forall i :: 0 <= i < |data| ==> |data[i]| > FeatureColumns
    requires i < |data|
    ensures data[i] == ExtractFeatures(data)[i] + [ExtractLabels(data)[i]] + data[i][FeatureColumns + 1..]
  {
  }

  /** The largest of the labels, `Integer.MIN_VALUE` for none: the reference
      the two loops below are proved against. */
  function MaxOf(labels: seq<Int32>): Int32
  {
    if |labels| == 0 then IntMin
    else
      var m := MaxOf(labels[..|labels| - 1]);
      if labels[|labels| - 1] > m then labels[|labels| - 1] else m
  }

  /** `MaxOf` is an upper bound of the labels and either one of them or
      `Integer.MIN_VALUE`, which is what an empty array gives. */
  lemma {:induction false} MaxOfBounds(labels: seq<Int32>)
    ensures forall i :: 0 <= i < |labels| ==> labels[i] <= MaxOf(labels)
    ensures MaxOf(labels) == IntMin || MaxOf(labels) in labels
    ensures |labels| == 0 ==> MaxOf(labels) == IntMin
    decreases |labels|
  {
    if |labels| > 0 {
      var init := labels[..|labels| - 1];
      MaxOfBounds(init);
      assert forall i :: 0 <= i < |init| ==> init[i] == labels[i];
      assert MaxOf(init) in init ==> MaxOf(init) in labels;
    }
  }

  /** The maximum of a concatenation is the larger of the two maxima. */
  lemma {:induction false} MaxOfAppend(a: seq<Int32>, b: seq<Int32>)
    ensures MaxOf(a + b) == if MaxOf(a) >= MaxOf(b) then MaxOf(a) else MaxOf(b)
    decreases |b|
  {
    if |b| == 0 {
      assert a + b == a;
    } else {
      assert (a + b)[..|a + b| - 1] == a + b[..|b| - 1];
      MaxOfAppend(a, b[..|b| - 1]);
    }
  }

  /** `getMaxLabel(labels)`: the scan from `Integer.MIN_VALUE` that keeps a
      strictly larger label. */
  method GetMaxLabel(labels: seq<Int32>) returns (max: Int32)
    ensures max == MaxOf(labels)
    ensures forall i :: 0 <= i < |labels| ==> labels[i] <= max
    ensures max == IntMin || max in labels
  {
    max := IntMin;
    for i := 0 to |labels|
      invariant max == MaxOf(labels[..i])
    {
      assert labels[..i + 1][..i] == labels[..i];
      if labels[i] > max {
        max := labels[i];
      }
    }
    assert labels[..|labels|] == labels;
    MaxOfBounds(labels);
  }

  /** `getMaxLabel(labels1, labels2)`: the same scan over the first array and
      then the second, which gives the larger of the two single maxima. */
  method GetMaxLabel2(labels1: seq<Int32>, labels2: seq<Int32>) returns (max: Int32)
    ensures max == if MaxOf(labels1) >= MaxOf(labels2) then MaxOf(labels1) else MaxOf(labels2)
    ensures forall i :: 0 <= i < |labels1| ==> labels1[i] <= max
    ensures forall i :: 0 <= i < |labels2| ==> labels2[i] <= max
    ensures max == IntMin || max in labels1 || max in labels2
  {
    max := IntMin;
    for i := 0 to |labels1|
      invariant max == MaxOf(labels1[..i])
    {
      assert labels1[..i + 1][..i] == labels1[..i];
      if labels1[i] > max {
        max := labels1[i];
      }
    }
    assert labels1 + labels2[..0] == labels1[..|labels1|];
    for i := 0 to |labels2|
      invariant max == MaxOf(labels1 + labels2[..i])
    {
      assert (labels1 + labels2[..i + 1])[..|labels1| + i] == labels1 + labels2[..i];
      if labels2[i] > max {
        max := labels2[i];
      }
    }
    assert labels2[..|labels2|] == labels2;
    MaxOfAppend(labels1, labels2);
    MaxOfBounds(labels1);
    MaxOfBounds(labels2);
  }
}

=== FILE: voting.dfy ===
/** `VotingClassifier`: a plurality vote over member classifiers. The members
    are abstract: `train` and `predict` of a member are inputs, and training
    a member yields its trained state. The votes live in a `HashMap`, whose
    iteration order Java leaves unspecified; the model takes that order as
    an input, any listing of the keys once each. */
module Voting {
  import opened Common

  /** `train(features, labels)`: every member is trained on the same arrays,
      in member order. */
  function TrainAll<C>(members: seq<C>, train: (C, seq<seq<int>>, seq<int>) -> C,
                       features: seq<seq<int>>, labels: seq<int>): (r: seq<C>)
    ensures |r| == |members|
    ensures forall i :: 0 <= i < |members| ==> r[i] == train(members[i], features, labels)
  {
    seq(|members|, i requires 0 <= i < |members| => train(members[i], features, labels))
  }

  /** Each member's answer for the sample, in member order. */
  function Predictions<C>(members: seq<C>, predict: (C, seq<int>) -> int, sample: seq<int>): (r: seq<int>)
    ensures |r| == |members|
    ensures forall i :: 0 <= i < |members| ==> r[i] == predict(members[i], sample)
  {
    seq(|members|, i requires 0 <= i < |members| => predict(members[i], sample))
  }

  /** The `votes` map after the counting loop: a key for each class some
      member predicted, mapped to the number of members that predicted it. */
  function Votes(preds: seq<int>): (r: map<int, nat>)
    ensures forall p :: p in r <==> p in preds
    ensures forall p :: p in r ==> r[p] == multiset(preds)[p]
    decreases |preds|
  {
    if |preds| == 0 then map[]
    else
      var init := preds[..|preds| - 1];
      var p := preds[|preds| - 1];
      assert preds == init + [p];
      var v := Votes(init);
      v[p := (if p in v then v[p] else 0) + 1]
  }

  /** `order` lists the keys of `votes`, each once: an iteration order of
      the map. */
  ghost predicate Enumerates(order: seq<int>, votes: map<int, nat>)
  {
    && (forall i, j :: 0 <= i < j < |order| ==> order[i] != order[j])
    && (forall j :: 0 <= j < |order| ==> order[j] in votes)
    && (forall p :: p in votes ==> p in order)
  }

  /** The max loop from position i over the entries in `order`: an entry
      replaces the current class only with strictly more votes. */
  function Scan(votes: map<int, nat>, order: seq<int>, i: nat, maxVotes: nat, predicted: int): (r: int)
    requires i <= |order| && forall j :: 0 <= j < |order| ==> order[j] in votes
    decreases |order| - i
  {
    if i == |order| then predicted
    else if votes[order[i]] > maxVotes then Scan(votes, order, i + 1, votes[order[i]], order[i])
    else Scan(votes, order, i + 1, maxVotes, predicted)
  }

  /** From position i on, the scan keeps `predicted` when no entry beats
      `maxVotes`, and otherwise ends on an entry with the most votes from i
      on, which beats `maxVotes`. */
  lemma {:induction false} ScanFindsMax(votes: map<int, nat>, order: seq<int>, i: nat, maxVotes: nat, predicted: int)
    requires i <= |order| && forall j :: 0 <= j < |order| ==> order[j] in votes
    ensures var r := Scan(votes, order, i, maxVotes, predicted);
      || (r == predicted && forall j :: i <= j < |order| ==> votes[order[j]] <= maxVotes)
      || (exists j :: i <= j < |order| && r == order[j] && votes[r] > maxVotes
            && forall q :: i <= q < |order| ==> votes[order[q]] <= votes[r])
    decreases |order| - i
  {
    if i < |order| {
      var v := votes[order[i]];
      if v > maxVotes {
        ScanFindsMax(votes, order, i + 1, v, order[i]);
      } else {
        ScanFindsMax(votes, order, i + 1, maxVotes, predicted);
      }
    }
  }

  /** How many members predicted p. */
  function Count(preds: seq<int>, p: int): nat
  {
    multiset(preds)[p]
  }

  /** `predict(sample)` on the members' answers: -1 with no members, and
      otherwise one of the answers with the most votes. Which of several
      tied answers wins is up to `order`. */
  function Predict(preds: seq<int>, order: seq<int>): (r: int)
    requires Enumerates(order, Votes(preds))
    ensures |preds| == 0 ==> r == -1
    ensures |preds| > 0 ==> r in preds && forall p :: p in preds ==> Count(preds, p) <= Count(preds, r)
  {
    PickIsMax(preds, order);
    Scan(Votes(preds), order, 0, 0, -1)
  }

  lemma PickIsMax(preds: seq<int>, order: seq<int>)
    requires Enumerates(order, Votes(preds))
    ensures var r := Scan(Votes(preds), order, 0, 0, -1);
      && (|preds| == 0 ==> r == -1)
      && (|preds| > 0 ==> r in preds && forall p :: p in preds ==> Count(preds, p) <= Count(preds, r))
  {
    var votes := Votes(preds);
    var r := Scan(votes, order, 0, 0, -1);
    ScanFindsMax(votes, order, 0, 0, -1);
    if |preds| > 0 {
      assert preds[0] in votes;
      var q :| 0 <= q < |order| && order[q] == preds[0];
      assert votes[order[q]] > 0;
      var j :| 0 <= j < |order| && r == order[j] && votes[r] > 0
        && forall q :: 0 <= q < |order| ==> votes[order[q]] <= votes[r];
      assert r in votes;
      forall p | p in preds
        ensures Count(preds, p) <= Count(preds, r)
      {
        assert p in votes;
        var i :| 0 <= i < |order| && order[i] == p;
        assert votes[order[i]] <= votes[r];
      }
    }
  }

  /** A class with strictly more votes than any other wins whatever the map
      order. */
  lemma UniqueWinner(preds: seq<int>, order: seq<int>, w: int)
    requires Enumerates(order, Votes(preds))
    requires w in preds && forall p :: p in preds && p != w ==> Count(preds, p) < Count(preds, w)
    ensures Predict(preds, order) == w
  {
  }

  /** The ensemble's answer: the vote over the members' predictions. */
  function PredictAll<C>(members: seq<C>, predict: (C, seq<int>) -> int, sample: seq<int>, order: seq<int>): (r: int)
    requires Enumerates(order, Votes(Predictions(members, predict, sample)))
    ensures |members| == 0 ==> r == -1
    ensures |members| > 0 ==> exists i :: 0 <= i < |members| && r == predict(members[i], sample)
  {
    Predict(Predictions(members, predict, sample), order)
  }

  /** The sum of the counts of the listed classes. */
  function Tally(preds: seq<int>, order: seq<int>): nat
    decreases |order|
  {
    if |order| == 0 then 0 else Tally(preds, order[..|order| - 1]) + Count(preds, order[|order| - 1])
  }

  /** The answers without those equal to x. */
  function Without(preds: seq<int>, x: int): (r: seq<int>)
    ensures |r| + Count(preds, x) == |preds|
    ensures Count(r, x) == 0
    ensures forall p :: p != x ==> Count(r, p) == Count(preds, p)
    decreases |preds|
  {
    if |preds| == 0 then []
    else
      var init := preds[..|preds| - 1];
      var p := preds[|preds| - 1];
      assert preds == init + [p];
      if p == x then Without(init, x) else Without(init, x) + [p]
  }

  /** Tallies only read the counts of the listed classes. */
  lemma {:induction false} TallyAgrees(a: seq<int>, b: seq<int>, order: seq<int>)
    requires forall i :: 0 <= i < |order| ==> Count(a, order[i]) == Count(b, order[i])
    ensures Tally(a, order) == Tally(b, order)
    decreases |order|
  {
    if |order| > 0 {
      TallyAgrees(a, b, order[..|order| - 1]);
    }
  }

  /** Over a listing of every answer, each once, the counts add up to the
      number of answers. */
  lemma {:induction false} TallyCoversAll(preds: seq<int>, order: seq<int>)
    requires forall i, j :: 0 <= i < j < |order| ==> order[i] != order[j]
    requires forall i :: 0 <= i < |preds| ==> preds[i] in order
    ensures Tally(preds, order) == |preds|
    decreases |order|
  {
    if |order| == 0 {
      assert order == [];
    } else {
      var init := order[..|order| - 1];
      var x := order[|order| - 1];
      var rest := Without(preds, x);
      forall i | 0 <= i < |init|
        ensures Count(preds, init[i]) == Count(rest, init[i])
      {
        assert init[i] == order[i] != x;
      }
      TallyAgrees(preds, rest, init);
      forall p | p in rest
        ensures p in init
      {
        assert Count(rest, p) > 0;
        if p == x {
          assert false;
        }
        assert Count(preds, p) > 0;
        assert p in preds;
        var i :| 0 <= i < |order| && order[i] == p;
        assert i != |order| - 1;
        assert init[i] == p;
      }
      TallyCoversAll(rest, init);
    }
  }

  /** `votes` totals the member count: each member casts exactly one vote. */
  lemma VotesTotal(preds: seq<int>, order: seq<int>)
    requires Enumerates(order, Votes(preds))
    ensures Tally(preds, order) == |preds|
  {
    var votes := Votes(preds);
    assert forall p :: p in votes ==> p in order;
    forall i | 0 <= i < |preds|
      ensures preds[i] in order
    {
      assert preds[i] in votes;
    }
    TallyCoversAll(preds, order);
  }
}
